=== FILE: README.md ===
# Badugi game core, modelled in Dafny

This project models the core of a Badugi poker server: four components, each given as pure
functions over immutable records.

- **The card and hand evaluator** (`cards.js`):
  - building the 52-card deck, the ace-low card values, and the Fisher–Yates shuffle;
  - `findBestBadugi`: the largest sub-hand with all suits and all ranks different;
  - `evaluateBadugiHand`: a band for the badugi size plus the card values, where lower scores are better;
  - `compareBadugiHands`: the lowest score wins, then a tie-break that compares cards from the highest down.
- **The per-room game engine** (`GameService.js`):
  - starting a game: antes, dealer, first turn and the deal;
  - drawing cards and passing the turn;
  - the transitions from betting to exchange and from exchange to betting;
  - betting actions and card exchanges;
  - showdown with an exact split of the pot;
  - cleanup after a game;
  - the guards of the turn-timer timeout.
- **The room registry** (the `server.js` socket handlers): create, join, leave, reserve a leave, cancel a reservation, start, log out, disconnect, and the copy of a room with its password removed.
- **The robot list manager** (`RobotManager.php`): the least unused id, generating robots, deleting them and updating them.

Each module lives in its own file:
- `options.dfy`: Option and Result.
- `seqs.dfy`: Filter.
- `lookup.dfy`: Lookup, the linear search behind `findIndex`.
- `cards.dfy`: Cards.
- `evaluation.dfy`: Evaluation.
- `comparison.dfy`: Comparison.
- `rooms.dfy`: Rooms, the Room and Player records.
- `dealing.dfy`: Dealing, drawCard and the deal.
- `settlement.dfy`: Settlement, showdown and cleanup.
- `turns.dfy`: Turns, advanceTurn and the phase transitions.
- `start.dfy`: Starting.
- `betting.dfy`: Betting.
- `exchange.dfy`: Exchange.
- `timeouts.dfy`: Timeouts.
- `registry.dfy`: Registry.
- `robots.dfy`: Robots.

How the source's state maps onto the model:
- A room is one `Room` value. Its deck and its armed timer are fields of that value, where the service keeps them in per-room maps.
- An engine operation returns the next room. `None` stands for a room that the showdown's cleanup emptied, and therefore deleted.
- The shuffle's `Math.random` becomes a parameter `pick: nat -> nat`.
- The robot store's hashing and clock become parameters: `hash` and `now`.

## Model

| member | source | states |
|---|---|---|
| Cards.RankValue | badugi-game-server/src/utils/cards.js:57-64 | every card value lies in 1..13, and a digit rank is worth its digit |
| Cards.RankValueIsPosition | badugi-game-server/src/utils/cards.js:57-64 | a rank's value is its position in RANKS plus one, so distinct ranks have distinct values |
| Cards.SuitPosition | badugi-game-server/src/utils/cards.js:4 | each suit has its own position in SUITS |
| Cards.IdInjective | badugi-game-server/src/utils/cards.js:13-20 | two cards have the same id (suit letter then rank letter) exactly when they are the same card |
| Cards.FullDeckPosition | badugi-game-server/src/utils/cards.js:26-34 | the card of suit s and rank r sits at position 13·s + r of the deck as pushed |
| Cards.FullDeckDistinct | badugi-game-server/src/utils/cards.js:26-34 | the unshuffled deck holds no card twice |
| Cards.FullDeckComplete | badugi-game-server/src/utils/cards.js:26-34 | every (suit, rank) card is in the unshuffled deck |
| Cards.FullDeckIdsDistinct | badugi-game-server/src/utils/cards.js:26-34 | no two positions of the deck carry the same id |
| Cards.CreateDeck | badugi-game-server/src/utils/cards.js:26-34 | the built deck has 52 cards, holds every card once and only once, and its ids are unique |
| Cards.Swap | badugi-game-server/src/utils/cards.js:44-47 | a swap of two positions permutes the deck |
| Cards.ShuffleDown | badugi-game-server/src/utils/cards.js:43-48 | every swap choice `pick` can make leaves a permutation of the deck |
| Cards.ShuffleDeck | badugi-game-server/src/utils/cards.js:41-49 | the shuffled deck is a permutation of the input, and the input, a value, is not changed |
| Cards.PermutationKeepsNoDuplicates | badugi-game-server/src/utils/cards.js:41-49 | shuffling a deck without repeated cards gives a deck without repeated cards |
| Evaluation.BadugiIffPairwiseDistinct | badugi-game-server/src/utils/cards.js:83-86 | the set-size test holds exactly when no two cards of the combination share a suit or a rank |
| Evaluation.BadugiPermutation | badugi-game-server/src/utils/cards.js:87 | sorting a combination does not change whether it is a badugi |
| Evaluation.SortByValue | badugi-game-server/src/utils/cards.js:87 | sorting by value gives a sorted permutation of the combination |
| Evaluation.SortKeepsSorted | badugi-game-server/src/utils/cards.js:87 | the sort is stable: an already sorted combination is left as it is |
| Evaluation.SortIdempotent | badugi-game-server/src/utils/cards.js:87 | sorting twice is sorting once |
| Evaluation.CombosShape | badugi-game-server/src/utils/cards.js:78-118 | the nested loops visit strictly increasing position tuples of sizes 4, 3 and 2 |
| Evaluation.TuplesComplete | badugi-game-server/src/utils/cards.js:78-118 | every strictly increasing position tuple of a 4-card hand is visited by the loops |
| Evaluation.FirstBadugi | badugi-game-server/src/utils/cards.js:78-92 | a found combination is the first visited one, in loop order, that is a badugi; nothing found means no visited combination qualifies |
| Evaluation.NoneOfSize | badugi-game-server/src/utils/cards.js:78-118 | when no visited combination of a size qualifies, the hand has no badugi of that size at all |
| Evaluation.Sorted | badugi-game-server/src/utils/cards.js:87 | the returned combination is a sorted badugi drawn from the hand, of the combination's size |
| Evaluation.FindBestBadugi | badugi-game-server/src/utils/cards.js:71-126 | the result is a sorted badugi of 1 to 4 cards drawn from the hand; no larger badugi exists in the hand; the 1-card result is hand[0] |
| Evaluation.BestOfTriples | badugi-game-server/src/utils/cards.js:95-123 | with no 4-card badugi, the search from triples down gives a sorted badugi of the largest size present |
| Evaluation.BestOfPairs | badugi-game-server/src/utils/cards.js:109-123 | the pair search gives a 2-card badugi when one exists, and hand[0] otherwise |
| Evaluation.SingleCard | badugi-game-server/src/utils/cards.js:121-123 | the fallback is the 1-card badugi hand[0] |
| Evaluation.SortedFirst | badugi-game-server/src/utils/cards.js:78-92 | the combination one size's loop returns is, sorted, the first qualifying one of that size |
| Evaluation.BestIsFirstOfLargest | badugi-game-server/src/utils/cards.js:71-126 | a result of two or more cards is the first qualifying combination in loop order (quads, then triples, then pairs) of its size, sorted by value |
| Evaluation.Evaluate | badugi-game-server/src/utils/cards.js:134-212 | a hand that is not 4 cards is Invalid, with an infinite score, a zero count and no badugiCards field; the score is infinite exactly when there is no badugi; a paired 4-card hand scores 900000; otherwise the category is the badugi size, and the badugi is findBestBadugi's |
| Evaluation.StrictlyRising | badugi-game-server/src/utils/cards.js:87 | the values of a sorted badugi rise strictly |
| Evaluation.RisingBounds | badugi-game-server/src/utils/cards.js:171-175 | the value sum of a badugi of k cards lies between A-2-3-4's prefix and T-J-Q-K's suffix |
| Evaluation.ScoreBands | badugi-game-server/src/utils/cards.js:170-197 | an unpaired hand's score lies in its band plus the sum range of its badugi size |
| Evaluation.BandsOrdered | badugi-game-server/src/utils/cards.js:182-197 | a larger badugi always scores lower than a smaller one |
| Evaluation.UnpairedBeatsPaired | badugi-game-server/src/utils/cards.js:164-197 | every unpaired 4-card hand scores below every paired one |
| Evaluation.FirstTripleNotLowest | badugi-game-server/src/utils/cards.js:95-106 | the search keeps the first qualifying triple, not the lowest: s2 h3 dK d4 yields s2 h3 dK although s2 h3 d4 sums lower |
| Evaluation.SingleFallbackKeepsFirstCard | badugi-game-server/src/utils/cards.js:121-123 | the fallback keeps the unsorted hand's first card: sK sA s5 s7 keeps sK and scores 30013 |
| Evaluation.SingleCardScore | badugi-game-server/src/utils/cards.js:170-197 | an unpaired hand left with the fallback scores 30000 plus hand[0]'s value |
| Comparison.MinPass | badugi-game-server/src/utils/cards.js:221-236 | the first loop finds a score no entry beats, held by some entry, and collects exactly the entries holding it, in order |
| Comparison.MinStepKeeps | badugi-game-server/src/utils/cards.js:225-235 | one more entry keeps the first loop's invariant |
| Comparison.CmpFlip | badugi-game-server/src/utils/cards.js:268-278 | swapping the two card sequences of the inner comparison flips its outcome |
| Comparison.CmpTiedIffEqual | badugi-game-server/src/utils/cards.js:268-278 | the inner comparison ties exactly when the value sequences are equal |
| Comparison.CmpTrans | badugi-game-server/src/utils/cards.js:268-278 | beating, card by card from the highest down, is transitive |
| Comparison.TiePass | badugi-game-server/src/utils/cards.js:253-288 | the tie-break keeps at least one candidate; when the first candidate holds cards, the kept cards and every winner are of its size; it keeps its invariant when all candidates share a size |
| Comparison.TieStepKeepsInvariant | badugi-game-server/src/utils/cards.js:259-286 | one more candidate of the common size keeps the tie-break invariant |
| Comparison.TieBreakKeepsUnbeaten | badugi-game-server/src/utils/cards.js:253-288 | among candidates of one size, the tie-break keeps exactly those no other candidate beats, in their order |
| Comparison.TieAllInvalid | badugi-game-server/src/utils/cards.js:253-257 | candidates that are all invalid each reset `currentBestHandCards` to `undefined`, so only the last one is kept |
| Comparison.TiePassOfSize | badugi-game-server/src/utils/cards.js:253-264 | when the first candidate holds cards, the loop runs as if only the candidates of its size were there |
| Comparison.Compare | badugi-game-server/src/utils/cards.js:220-292 | the winners are empty exactly for no entries; every winner is an entry, and no entry scores below a winner |
| Comparison.EqualScoreEqualSize | badugi-game-server/src/utils/cards.js:170-197 | unpaired hands with equal scores hold badugis of equal size |
| Comparison.BandsApart | badugi-game-server/src/utils/cards.js:182-197 | a score falls in the range of at most one badugi size |
| Comparison.UnpairedTiesSameLength | badugi-game-server/src/utils/cards.js:260-264 | unpaired entries that share a score share a badugi size, so the length skip never fires for them |
| Comparison.CompareUnpaired | badugi-game-server/src/utils/cards.js:220-292 | over unpaired hands, several tied entries narrow to exactly those no other tied entry beats card by card |
| Comparison.CompareWinners | badugi-game-server/src/utils/cards.js:220-292 | over evaluated hands, for every input: a lone lowest score wins alone; tied invalid hands leave only the last; otherwise the winners are the tied entries of the first one's badugi size that no such entry beats card by card |
| Comparison.TiePassApart | badugi-game-server/src/utils/cards.js:253-288 | the tie-break loop never lists a user twice when the candidates are distinct users |
| Comparison.CompareApart | badugi-game-server/src/utils/cards.js:220-292 | compareBadugiHands never lists a user twice when the entries are distinct users |
| Rooms.CountActive | badugi-game-server/src/services/GameService.js:194 | the number of seats neither folded nor leaving is at most the number of seats |
| Lookup.FindFirst | badugi-game-server/src/services/GameService.js:87 | the search gives the first position whose element passes, or -1 exactly when none passes |
| Rooms.FindIndex | badugi-game-server/src/services/GameService.js:87 | findIndex gives the first seat of the user, or -1 when the user holds no seat |
| Rooms.CountActivePositive | badugi-game-server/src/services/GameService.js:194-201 | some seat is in the hand exactly when the count is positive |
| Rooms.TwoActiveSeats | badugi-game-server/src/services/GameService.js:194-201 | two seats in the hand are two different seat positions |
| Dealing.DrawCard | badugi-game-server/src/services/GameService.js:173-180 | an empty deck yields nothing; otherwise the last card is drawn and the rest is what remains |
| Dealing.DrawMany | badugi-game-server/src/services/GameService.js:711-721 | k draws take min(k, deck size) cards from the end; a short deck is emptied |
| Dealing.ReversePermutes | badugi-game-server/src/services/GameService.js:711-721 | the cards drawn in reverse order are the same cards |
| Dealing.DealConserves | badugi-game-server/src/services/GameService.js:135-142 | dealing creates and loses no card: the deck left, then every hand in reverse order of drawing, is the deck dealt from |
| Dealing.DealSizes | badugi-game-server/src/services/GameService.js:135-142 | with four cards per seat available, every seat gets four cards and 4n leave the deck |
| Dealing.DealDistinct | badugi-game-server/src/services/GameService.js:135-142 | from a deck without repeated cards, no dealt card is dealt twice or left in the deck |
| Dealing.HandsDisjoint | badugi-game-server/src/services/GameService.js:135-142 | two different seats never share a card |
| Dealing.DealApart | badugi-game-server/src/services/GameService.js:135-142 | the hands are pairwise disjoint and none of their cards is left in the deck |
| Starting.AnteUp | badugi-game-server/src/services/GameService.js:72-82 | every seat pays the ante once, keeps its user, and is reset into the hand |
| Starting.AnteUpCharges | badugi-game-server/src/services/GameService.js:72-82 | the antes take exactly n times the ante from the stacks |
| Starting.AnteUpIds | badugi-game-server/src/services/GameService.js:72-82 | the antes keep the seat ids distinct |
| Starting.HandsMap | badugi-game-server/src/services/GameService.js:135-142 | the hands map has an entry exactly for the seated users |
| Starting.HandsMapLookup | badugi-game-server/src/services/GameService.js:135-142 | with distinct ids, each seat's entry is its own hand |
| Starting.WithHands | badugi-game-server/src/services/GameService.js:140 | every seat's best hand becomes the evaluation of its dealt hand, nothing else changes |
| Starting.Dealer | badugi-game-server/src/services/GameService.js:96-101 | the dealer is a seat of the table |
| Starting.StartGame | badugi-game-server/src/services/GameService.js:39-166 | refused unless waiting with two or more seats; when some seat cannot pay the ante the room goes back to waiting with its seats untouched; it starts exactly when every seat can pay and the creator is seated |
| Starting.AntedStart | badugi-game-server/src/services/GameService.js:72-166 | once the antes are paid, the game starts exactly when the creator holds a seat |
| Starting.StartIsDeal | badugi-game-server/src/services/GameService.js:39-166 | a game that starts is dealt from the shuffled fresh deck |
| Starting.AntedTurn | badugi-game-server/src/services/GameService.js:112-129 | after the antes every seat is in the hand, so the first turn is the seat after the dealer |
| Starting.StartedState | badugi-game-server/src/services/GameService.js:45-129 | a started game is in betting round 0 with nothing bet, every seat has paid the ante into the pot, the dealer is a seat, the seat after it acts with its timer armed, and the round counters are legal |
| Starting.StartKeepsSeats | badugi-game-server/src/services/GameService.js:39-166 | whatever startGame does, the room keeps its id, creator, capacity and seat users |
| Starting.StartConserves | badugi-game-server/src/services/GameService.js:72-82 | the antes move chips from the stacks into the pot one for one |
| Starting.StartDeals | badugi-game-server/src/services/GameService.js:135-142 | with distinct seats and at most 13 of them, each seat holds four cards, no two seats share a card, no dealt card stays in the deck, the deck keeps 52 - 4n cards, and each best hand is that hand's evaluation |
| Starting.ShuffledDistinct | badugi-game-server/src/services/GameService.js:135-137 | the shuffled fresh deck holds 52 distinct cards |
| Starting.DealerFollowsCreator | badugi-game-server/src/services/GameService.js:96-101 | after a cleanup the next dealer is always the seat after the creator's |
| Starting.FirstGameDealer | badugi-game-server/server.js:238 | a freshly created room (dealer index 0) deals its first game from seat 1 |
| Turns.Next | badugi-game-server/src/services/GameService.js:97 | the next seat round the table is a seat of the table |
| Turns.NextIsMod | badugi-game-server/src/services/GameService.js:97 | the next seat is (i + 1) mod n |
| Turns.Rotate | badugi-game-server/src/services/GameService.js:251-292 | a seat the turn loop settles on may act |
| Turns.RotateFindsNext | badugi-game-server/src/services/GameService.js:251-292 | with distinct ids, the turn loop finds exactly the next seat round the table that may act, and finds none only when no other seat may act |
| Turns.FirstActiveAt | badugi-game-server/src/services/GameService.js:338-359 | the first-turn search settles only on a seat still in the hand |
| Turns.FirstActiveFinds | badugi-game-server/src/services/GameService.js:338-359 | the search finds the first seat at or after the start still in the hand, and fails only when nobody is |
| Turns.OpenExchange | badugi-game-server/src/services/GameService.js:308-321 | entering an exchange lets every seat in the hand exchange and clears every round bet and acted flag |
| Turns.IndexOf | badugi-game-server/src/services/GameService.js:338 | the seat of the last actor, or -1 |
| Turns.AfterBetting | badugi-game-server/src/services/GameService.js:300-373 | after the last exchange it is showdown; otherwise the next exchange opens with no bet, round bets cleared, the timer armed and chips conserved |
| Turns.ExchangeOpenedState | badugi-game-server/src/services/GameService.js:308-359 | the opened exchange has the legal counters, no bet and an armed timer, and keeps the chips |
| Turns.OpenBetting | badugi-game-server/src/services/GameService.js:391-399 | entering a betting round charges every seat in the hand the ante and clears the round's flags |
| Turns.OpenBettingCharges | badugi-game-server/src/services/GameService.js:391-399 | the per-round antes take exactly the ante per seat in the hand |
| Turns.AfterExchange | badugi-game-server/src/services/GameService.js:380-451 | the betting round advances; after the last it is showdown; otherwise every seat in the hand antes into the pot and the next round opens armed, with chips conserved |
| Turns.BettingOpenedState | badugi-game-server/src/services/GameService.js:417-440 | the opened betting round has the legal counters, no bet and an armed timer, and keeps the chips |
| Turns.AdvanceTurn | badugi-game-server/src/services/GameService.js:187-293 | after advanceTurn the room is either back to waiting or still in play with the timer armed for a seat that may act, and chips are conserved while it plays |
| Turns.AdvanceKeepsCounters | badugi-game-server/src/services/GameService.js:187-293 | advanceTurn keeps the round counters in their legal pattern |
| Turns.AdvanceMovesPhase | badugi-game-server/src/services/GameService.js:205-246 | with two seats in the hand, a closed betting round opens an exchange (or ends the game after the last), and a closed exchange opens the next betting round |
| Turns.AnteCanGoNegative | badugi-game-server/src/services/GameService.js:391-399 | the per-round ante is taken unchecked, so a seat holding less than the ante ends with a negative stack |
| Betting.Wager | badugi-game-server/src/services/GameService.js:508-550 | a bet or raise is accepted exactly when the difference to the seat's round bet is positive and covered; the seat pays that difference and its total becomes the bet |
| Betting.Decide | badugi-game-server/src/services/GameService.js:495-651 | an action is refused as unknown exactly when it is not one of the recognised types; a die is always accepted and folds the seat; an accepted action keeps the seat's user and marks it as having acted |
| Betting.DecideAccounts | badugi-game-server/src/services/GameService.js:495-647 | every accepted action moves chips from the seat one for one, adds exactly what it paid to the seat's round bet, marks it as having acted, and changes nothing else of the seat but its stack, round bet, status and fold; only a die folds |
| Betting.DecideEffects | badugi-game-server/src/services/GameService.js:495-647 | a check or die moves no chips; a bet or raise pays a covered positive amount and rises at least the unit over a standing bet; a call against a standing bet pays exactly the difference when the stack covers it and otherwise pays the whole stack, leaving 0 chips; a call against no bet is a check |
| Betting.Actor | badugi-game-server/src/services/GameService.js:465-470 | the acting seat holds the user's id; it is -1 exactly when the user holds no seat |
| Betting.Gate | badugi-game-server/src/services/GameService.js:465-487 | the action passes the gates exactly on the user's turn, seated, in the hand, in a betting phase, and with chips or a die or call |
| Betting.Apply | badugi-game-server/src/services/GameService.js:535-547 | an accepted move replaces the acting seat, adds what it paid to the pot and records the bet and the actor |
| Betting.BetStep | badugi-game-server/src/services/GameService.js:462-651 | an action failing the gates is refused with the gate's reason |
| Betting.BetStepConserves | badugi-game-server/src/services/GameService.js:462-651 | an accepted action conserves chips plus pot and changes no seat but the acting one |
| Betting.BetStepKeepsStacks | badugi-game-server/src/services/GameService.js:462-651 | no accepted action leaves a stack negative or repeats a seat id |
| Betting.HandleBettingAction | badugi-game-server/src/services/GameService.js:462-656 | accepted exactly when the action is; afterwards the room is waiting or still in play with its timer armed |
| Betting.HandleConserves | badugi-game-server/src/services/GameService.js:462-656 | while the game goes on after an action, chips plus pot are conserved |
| Betting.OnlyTheTurnActs | badugi-game-server/src/services/GameService.js:465-487 | an action out of turn, out of the betting phase, from an unseated user or from a seat out of the hand is refused |
| Betting.UnknownRefused | badugi-game-server/src/services/GameService.js:462-651 | an unrecognised action is never accepted, and once the gates pass it is refused as unknown |
| Exchange.SplitMembers | badugi-game-server/src/services/GameService.js:704-709 | the picked cards are the hand's cards named by an id, and the kept cards are the rest |
| Exchange.SplitHand | badugi-game-server/src/services/GameService.js:704-709 | every card of the hand is either picked or kept, never both |
| Exchange.PickedAtMost | badugi-game-server/src/services/GameService.js:704 | from a hand of distinct cards no more cards are picked than there are ids |
| Exchange.PickedExactly | badugi-game-server/src/services/GameService.js:700-707 | distinct ids that each name a card of a duplicate-free hand pick exactly one card per id |
| Exchange.RepeatedIdsPickTooFew | badugi-game-server/src/services/GameService.js:700-707 | naming one card twice picks fewer cards than ids were given |
| Exchange.ForeignIdPicksTooFew | badugi-game-server/src/services/GameService.js:700-707 | an id naming no card of a duplicate-free hand picks fewer cards than ids were given |
| Exchange.PickedAllIff | badugi-game-server/src/services/GameService.js:700-707 | from a duplicate-free hand the filter picks one card per id exactly when the ids are distinct and each names a card of the hand |
| Exchange.Gate | badugi-game-server/src/services/GameService.js:668-690 | the exchange passes the gates exactly on the user's turn, in an exchange phase that is still open, with the seat's exchange unused, not folded, and at most four ids |
| Exchange.Stay | badugi-game-server/src/services/GameService.js:692-698 | a stay uses up the seat's exchange and changes no card and no chip |
| Exchange.Exchanged | badugi-game-server/src/services/GameService.js:723-731 | a completed exchange records and evaluates the new hand, keeps the popped deck and leaves the pot |
| Exchange.ExchangeStep | badugi-game-server/src/services/GameService.js:665-731 | refused exactly when the gates fail, or some ids are given and the hand is missing or the filter picks a different number of cards than ids were given; an aborted exchange changes only the deck |
| Exchange.HandleCardExchange | badugi-game-server/src/services/GameService.js:665-745 | refused exactly when the step is; a stay or completed exchange leaves the room waiting or armed for the next turn |
| Exchange.AutoStay | badugi-game-server/src/services/GameService.js:975-986 | the timer's empty exchange is a stay: refused exactly when the exchange of no cards is, and never aborted |
| Exchange.StepDoneIs | badugi-game-server/src/services/GameService.js:700-731 | a completed exchange picks one card per id, draws as many, and records a four-card hand |
| Exchange.ExchangeKeepsCards | badugi-game-server/src/services/GameService.js:700-731 | an exchange creates and duplicates no card: new hand plus deck plus discards is old hand plus old deck |
| Exchange.SwapKeepsCards | badugi-game-server/src/services/GameService.js:709-721 | discarding the picked cards and drawing from the deck only moves cards |
| Exchange.AbortLosesDrawn | badugi-game-server/src/services/GameService.js:711-721 | an exchange aborted for lack of cards keeps the hand and the seats, and loses exactly the cards it popped |
| Exchange.ExchangeSucceeds | badugi-game-server/src/services/GameService.js:665-731 | from a four-card hand of distinct cards, naming distinct cards of it with enough cards in the deck completes the exchange with a four-card hand of the kept and drawn cards |
| Exchange.ExchangedSeat | badugi-game-server/src/services/GameService.js:723-731 | after an exchange the seat holds its new hand, evaluated, with its exchange used; other seats and all chips are unchanged |
| Exchange.StayUsesExchange | badugi-game-server/src/services/GameService.js:692-698 | a stay changes only the seat's exchange flag and the last actor |
| Exchange.RepeatedIdsRefused | badugi-game-server/src/services/GameService.js:700-707 | a repeated card id is refused |
| Exchange.ForeignIdRefused | badugi-game-server/src/services/GameService.js:700-707 | an id naming no card of the hand is refused with the cards-not-in-hand reply |
| Exchange.ExchangeRefusedIff | badugi-game-server/src/services/GameService.js:665-707 | with a duplicate-free hand on record, an exchange is refused exactly when the gates fail, or cards are named and an id repeats or names no card of the hand |
| Settlement.Reset | badugi-game-server/src/services/GameService.js:874-884 | a surviving seat keeps its user, stack, name, socket and creator flag and has its per-hand state cleared |
| Settlement.Survivors | badugi-game-server/src/services/GameService.js:871-885 | the survivors are the seats not reserved for leaving, in order, each reset |
| Settlement.Reseat | badugi-game-server/src/services/GameService.js:888-903 | the creator always holds a seat afterwards; it changes to players[0] only when the old creator is gone |
| Settlement.Cleanup | badugi-game-server/src/services/GameService.js:846-905 | the room is deleted exactly when every seat was leaving; otherwise it is back to waiting with pot, bet and counters reset |
| Settlement.SurvivorSeats | badugi-game-server/src/services/GameService.js:871-885 | exactly the seats not reserved for leaving survive, each reset, with their stacks and chip total intact |
| Settlement.CleanupSeats | badugi-game-server/src/services/GameService.js:846-905 | cleanup keeps exactly the seats not leaving, with their stacks, discards the pot, and replaces the creator by players[0] only when the creator is gone |
| Settlement.CleanupIdempotent | badugi-game-server/src/services/GameService.js:846-905 | cleaning up a room that was just cleaned up changes nothing |
| Settlement.EntriesOf | badugi-game-server/src/services/GameService.js:782-785 | one compared entry per eligible seat, under that seat's id |
| Settlement.Pay | badugi-game-server/src/services/GameService.js:797-806 | paying changes no seat's user and no seat count |
| Settlement.PayOnlyStacks | badugi-game-server/src/services/GameService.js:797-806 | paying changes nothing of a seat but its stack |
| Settlement.PayExact | badugi-game-server/src/services/GameService.js:797-806 | with distinct ids every seat gains exactly what the loop pays to its id |
| Settlement.PaidToOnce | badugi-game-server/src/services/GameService.js:797-806 | a winner listed once at position idx gets the share plus one chip when idx is below the remainder |
| Settlement.PayTotal | badugi-game-server/src/services/GameService.js:797-806 | when every winner is seated, the payout adds a share per winner plus the bonuses to the chips |
| Settlement.SplitIsExact | badugi-game-server/src/services/GameService.js:797-806 | floor(pot / w) each plus one chip for the first pot mod w winners adds up to the pot |
| Settlement.FirstActive | badugi-game-server/src/services/GameService.js:762-767 | the first seat still in the hand, and -1 only when there is none |
| Settlement.Payout | badugi-game-server/src/services/GameService.js:764-806 | a payout changes nothing of the seats but their stacks; someone is paid exactly when several seats are eligible or a forced showdown has one; that one seat, the first still in the hand, receives the whole pot |
| Settlement.Settle | badugi-game-server/src/services/GameService.js:752-836 | the game ends and no seat changes but in its stack |
| Settlement.WinnersSeated | badugi-game-server/src/services/GameService.js:782-806 | every compared winner holds a seat |
| Settlement.PayoutConserves | badugi-game-server/src/services/GameService.js:764-806 | a payout hands out exactly the pot |
| Settlement.WinnerIdsDistinct | badugi-game-server/src/services/GameService.js:782-796 | with distinct seat ids, the compared winners are distinct users |
| Settlement.PayShares | badugi-game-server/src/services/GameService.js:797-806 | paying distinct winner ids into distinct seats gives the i-th winner's seat the share plus its bonus and leaves every other stack |
| Settlement.SplitShares | badugi-game-server/src/services/GameService.js:784-806 | in a showdown among several eligible seats, the i-th compared winner gains `pot / w` plus one chip while i is below the remainder, and every other seat keeps its stack |
| Settlement.SplitConserves | badugi-game-server/src/services/GameService.js:797-806 | splitting the pot among seated winners hands out exactly the pot |
| Settlement.SettleConserves | badugi-game-server/src/services/GameService.js:752-836 | paying out creates and destroys no chips: stacks plus pot are unchanged |
| Settlement.SettleEmptiesPot | badugi-game-server/src/services/GameService.js:764-806 | whenever someone is eligible to be paid, somebody is paid and the pot becomes 0 |
| Settlement.Showdown | badugi-game-server/src/services/GameService.js:752-839 | after showdown the room is waiting with no timer, or deleted exactly when every seat was leaving |
| Timeouts.Unlock | badugi-game-server/src/services/GameService.js:1001 | the lock is released on a room that still exists |
| Timeouts.HandleTimerTimeout | badugi-game-server/src/services/GameService.js:957-1002 | a timeout for a player whose turn is over, or one arriving under the lock, is ignored; the lock is released afterwards |
| Timeouts.TimerExpires | badugi-game-server/src/services/GameService.js:957-1002 | after the timer fires a room in play has no timer or an armed one |
| Timeouts.TimeoutStalls | badugi-game-server/src/services/GameService.js:987-999 | a leaving seat's timeout in a betting phase leaves the room in play with no timer, refusing every betting action and every exchange |
| Timeouts.HandleTimerTimeoutFixed | badugi-game-server/src/services/GameService.js:957-1002 | the corrected handler leaves a room whose turn timed out waiting or armed again |
| Timeouts.FixedTimeoutRearms | badugi-game-server/src/services/GameService.js:957-1002 | with the correction an expired timer leaves the room waiting, gone, or armed again |
| Timeouts.FixedAgreesWhenAccepted | badugi-game-server/src/services/GameService.js:957-1002 | the correction changes nothing when the automatic action is accepted |
| Registry.Sanitize | badugi-game-server/server.js:193-195 | the copy sent to clients carries no password and differs from the room only in it |
| Registry.Put | badugi-game-server/server.js:233-241 | storing a room changes no other room and not the counter |
| Registry.Update | badugi-game-server/server.js:313-328 | a room still there is stored back, an emptied one is deleted, and no other room changes |
| Registry.NewRoom | badugi-game-server/server.js:233-241 | a new room has five seats, is waiting with dealer index 0, and is private exactly when a password was given |
| Registry.CreateRoom | badugi-game-server/server.js:227-250 | refused exactly without a name or a bet amount; otherwise the room is filed under the counter, which moves on by one, and the reply carries no password |
| Registry.CreateKeepsWellFormed | badugi-game-server/server.js:227-250 | a created room never overwrites another, and the registry stays well formed |
| Registry.NegativeBetLosesChip | badugi-game-server/server.js:228-234 | a bet amount of -101 is accepted, and the source's split of the pot -909 that such a three-seat game reaches between two seated winners pays out -910, one chip less than the pot |
| Registry.CreateRoomFixed | badugi-game-server/server.js:228-234 | the corrected creation is refused exactly without a name or with a bet amount that is not positive, and otherwise is createRoom's |
| Registry.FixedAntesSplitExactly | badugi-game-server/src/services/GameService.js:797-806 | in a room the corrected creation accepts, any number of antes makes a non-negative pot, and every split of it hands out exactly the pot |
| Registry.Buyin | badugi-game-server/server.js:277 | a new seat brings the given stack, or 100000 when none or zero is given |
| Registry.JoinGate | badugi-game-server/server.js:257-260 | joining passes exactly for an existing, waiting, not full room whose password, when private, matches |
| Registry.JoinRoom | badugi-game-server/server.js:252-292 | refused exactly when a gate fails, changing nothing; otherwise the reply is the room without its password |
| Registry.RejoinKeepsSeat | badugi-game-server/server.js:262-275 | a rejoining user only changes their socket; no seat moves |
| Registry.NewcomerAppended | badugi-game-server/server.js:277-291 | a newcomer is appended with their buy-in and no hand, creator exactly when they created the room |
| Registry.JoinKeepsWellFormed | badugi-game-server/server.js:252-292 | joining never seats a user twice and never overfills a room |
| Registry.Vacate | badugi-game-server/server.js:313-328 | the seat is removed, an emptied room is gone, and a departing creator is replaced by the first remaining seat |
| Registry.VacateKeepsIds | badugi-game-server/server.js:313-328 | the departed user holds no seat afterwards and the rest stay distinct |
| Registry.LeaveRoom | badugi-game-server/server.js:294-331 | leaving a missing room succeeds; an unseated user, or the creator of a waiting room with others, is refused; in play the leave is only reserved; otherwise the seat is vacated |
| Registry.LeaveKeepsWellFormed | badugi-game-server/server.js:294-331 | leaving keeps the registry well formed |
| Registry.JoinThenLeave | badugi-game-server/server.js:252-331 | joining a waiting room and leaving it again, as anyone but the creator, restores the registry, or deletes the room when it was empty |
| Registry.ReserveLeave | badugi-game-server/server.js:333-345 | reserving succeeds exactly for a seated user of a room in play, and only sets that seat's flag |
| Registry.CancelLeave | badugi-game-server/server.js:347-359 | cancelling succeeds exactly for a reserved seat in a room in play, and only clears that flag |
| Registry.ReserveThenCancel | badugi-game-server/server.js:333-359 | reserving a leave and cancelling it restores the registry |
| Registry.ReserveUndone | badugi-game-server/server.js:333-359 | clearing a reservation just made restores the room |
| Registry.ReserveKeepsWellFormed | badugi-game-server/server.js:333-359 | reserving or cancelling keeps the registry well formed |
| Registry.StartGameHandler | badugi-game-server/server.js:361-376 | accepted exactly for the creator of a room not in play that the engine starts; anything the engine changed is kept |
| Registry.StartKeepsWellFormed | badugi-game-server/server.js:361-376 | starting keeps the registry well formed |
| Registry.FindSocket | badugi-game-server/server.js:446 | the first seat holding the socket, and -1 only when none does |
| Registry.EachRoom | badugi-game-server/server.js:408-431 | every room is replaced by its step's result, and the rooms it empties are deleted |
| Registry.LogoutFrom | badugi-game-server/server.js:408-431 | a room where the user holds no seat is unchanged |
| Registry.UserLoggedOut | badugi-game-server/server.js:401-438 | a report about another user changes nothing; otherwise the user leaves every room |
| Registry.LogoutLeavesNoSeat | badugi-game-server/server.js:401-438 | after logging out the user holds no seat anywhere, and the registry stays well formed |
| Registry.Disconnect | badugi-game-server/server.js:440-479 | a disconnect changes no counter and creates no room |
| Registry.DisconnectSeat | badugi-game-server/server.js:440-479 | a seat in a game in play becomes reserved, with every other seat unchanged; any other seat holding the socket is removed |
| Registry.DisconnectKeepsWellFormed | badugi-game-server/server.js:440-479 | a disconnect keeps the registry well formed |
| Robots.Upto | badugi-server/app/Helpers/RobotManager.php:125-133 | the ids 1..m, m of them |
| Robots.Ids | badugi-server/app/Helpers/RobotManager.php:127 | exactly the ids the robots carry |
| Robots.FreeFrom | badugi-server/app/Helpers/RobotManager.php:125-133 | the search from n finds a free id, and every smaller positive id is taken |
| Robots.GenerateUniqueId | badugi-server/app/Helpers/RobotManager.php:125-133 | the least positive id no robot has |
| Robots.UniqueIdBound | badugi-server/app/Helpers/RobotManager.php:125-133 | the least free id is at most one past the number of robots |
| Robots.Decimal | badugi-server/app/Helpers/RobotManager.php:50 | an id prints as a non-empty run of decimal digits |
| Robots.DecimalInjective | badugi-server/app/Helpers/RobotManager.php:50 | different ids print differently |
| Robots.EmailInjective | badugi-server/app/Helpers/RobotManager.php:50 | different ids get different addresses |
| Robots.NewRobot | badugi-server/app/Helpers/RobotManager.php:57-66 | a new robot has 100000 points, is inactive, and is stamped with the time given |
| Robots.Generate | badugi-server/app/Helpers/RobotManager.php:48-69 | at most count robots are added, each with a fresh positive id, the address of that id no existing robot holds, the hashed password, and no two with one id |
| Robots.GenerateRobots | badugi-server/app/Helpers/RobotManager.php:43-73 | the saved list is the old robots followed by the new ones, and only the new ones are returned |
| Robots.GenerateFillsCount | badugi-server/app/Helpers/RobotManager.php:48-69 | over a list of generated robots no round is skipped: exactly count robots are added |
| Robots.CollisionStopsGeneration | badugi-server/app/Helpers/RobotManager.php:48-69 | once the least free id's address is already taken, no round can add anything |
| Robots.CollisionExample | badugi-server/app/Helpers/RobotManager.php:48-69 | a robot numbered 2 holding the address of number 1 stops generateRobots from adding any |
| Robots.DeleteRobot | badugi-server/app/Helpers/RobotManager.php:80-87 | every robot with that address goes and every other stays; the answer says whether any went |
| Robots.DeleteKeepsOrder | badugi-server/app/Helpers/RobotManager.php:80-87 | the survivors stay in order |
| Robots.DeleteIdempotent | badugi-server/app/Helpers/RobotManager.php:80-87 | deleting twice is deleting once, and the second call reports nothing went |
| Robots.Merge | badugi-server/app/Helpers/RobotManager.php:99-112 | every field the patch carries (id, name, email, points, is_active) takes the patch's value and every other keeps the robot's; a filled password is hashed in, a blank or missing one keeps the stored hash; the creation time stays and the update time is now |
| Robots.FindId | badugi-server/app/Helpers/RobotManager.php:98-99 | the first robot with the id, or -1 only when none has it |
| Robots.UpdateRobot | badugi-server/app/Helpers/RobotManager.php:95-118 | nothing is saved exactly when no robot has the id; otherwise only the first robot with it is merged |
| Robots.BlankPasswordKept | badugi-server/app/Helpers/RobotManager.php:102-106 | an update without a filled password never changes any stored hash |

## Left out

- Socket.IO emits, room joins and payload shaping (`turnChanged`, `gameEnded`, `roomsUpdate`, the getRooms and getRoomInfo replies) are transport. The model keeps only the replies' room copies, to show they carry no password.
- The `setTimeout` machinery of startTurnTimer and clearTurnTimer (GameService.js:912-950). A timer is the field `timer: Option<int>`, the player it is armed for.
- `Math.random` in shuffleDeck is the parameter `pick`. The model proves the shuffle is a permutation for every choice, not that it is uniform.
- Authentication, the JWT checks and the Laravel calls in server.js are foreign services.
- The `playerAction` and `exchangeCards` dispatch in server.js only forwards to the engine, which is modelled.
- The robot store's file I/O is left out: a robot list is a value passed in and returned. `Hash::make` is the parameter `hash`, and `now()` is the parameter `now`.
- Robots.GenerateRobots treats hashing and the clock as fixed for the duration of one call. `Hash::make` salts each call, so the source's robots get different hashes of one password, and `now()` is read again for each robot (RobotManager.php:60-65); the model gives every robot `hash(password)` and the one time `now`.
- findRobotByEmail and findRobotById are lookups. Only FindId, the lookup updateRobot itself does, is modelled.
- `array_merge` in updateRobot is limited to the keys `Patch` has: id, name, email, password, password_confirmation, points and is_active. Any other key is not modelled. In particular a `created_at` key in `$data` would overwrite the creation time in the source (RobotManager.php:108), while Robots.Merge always keeps it.
- PHP's loose comparisons and JavaScript's type coercions (`parseInt`, string ids) are not modelled. Ids are integers and amounts are integers.
- The informational fields `activePlayers`, `discardPiles`, `gameRoundName`, the descriptions and `rankName` strings are left out. Only the category is kept.
- The transient `showdown` status set during showdown is not kept. The model goes straight to the cleaned-up room.
- The `actionType` string is not parsed. `Action` has one constructor per recognised action and `Unknown` for every other string, which Betting.Decide refuses with UnknownAction once the gates have passed (GameService.js:649-651).
- Evaluation.FindBestBadugi requires a 4-card hand. Its only caller, evaluateBadugiHand, checks the length first, so other lengths never reach it.
- Starting.StartDeals requires at most 13 seats. More seats would exhaust the 52-card deck, which rooms of at most five seats never do.
- Comparison.TieStep: a candidate with no badugi cards after one with cards would make the source throw a TypeError (reading `length` of `undefined`, cards.js:260); the model skips it. This never arises from evaluated hands: tied entries share a score, and only an invalid hand scores Infinity and has no cards (Comparison.CompareWinners).
- Evaluation.Evaluate: the unpaired score's value sum is characterised by Evaluation.ScoreBands and Evaluation.SingleCardScore, not restated in its contract. The 999999 branch for a badugi of no cards (cards.js:198-201) is unreachable, since a 4-card hand always has a badugi.
- Settlement.SettleConserves requires a non-negative pot. createRoom accepts a negative bet amount (server.js:228, 234), every ante of such a room makes the pot more negative, and the source's split of a negative pot does not hand out exactly the pot (see "## Findings"). For a non-negative pot it does.

## Findings

| source | as written | input that shows it | evidently intended | confidence | as-written member | corrected member |
|---|---|---|---|---|---|---|
| badugi-game-server/server.js:228-234 | createRoom refuses only a missing or zero bet amount (`!roomData.betAmount`) and stores `parseInt` of it, so a negative bet amount is accepted | a room created with betAmount -101 and started with three seats antes -303; one seat folds in the first betting round, and the other two ante -101 each at the start of the three later rounds (GameService.js:391-396), so the pot reaches -909; the showdown split between those two, `Math.floor(-909 / 2)` = -455 each plus a bonus while `idx < -909 % 2` = -1, which never holds, pays out -910 (GameService.js:797-806), so one chip disappears from the room | a bet amount must be positive, so pots are never negative and every split hands out exactly the pot | not executed | Registry.NegativeBetLosesChip | Registry.CreateRoomFixed |
| badugi-game-server/src/services/GameService.js:957-1002 | when the turn timer of a betting seat runs out, the timer is already cleared and the automatic die is passed to handleBettingAction; if that refuses it, nothing else happens | a seat that reserved its leave (or disconnected) while it was its turn to bet, whose timer then runs out: the die is refused because the seat is leaving, so the room stays in play with no timer and the turn on that seat. A connected user can recover it by cancelling the reservation (server.js:347-359) and acting; for a seat whose user disconnected, the room stays stuck | when the automatic action is refused, the turn still moves on, so a room in play always has a timer armed for a seat that may act | not executed | Timeouts.TimeoutStalls | Timeouts.HandleTimerTimeoutFixed |

=== FILE: betting.dfy ===
/**
 * handleBettingAction (badugi-game-server/src/services/GameService.js): check, bet ("bbing"),
 * call, raise and die, each validated against the turn, the seat and the phase.
 */
module Betting {
  import opened Options
  import opened Rooms
  import opened Turns

  /** The action types a client may send; anything else is `Unknown`. */
  datatype Action = Check | Bet | Call | Raise | Die | Unknown

  /** Why an action was refused. A refused action changes nothing. */
  datatype Refusal =
    | NotYourTurn
    | NoSuchPlayer
    | AlreadyFolded
    | LeaveIsReserved
    | NotBettingPhase
    | OutOfChips
    | BetAlreadyMade
    | BetBelowMinimum
    | FirstBetNotUnit
    | NothingToPay
    | ShortOfChips
    | NothingToCall
    | UnknownAction

  /** What an accepted action does: the acting seat afterwards, the chips it moved to the pot, and the room's betting marks. */
  datatype Move = Move(seat: Player, paid: int, currentBet: int, lastBetting: Option<int>)

  /**
   * The new total bet of a bet or raise: `amount` is the seat's whole bet for the round, so it
   * pays the difference from what it has already put in, which must be positive and covered.
   */
  function Wager(p: Player, pid: int, amount: int): (m: Result<Move, Refusal>)
    ensures m.Ok? <==> 0 < amount - p.currentRoundBet <= p.chips
    ensures m.Ok? ==>
      && m.value.paid == amount - p.currentRoundBet && m.value.currentBet == amount
      && m.value.lastBetting == Some(pid)
      && m.value.seat == p.(chips := p.chips - m.value.paid, currentRoundBet := amount, hasActed := true)
  {
    var pay := amount - p.currentRoundBet;
    if pay <= 0 then Err(NothingToPay)
    else if pay > p.chips then Err(ShortOfChips)
    else Ok(Move(p.(chips := p.chips - pay, currentRoundBet := amount, hasActed := true), pay, amount, Some(pid)))
  }

  /**
   * One action of seat p (user pid) against the room's current bet and bet unit, once the turn,
   * seat and phase checks have passed. Only an unrecognised action is refused as unknown, and
   * a die is always accepted.
   */
  function Decide(p: Player, pid: int, currentBet: int, unit: int, lastBetting: Option<int>, action: Action, amount: int)
    : (m: Result<Move, Refusal>)
    ensures action == Unknown <==> m == Err(UnknownAction)
    ensures action == Die ==> m.Ok? && m.value.seat.folded
    ensures m.Ok? ==> m.value.seat.id == p.id && m.value.seat.hasActed
  {
    match action
    case Check =>
      if currentBet > 0 || currentBet > p.currentRoundBet then Err(BetAlreadyMade)
      else Ok(Move(p.(hasActed := true), 0, currentBet, lastBetting))
    case Bet =>
      if amount < unit then Err(BetBelowMinimum)
      else if currentBet == 0 && amount != unit then Err(FirstBetNotUnit)
      else if currentBet != 0 && amount < currentBet + unit then Err(BetBelowMinimum)
      else Wager(p, pid, amount)
    case Call =>
      var need := currentBet - p.currentRoundBet;
      if currentBet == 0 then
        if need != 0 then Err(NothingToCall) else Ok(Move(p.(hasActed := true), 0, currentBet, lastBetting))
      else if need <= 0 then Err(NothingToCall)
      else if need > p.chips then
        Ok(Move(p.(chips := 0, currentRoundBet := p.currentRoundBet + p.chips, hasActed := true), p.chips, currentBet, Some(pid)))
      else Ok(Move(p.(chips := p.chips - need, currentRoundBet := currentBet, hasActed := true), need, currentBet, Some(pid)))
    case Raise =>
      if currentBet == 0 && amount < unit then Err(BetBelowMinimum)
      else if currentBet != 0 && amount < currentBet + unit then Err(BetBelowMinimum)
      else Wager(p, pid, amount)
    case Die => Ok(Move(p.(folded := true, status := SeatFolded, hasActed := true), 0, currentBet, lastBetting))
    case Unknown => Err(UnknownAction)
  }

  /**
   * Every accepted action moves chips from the seat to the pot one for one, adds exactly what
   * it paid to the seat's round bet, keeps the seat's user, marks it as having acted, and
   * touches nothing else of the seat but its stack, its round bet and, for a die, its fold.
   */
  lemma DecideAccounts(p: Player, pid: int, currentBet: int, unit: int, lastBetting: Option<int>, action: Action, amount: int)
    requires Decide(p, pid, currentBet, unit, lastBetting, action, amount).Ok?
    ensures var m := Decide(p, pid, currentBet, unit, lastBetting, action, amount).value;
      && m.seat.chips == p.chips - m.paid
      && m.seat.currentRoundBet == p.currentRoundBet + m.paid
      && m.seat.hasActed
      && m.seat == p.(chips := m.seat.chips, currentRoundBet := m.seat.currentRoundBet, folded := m.seat.folded,
                     status := m.seat.status, hasActed := true)
      && (m.seat.folded <==> p.folded || action == Die)
  {
    var m := Decide(p, pid, currentBet, unit, lastBetting, action, amount).value;
    match action
    case Bet => assert m == Wager(p, pid, amount).value;
    case Raise => assert m == Wager(p, pid, amount).value;
    case _ =>
  }

  /**
   * What each kind of action does to the bet. A check or a die moves no chips and leaves the
   * bet; a bet or raise pays a positive amount it can cover and makes the seat's total the new
   * bet, which rises by at least the unit over a standing bet; a call against a standing bet
   * pays exactly the difference when the stack covers it and the whole stack otherwise, never
   * leaving a negative stack from a non-negative one.
   */
  lemma DecideEffects(p: Player, pid: int, currentBet: int, unit: int, lastBetting: Option<int>, action: Action, amount: int)
    requires Decide(p, pid, currentBet, unit, lastBetting, action, amount).Ok?
    ensures var m := Decide(p, pid, currentBet, unit, lastBetting, action, amount).value;
      && (action == Check ==> currentBet <= 0 && m.paid == 0 && m.currentBet == currentBet && m.lastBetting == lastBetting)
      && (action == Die ==> m.paid == 0 && m.currentBet == currentBet && m.lastBetting == lastBetting)
      && (action == Bet || action == Raise ==>
            && 0 < m.paid <= p.chips && m.currentBet == amount == m.seat.currentRoundBet && m.lastBetting == Some(pid)
            && (currentBet >= 0 ==> m.currentBet >= unit)
            && (currentBet != 0 ==> m.currentBet >= currentBet + unit)
            && (action == Bet && currentBet == 0 ==> m.currentBet == unit))
      && (action == Call ==>
            && m.currentBet == currentBet
            && (currentBet == 0 ==> m.paid == 0 && p.currentRoundBet == 0 && m.lastBetting == lastBetting)
            && (currentBet != 0 ==> m.lastBetting == Some(pid) && (p.chips > 0 ==> 0 < m.paid <= p.chips))
            && (currentBet != 0 ==> Matched(m.seat, currentBet) && m.seat.chips >= 0)
            && (currentBet != 0 && currentBet - p.currentRoundBet <= p.chips ==>
                  m.paid == currentBet - p.currentRoundBet && m.seat.currentRoundBet == currentBet)
            && (currentBet != 0 && currentBet - p.currentRoundBet > p.chips ==>
                  m.paid == p.chips && m.seat.chips == 0 && m.seat.currentRoundBet == p.currentRoundBet + p.chips))
      && (p.chips >= 0 ==> m.seat.chips >= 0)
  {
  }

  /** The seat that acts: the first with the user's id. */
  function Actor(r: Room, pid: int): (i: int)
    ensures -1 <= i < |r.players|
    ensures i >= 0 ==> r.players[i].id == pid
    ensures i == -1 <==> !Seated(r.players, pid)
  {
    FindIndex(r.players, pid)
  }

  /** The checks handleBettingAction makes before looking at the action itself, in its order. */
  function Gate(r: Room, pid: int, action: Action): (g: Result<nat, Refusal>)
    ensures g.Ok? <==>
      && r.currentTurnPlayer == Some(pid) && Seated(r.players, pid)
      && Active(r.players[Actor(r, pid)]) && r.phase == BettingPhase
      && (r.players[Actor(r, pid)].chips <= 0 ==> action == Die || action == Call)
    ensures g.Ok? ==> g.value == Actor(r, pid)
  {
    if r.currentTurnPlayer != Some(pid) then Err(NotYourTurn)
    else
      var i := Actor(r, pid);
      if i == -1 then Err(NoSuchPlayer)
      else if r.players[i].folded then Err(AlreadyFolded)
      else if r.players[i].leaveReserved then Err(LeaveIsReserved)
      else if r.phase != BettingPhase then Err(NotBettingPhase)
      else if r.players[i].chips <= 0 && action != Die && action != Call then Err(OutOfChips)
      else Ok(i)
  }

  /** The room after an accepted move by seat i. */
  function Apply(r: Room, i: nat, pid: int, m: Move): (c: Room)
    requires i < |r.players|
    ensures c.players == r.players[i := m.seat] && c.pot == r.pot + m.paid
    ensures c.currentBet == m.currentBet && c.lastBettingPlayer == m.lastBetting && c.lastActionPlayer == Some(pid)
  {
    r.(players := r.players[i := m.seat], pot := r.pot + m.paid, currentBet := m.currentBet,
       lastBettingPlayer := m.lastBetting, lastActionPlayer := Some(pid))
  }

  /**
   * The betting action itself, before the turn advances: refused, or the room with the move
   * applied to the acting seat.
   */
  function BetStep(r: Room, pid: int, action: Action, amount: int): (c: Result<Room, Refusal>)
    ensures c.Ok? ==> Gate(r, pid, action).Ok?
    ensures Gate(r, pid, action).Err? ==> c == Err(Gate(r, pid, action).error)
  {
    match Gate(r, pid, action)
    case Err(e) => Err(e)
    case Ok(i) =>
      var p := r.players[i];
      match Decide(p, pid, r.currentBet, r.betAmount, r.lastBettingPlayer, action, amount)
      case Err(e) => Err(e)
      case Ok(m) => Ok(Apply(r, i, pid, m))
  }

  /**
   * An accepted action changes only the acting seat and the pot: the chips in the room are
   * conserved, every other seat is untouched, and the acting seat keeps its user.
   */
  lemma BetStepConserves(r: Room, pid: int, action: Action, amount: int)
    requires BetStep(r, pid, action, amount).Ok?
    ensures var c := BetStep(r, pid, action, amount).value; var i := Actor(r, pid);
      && Wealth(c) == Wealth(r)
      && |c.players| == |r.players|
      && c.players[i].id == pid
      && (forall k :: 0 <= k < |r.players| && k != i ==> c.players[k] == r.players[k])
  {
    var i := Actor(r, pid);
    var p := r.players[i];
    var m := Decide(p, pid, r.currentBet, r.betAmount, r.lastBettingPlayer, action, amount).value;
    DecideAccounts(p, pid, r.currentBet, r.betAmount, r.lastBettingPlayer, action, amount);
    SumChipsUpdate(r.players, i, m.seat);
  }

  /** No accepted action leaves a seat with a negative stack, nor breaks the distinct seat ids. */
  lemma BetStepKeepsStacks(r: Room, pid: int, action: Action, amount: int)
    requires BetStep(r, pid, action, amount).Ok?
    requires UniqueIds(r.players) && forall k :: 0 <= k < |r.players| ==> r.players[k].chips >= 0
    ensures var c := BetStep(r, pid, action, amount).value;
      && UniqueIds(c.players)
      && forall k :: 0 <= k < |c.players| ==> c.players[k].chips >= 0
  {
    var i := Actor(r, pid);
    var p := r.players[i];
    DecideAccounts(p, pid, r.currentBet, r.betAmount, r.lastBettingPlayer, action, amount);
    DecideEffects(p, pid, r.currentBet, r.betAmount, r.lastBettingPlayer, action, amount);
  }

  /**
   * handleBettingAction: the action, then advanceTurn. `Ok(None)` is a room the showdown's
   * cleanup emptied.
   */
  function HandleBettingAction(r: Room, pid: int, action: Action, amount: int): (c: Result<Option<Room>, Refusal>)
    ensures c.Ok? <==> BetStep(r, pid, action, amount).Ok?
    ensures c.Ok? && c.value.Some? ==>
      c.value.value.status == Waiting || (c.value.value.status == r.status && Armed(c.value.value))
  {
    match BetStep(r, pid, action, amount)
    case Err(e) => Err(e)
    case Ok(r1) => Ok(AdvanceTurn(r1))
  }

  /** While the game goes on after an action, the chips in the room are conserved. */
  lemma HandleConserves(r: Room, pid: int, action: Action, amount: int)
    requires HandleBettingAction(r, pid, action, amount).Ok?
    requires HandleBettingAction(r, pid, action, amount).value.Some?
    requires HandleBettingAction(r, pid, action, amount).value.value.status != Waiting
    ensures Wealth(HandleBettingAction(r, pid, action, amount).value.value) == Wealth(r)
  {
    BetStepConserves(r, pid, action, amount);
  }

  /**
   * An unrecognised action is never accepted; once the gates have passed it is refused as
   * unknown.
   */
  lemma UnknownRefused(r: Room, pid: int, amount: int)
    ensures HandleBettingAction(r, pid, Unknown, amount).Err?
    ensures Gate(r, pid, Unknown).Ok? ==> HandleBettingAction(r, pid, Unknown, amount) == Err(UnknownAction)
  {
  }

  /**
   * Only the player whose turn it is, seated, still in the hand, during a betting phase, can
   * get an action through.
   */
  lemma OnlyTheTurnActs(r: Room, pid: int, action: Action, amount: int)
    requires r.currentTurnPlayer != Some(pid) || r.phase != BettingPhase || !Seated(r.players, pid)
      || (Seated(r.players, pid) && !Active(r.players[Actor(r, pid)]))
    ensures HandleBettingAction(r, pid, action, amount).Err?
  {
  }
}

=== FILE: cards.dfy ===
/**
 * Cards, the 52-card deck and the Fisher-Yates shuffle
 * (badugi-game-server/src/utils/cards.js).
 */
module Cards {

  datatype Suit = Spade | Heart | Diamond | Club

  datatype Rank = Ace | Two | Three | Four | Five | Six | Seven
                | Eight | Nine | Ten | Jack | Queen | King

  /** A card as createCard builds it; its numeric value and its id are derived from it. */
  datatype Card = Card(suit: Suit, rank: Rank)

  /** SUITS, in the order the deck is built. */
  const Suits: seq<Suit> := [Spade, Heart, Diamond, Club]

  /** RANKS, ace low, in the order the deck is built. */
  const Ranks: seq<Rank> := [Ace, Two, Three, Four, Five, Six, Seven, Eight, Nine, Ten, Jack, Queen, King]

  function SuitLetter(s: Suit): char {
    match s
    case Spade => 's'
    case Heart => 'h'
    case Diamond => 'd'
    case Club => 'c'
  }

  function RankLetter(r: Rank): char {
    match r
    case Ace => 'A'
    case Two => '2'
    case Three => '3'
    case Four => '4'
    case Five => '5'
    case Six => '6'
    case Seven => '7'
    case Eight => '8'
    case Nine => '9'
    case Ten => 'T'
    case Jack => 'J'
    case Queen => 'Q'
    case King => 'K'
  }

  /** getCardValue: A is 1, T J Q K are 10 to 13, a digit is its own value. */
  function RankValue(r: Rank): (v: int)
    ensures 1 <= v <= 13
    ensures '2' <= RankLetter(r) <= '9' ==> v == RankLetter(r) as int - '0' as int
  {
    match r
    case Ace => 1
    case Two => 2
    case Three => 3
    case Four => 4
    case Five => 5
    case Six => 6
    case Seven => 7
    case Eight => 8
    case Nine => 9
    case Ten => 10
    case Jack => 11
    case Queen => 12
    case King => 13
  }

  /** The `value` field createCard stores. */
  function Value(c: Card): int {
    RankValue(c.rank)
  }

  /** The `id` field createCard stores: suit letter followed by rank letter. */
  function Id(c: Card): string {
    [SuitLetter(c.suit), RankLetter(c.rank)]
  }

  /** Position of a rank in RANKS, and of a suit in SUITS. */
  function RankIndex(r: Rank): nat {
    RankValue(r) - 1
  }

  function SuitIndex(s: Suit): nat {
    match s
    case Spade => 0
    case Heart => 1
    case Diamond => 2
    case Club => 3
  }

  /** The value of a rank is its position in RANKS plus one, and distinct ranks have distinct values. */
  lemma RankValueIsPosition(r: Rank)
    ensures RankIndex(r) < 13 && Ranks[RankIndex(r)] == r
    ensures forall r' :: RankValue(r') == RankValue(r) ==> r' == r
  {
  }

  lemma SuitPosition(s: Suit)
    ensures SuitIndex(s) < 4 && Suits[SuitIndex(s)] == s
  {
  }

  /** Ids are unique: two cards with the same id are the same card. */
  lemma IdInjective(a: Card, b: Card)
    ensures Id(a) == Id(b) <==> a == b
  {
    if Id(a) == Id(b) {
      assert Id(a)[0] == Id(b)[0] && Id(a)[1] == Id(b)[1];
    }
  }

  /** The deck in the order createDeck pushes it: suits outer, ranks inner. */
  function FullDeck(): seq<Card> {
    seq(52, i requires 0 <= i < 52 => Card(Suits[i / 13], Ranks[i % 13]))
  }

  /** Card c sits at position 13 * (suit position) + (rank position) of the unshuffled deck. */
  lemma FullDeckPosition(c: Card)
    ensures 13 * SuitIndex(c.suit) + RankIndex(c.rank) < 52
    ensures FullDeck()[13 * SuitIndex(c.suit) + RankIndex(c.rank)] == c
  {
    RankValueIsPosition(c.rank);
    SuitPosition(c.suit);
    var i := 13 * SuitIndex(c.suit) + RankIndex(c.rank);
    assert i / 13 == SuitIndex(c.suit) && i % 13 == RankIndex(c.rank);
  }

  /** No element appears twice in a sequence. */
  predicate NoDuplicates<T(==)>(d: seq<T>) {
    forall i, j :: 0 <= i < j < |d| ==> d[i] != d[j]
  }

  lemma IndexOfPosition(i: nat)
    requires i < 52
    ensures SuitIndex(Suits[i / 13]) == i / 13 && RankIndex(Ranks[i % 13]) == i % 13
  {
    var s, r := i / 13, i % 13;
    assert s == 0 || s == 1 || s == 2 || s == 3;
    assert r == 0 || r == 1 || r == 2 || r == 3 || r == 4 || r == 5 || r == 6 || r == 7 || r == 8 || r == 9 || r == 10 || r == 11 || r == 12;
  }

  /** The unshuffled deck holds no card twice. */
  lemma FullDeckDistinct()
    ensures NoDuplicates(FullDeck())
  {
    var d := FullDeck();
    forall i, j | 0 <= i < j < 52 ensures d[i] != d[j] {
      IndexOfPosition(i);
      IndexOfPosition(j);
    }
  }

  /** Every card is in the unshuffled deck. */
  lemma FullDeckComplete()
    ensures forall c: Card :: c in FullDeck()
  {
    forall c: Card
      ensures c in FullDeck()
    {
      FullDeckPosition(c);
    }
  }

  /** No two positions of the unshuffled deck carry the same card or the same id. */
  lemma FullDeckIdsDistinct()
    ensures NoDuplicates(FullDeck())
    ensures forall i, j :: 0 <= i < j < 52 ==> Id(FullDeck()[i]) != Id(FullDeck()[j])
  {
    FullDeckDistinct();
    var d := FullDeck();
    forall i, j | 0 <= i < j < 52
      ensures Id(d[i]) != Id(d[j])
    {
      IdInjective(d[i], d[j]);
    }
  }

  lemma PositionSplit(s: nat, r: nat)
    requires s < 4 && r < 13
    ensures 13 * s + r < 52 && (13 * s + r) / 13 == s && (13 * s + r) % 13 == r
  {
  }

  /** createDeck: 52 cards, every (suit, rank) pair exactly once, so ids are unique. */
  method CreateDeck() returns (deck: seq<Card>)
    ensures |deck| == 52
    ensures deck == FullDeck()
    ensures forall c: Card :: c in deck
    ensures NoDuplicates(deck)
    ensures forall i, j :: 0 <= i < j < |deck| ==> Id(deck[i]) != Id(deck[j])
  {
    deck := [];
    var s := 0;
    while s < |Suits|
      invariant 0 <= s <= 4
      invariant |deck| == 13 * s
      invariant deck == FullDeck()[..|deck|]
    {
      var r := 0;
      while r < |Ranks|
        invariant 0 <= r <= 13
        invariant |deck| == 13 * s + r
        invariant deck == FullDeck()[..|deck|]
      {
        PositionSplit(s, r);
        assert FullDeck()[..|deck| + 1] == FullDeck()[..|deck|] + [Card(Suits[s], Ranks[r])];
        deck := deck + [Card(Suits[s], Ranks[r])];
        r := r + 1;
      }
      s := s + 1;
    }
    assert deck == FullDeck()[..52];
    FullDeckComplete();
    FullDeckIdsDistinct();
  }

  /** Exchange positions i and j. */
  function Swap<T>(s: seq<T>, i: nat, j: nat): (r: seq<T>)
    requires i < |s| && j < |s|
    ensures |r| == |s| && multiset(r) == multiset(s)
  {
    s[i := s[j]][j := s[i]]
  }

  /**
   * The Fisher-Yates loop from position i down to 1. `pick` stands for Math.random:
   * at step i it names the partner position, reduced into 0..i.
   */
  function ShuffleDown<T>(s: seq<T>, i: int, pick: nat -> nat): (r: seq<T>)
    requires i < |s|
    ensures |r| == |s| && multiset(r) == multiset(s)
    decreases i
  {
    if i <= 0 then s else ShuffleDown(Swap(s, i, pick(i) % (i + 1)), i - 1, pick)
  }

  /** shuffleDeck: a permutation of the input; the input, a value, is left as it was. */
  function ShuffleDeck<T>(deck: seq<T>, pick: nat -> nat): (r: seq<T>)
    ensures |r| == |deck| && multiset(r) == multiset(deck)
  {
    ShuffleDown(deck, |deck| - 1, pick)
  }

  /** A permutation of a duplicate-free sequence has no duplicates either. */
  lemma PermutationKeepsNoDuplicates<T>(a: seq<T>, b: seq<T>)
    requires multiset(a) == multiset(b) && NoDuplicates(a)
    ensures NoDuplicates(b)
  {
    forall i, j | 0 <= i < j < |b|
      ensures b[i] != b[j]
    {
      if b[i] == b[j] {
        assert multiset(b)[b[i]] >= 2 by {
          assert b == b[..i] + [b[i]] + b[i+1..j] + [b[j]] + b[j+1..];
        }
        CountAtMostOne(a, b[i]);
      }
    }
  }

  /** A sequence without duplicates holds each element at most once. */
  lemma CountAtMostOne<T>(a: seq<T>, c: T)
    requires NoDuplicates(a)
    ensures multiset(a)[c] <= 1
    decreases |a|
  {
    if |a| > 0 {
      var last := a[|a| - 1];
      assert a == a[..|a| - 1] + [last];
      CountAtMostOne(a[..|a| - 1], c);
      if last == c {
        assert c !in a[..|a| - 1];
      }
    }
  }

  /** The elements of a sequence, as the source's `new Set(...)` collects them. */
  function Elements<T>(s: seq<T>): set<T> {
    set x | x in s
  }

  /** A set built from a sequence is as large as the sequence exactly when the sequence has no duplicates. */
  lemma {:induction false} ElementsSize<T>(s: seq<T>)
    ensures |Elements(s)| <= |s|
    ensures |Elements(s)| == |s| <==> NoDuplicates(s)
    decreases |s|
  {
    if |s| > 0 {
      var init, last := s[..|s| - 1], s[|s| - 1];
      assert s == init + [last];
      ElementsSize(init);
      assert Elements(s) == Elements(init) + {last};
      if last in Elements(init) {
        var i :| 0 <= i < |init| && init[i] == last;
        assert s[i] == s[|s| - 1];
      } else {
        assert |Elements(s)| == |Elements(init)| + 1;
        if NoDuplicates(init) {
          forall i, j | 0 <= i < j < |s| ensures s[i] != s[j] {
            if j < |s| - 1 {
              assert s[i] == init[i] && s[j] == init[j];
            } else {
              assert s[i] in Elements(init);
            }
          }
        }
        if NoDuplicates(s) {
          forall i, j | 0 <= i < j < |init| ensures init[i] != init[j] {
            assert s[i] == init[i] && s[j] == init[j];
          }
        }
      }
    }
  }
}

=== FILE: comparison.dfy ===
/**
 * compareBadugiHands (badugi-game-server/src/utils/cards.js): the lowest score wins,
 * and equal scores are split by comparing the sorted badugi cards from the highest down.
 */
module Comparison {
  import opened Options
  import opened Cards
  import opened Evaluation
  import opened Seqs

  /** One element of the array showdown passes in: a player id and its evaluated hand. */
  datatype Entry = Entry(playerId: int, best: Evaluated)

  /** The entry's hand has a `badugiCards` array: every hand but an invalid one. */
  predicate Carded(e: Entry) {
    e.best.badugiCards.Some?
  }

  /** The entry's badugi cards; empty for an invalid hand, which the tie-break tests for first. */
  function CardsOf(e: Entry): seq<Card> {
    if e.best.badugiCards.Some? then e.best.badugiCards.value else []
  }

  /** An entry scores Infinity exactly when it holds no badugi, as every evaluated hand does. */
  predicate Consistent(e: Entry) {
    e.best.score.Infinite? <==> !Carded(e)
  }

  /** The value fields of a card sequence. */
  function Vals(cs: seq<Card>): (v: seq<int>)
    ensures |v| == |cs|
  {
    seq(|cs|, i requires 0 <= i < |cs| => Value(cs[i]))
  }

  /** `a < b` on the JavaScript numbers the scores are: Infinity is below nothing. */
  predicate Less(a: Score, b: Score) {
    a.Finite? && (b.Infinite? || a.points < b.points)
  }

  // ---------------------------------------------------------------------------
  // First pass: the minimum score and everyone holding it.
  // ---------------------------------------------------------------------------

  /** The loop state: `bestValue` and `winners`. */
  datatype Scan = Scan(best: Score, winners: seq<Entry>)

  function HasScore(s: Score): Entry -> bool {
    (e: Entry) => e.best.score == s
  }

  /**
   * What the first loop computes over es: a best score below no entry's score that, unless es
   * is empty, is some entry's score; and the winners, exactly the entries holding it, in order.
   */
  predicate MinScan(es: seq<Entry>, r: Scan) {
    && (forall e :: e in es ==> !Less(e.best.score, r.best))
    && (es == [] ==> r.best == Infinite)
    && (es != [] ==> exists k :: 0 <= k < |es| && es[k].best.score == r.best)
    && r.winners == Filter(es, HasScore(r.best))
  }

  /** One iteration of the first loop: a lower score restarts the winners, an equal one joins them. */
  function MinStep(st: Scan, e: Entry): Scan {
    if Less(e.best.score, st.best) then Scan(e.best.score, [e])
    else if e.best.score == st.best then Scan(st.best, st.winners + [e])
    else st
  }

  /**
   * The first loop over the entries. An invalid hand (score Infinity) ties with Infinity,
   * so a list of invalid hands all win.
   */
  function MinPass(es: seq<Entry>): (r: Scan)
    ensures forall e :: e in es ==> !Less(e.best.score, r.best)
    ensures es == [] ==> r.best == Infinite
    ensures es != [] ==> exists k :: 0 <= k < |es| && es[k].best.score == r.best
    ensures r.winners == Filter(es, HasScore(r.best))
    decreases |es|
  {
    if es == [] then Scan(Infinite, [])
    else
      var init, e := es[..|es| - 1], es[|es| - 1];
      assert es == init + [e];
      var prev := MinPass(init);
      MinStepKeeps(init, e, prev);
      MinStep(prev, e)
  }

  /** The first loop's invariant survives one more entry. */
  lemma MinStepKeeps(init: seq<Entry>, e: Entry, prev: Scan)
    requires MinScan(init, prev)
    ensures MinScan(init + [e], MinStep(prev, e))
  {
    var es := init + [e];
    assert es[..|es| - 1] == init && es[|es| - 1] == e;
    if Less(e.best.score, prev.best) {
      MinStepLower(init, e, prev);
    } else if e.best.score == prev.best {
      assert Filter(es, HasScore(prev.best)) == prev.winners + [e];
      assert es[|init|] == e;
    } else {
      assert Filter(es, HasScore(prev.best)) == prev.winners;
      assert init != [];
      assert forall k :: 0 <= k < |init| ==> es[k] == init[k];
    }
  }

  lemma MinStepLower(init: seq<Entry>, e: Entry, prev: Scan)
    requires MinScan(init, prev) && Less(e.best.score, prev.best)
    ensures MinScan(init + [e], Scan(e.best.score, [e]))
  {
    var es := init + [e];
    var p := HasScore(e.best.score);
    assert es[..|es| - 1] == init && es[|es| - 1] == e;
    forall d | d in init ensures !p(d) {
      assert !Less(d.best.score, prev.best);
    }
    FilterNone(init, p);
    assert Filter(es, p) == Filter(init, p) + [e];
  }

  // ---------------------------------------------------------------------------
  // Second pass: comparison of the sorted badugi cards from the highest index down.
  // ---------------------------------------------------------------------------

  datatype Order = Better | Worse | Tied

  function Flip(o: Order): Order {
    match o
    case Better => Worse
    case Worse => Better
    case Tied => Tied
  }

  /** The inner loop: the first position from the end where the values differ decides. */
  function CmpDown(a: seq<int>, b: seq<int>): Order
    requires |a| == |b|
    decreases |a|
  {
    if |a| == 0 then Tied
    else
      var i := |a| - 1;
      if a[i] < b[i] then Better
      else if a[i] > b[i] then Worse
      else CmpDown(a[..i], b[..i])
  }

  /** Swapping the arguments flips the outcome. */
  lemma {:induction false} CmpFlip(a: seq<int>, b: seq<int>)
    requires |a| == |b|
    ensures CmpDown(b, a) == Flip(CmpDown(a, b))
    decreases |a|
  {
    if |a| > 0 {
      CmpFlip(a[..|a| - 1], b[..|a| - 1]);
    }
  }

  /** A tie means the value sequences are equal, and only then. */
  lemma {:induction false} CmpTiedIffEqual(a: seq<int>, b: seq<int>)
    requires |a| == |b|
    ensures CmpDown(a, b) == Tied <==> a == b
    decreases |a|
  {
    if |a| > 0 {
      var i := |a| - 1;
      CmpTiedIffEqual(a[..i], b[..i]);
      if a[i] == b[i] && a[..i] == b[..i] {
        assert a == a[..i] + [a[i]] && b == b[..i] + [b[i]];
      }
      if a == b {
        assert a[..i] == b[..i];
      }
    }
  }

  /** Beating is transitive. */
  lemma {:induction false} CmpTrans(a: seq<int>, b: seq<int>, c: seq<int>)
    requires |a| == |b| == |c|
    requires CmpDown(a, b) == Better && CmpDown(b, c) == Better
    ensures CmpDown(a, c) == Better
    decreases |a|
  {
    var i := |a| - 1;
    if a[i] == b[i] && b[i] == c[i] {
      CmpTrans(a[..i], b[..i], c[..i]);
    }
  }

  /** The loop state: `currentBestHandCards` (null until the first candidate) and `finalWinners`. */
  datatype TieScan = TieScan(cur: Option<seq<Card>>, final: seq<Entry>)

  /**
   * One iteration of the tie-break loop. With no kept cards, at the start or after an invalid
   * candidate left them `undefined`, the candidate restarts the winners; a candidate of a
   * different card count, or with no cards at all, is skipped.
   */
  function TieStep(st: TieScan, c: Entry): TieScan {
    var cards := CardsOf(c);
    if st.cur.None? then TieScan(c.best.badugiCards, [c])
    else if !Carded(c) || |cards| != |st.cur.value| then st
    else
      match CmpDown(Vals(cards), Vals(st.cur.value))
      case Better => TieScan(Some(cards), [c])
      case Tied => TieScan(st.cur, st.final + [c])
      case Worse => st
  }

  function HasVals(v: seq<int>): Entry -> bool {
    (e: Entry) => Vals(CardsOf(e)) == v
  }

  /** All candidates hold badugis, all of one size. */
  predicate SameLength(cs: seq<Entry>) {
    && (forall i :: 0 <= i < |cs| ==> Carded(cs[i]))
    && (forall i, j :: 0 <= i < |cs| && 0 <= j < |cs| ==> |CardsOf(cs[i])| == |CardsOf(cs[j])|)
  }

  /** The candidates holding a badugi of n cards. */
  function OfSize(n: nat): Entry -> bool {
    (e: Entry) => Carded(e) && |CardsOf(e)| == n
  }

  /** No candidate of the same size beats e. */
  predicate Unbeaten(all: seq<Entry>, e: Entry) {
    forall d :: d in all && |CardsOf(d)| == |CardsOf(e)| ==> CmpDown(Vals(CardsOf(d)), Vals(CardsOf(e))) != Better
  }

  function UnbeatenIn(all: seq<Entry>): Entry -> bool {
    (e: Entry) => Unbeaten(all, e)
  }

  /**
   * The tie-break loop's invariant over the candidates cs of one size: the kept cards are some
   * candidate's, of that size, beaten by no candidate, and the winners are exactly the
   * candidates with the same values, in order.
   */
  predicate TieKept(cs: seq<Entry>, r: TieScan)
    requires SameLength(cs)
  {
    && cs != [] && r.cur.Some?
    && |r.cur.value| == |CardsOf(cs[0])|
    && (exists k :: 0 <= k < |cs| && CardsOf(cs[k]) == r.cur.value)
    && (forall k :: 0 <= k < |cs| ==> CmpDown(Vals(CardsOf(cs[k])), Vals(r.cur.value)) != Better)
    && r.final == Filter(cs, HasVals(Vals(r.cur.value)))
  }

  /**
   * The tie-break loop. It keeps at least one candidate of a non-empty list. When the first
   * candidate holds cards, the kept cards and the winners are always of its size; when all
   * candidates share a size, the loop keeps its invariant TieKept.
   */
  function TiePass(cs: seq<Entry>): (r: TieScan)
    ensures cs == [] ==> r == TieScan(None, [])
    ensures cs != [] ==> r.final != []
    ensures forall e :: e in r.final ==> e in cs
    ensures cs != [] && Carded(cs[0]) ==> r.cur.Some? && |r.cur.value| == |CardsOf(cs[0])|
    ensures cs != [] && Carded(cs[0]) ==> forall e :: e in r.final ==> OfSize(|CardsOf(cs[0])|)(e)
    ensures SameLength(cs) && cs != [] ==> TieKept(cs, r)
    decreases |cs|
  {
    if cs == [] then TieScan(None, [])
    else
      var init, c := cs[..|cs| - 1], cs[|cs| - 1];
      assert cs == init + [c];
      var prev := TiePass(init);
      assert init != [] ==> init[0] == cs[0];
      TieStepKeepsInvariant(init, c, prev);
      TieStep(prev, c)
  }

  /** The invariant of the tie-break loop survives one more candidate of the common size. */
  lemma TieStepKeepsInvariant(init: seq<Entry>, c: Entry, prev: TieScan)
    requires init == [] ==> prev.cur.None?
    requires SameLength(init) && init != [] ==> TieKept(init, prev)
    ensures SameLength(init + [c]) ==> TieKept(init + [c], TieStep(prev, c))
  {
    var cs := init + [c];
    if SameLength(cs) {
      assert SameLength(init) by {
        forall i | 0 <= i < |init| ensures Carded(init[i]) {
          assert init[i] == cs[i];
        }
        forall i, j | 0 <= i < |init| && 0 <= j < |init| ensures |CardsOf(init[i])| == |CardsOf(init[j])| {
          assert init[i] == cs[i] && init[j] == cs[j];
        }
      }
      if init == [] {
        assert cs == [c] && cs[0] == c;
        TieFirst(c);
      } else {
        var w, v := Vals(CardsOf(c)), Vals(prev.cur.value);
        assert cs[0] == init[0] && cs[|init|] == c;
        assert |w| == |v|;
        match CmpDown(w, v)
        case Better => TieBetter(init, c, prev);
        case Tied => TieTied(init, c, prev);
        case Worse => TieWorse(init, c, prev);
      }
    }
  }

  lemma TieFirst(c: Entry)
    requires Carded(c)
    ensures SameLength([c]) && TieKept([c], TieScan(Some(CardsOf(c)), [c]))
  {
    var w := Vals(CardsOf(c));
    CmpTiedIffEqual(w, w);
    assert Filter([c], HasVals(w)) == Filter([c][..0], HasVals(w)) + [c];
  }

  lemma TieBetter(init: seq<Entry>, c: Entry, prev: TieScan)
    requires SameLength(init + [c]) && SameLength(init) && TieKept(init, prev)
    requires |CardsOf(c)| == |prev.cur.value| && CmpDown(Vals(CardsOf(c)), Vals(prev.cur.value)) == Better
    ensures TieKept(init + [c], TieScan(Some(CardsOf(c)), [c]))
  {
    var cs := init + [c];
    assert cs[..|cs| - 1] == init && cs[|cs| - 1] == c && cs[0] == init[0];
    var w := Vals(CardsOf(c));
    CmpTiedIffEqual(w, w);
    BetterUnbeaten(init, c, prev);
    BetterAlone(init, c, prev);
    FilterNone(init, HasVals(w));
  }

  /** A candidate that beats the kept cards is beaten by no candidate. */
  lemma BetterUnbeaten(init: seq<Entry>, c: Entry, prev: TieScan)
    requires SameLength(init + [c]) && SameLength(init) && TieKept(init, prev)
    requires |CardsOf(c)| == |prev.cur.value| && CmpDown(Vals(CardsOf(c)), Vals(prev.cur.value)) == Better
    ensures forall k :: 0 <= k < |init| + 1 ==>
      |CardsOf((init + [c])[k])| == |CardsOf(c)| && CmpDown(Vals(CardsOf((init + [c])[k])), Vals(CardsOf(c))) != Better
  {
    var cs := init + [c];
    var w, v := Vals(CardsOf(c)), Vals(prev.cur.value);
    CmpTiedIffEqual(w, w);
    forall k | 0 <= k < |cs| ensures |CardsOf(cs[k])| == |CardsOf(c)| && CmpDown(Vals(CardsOf(cs[k])), w) != Better {
      assert |CardsOf(cs[k])| == |CardsOf(cs[|init|])|;
      if k < |init| {
        assert cs[k] == init[k];
        if CmpDown(Vals(CardsOf(cs[k])), w) == Better {
          CmpTrans(Vals(CardsOf(cs[k])), w, v);
        }
      }
    }
  }

  /** No earlier candidate holds the values of a candidate that beats the kept cards. */
  lemma BetterAlone(init: seq<Entry>, c: Entry, prev: TieScan)
    requires SameLength(init) && TieKept(init, prev)
    requires |CardsOf(c)| == |prev.cur.value| && CmpDown(Vals(CardsOf(c)), Vals(prev.cur.value)) == Better
    ensures forall d :: d in init ==> !HasVals(Vals(CardsOf(c)))(d)
  {
    var w, v := Vals(CardsOf(c)), Vals(prev.cur.value);
    forall d | d in init ensures !HasVals(w)(d) {
      var k :| 0 <= k < |init| && init[k] == d;
      assert CmpDown(Vals(CardsOf(init[k])), v) != Better;
    }
  }


  lemma TieTied(init: seq<Entry>, c: Entry, prev: TieScan)
    requires SameLength(init + [c]) && SameLength(init) && TieKept(init, prev)
    requires |CardsOf(c)| == |prev.cur.value| && CmpDown(Vals(CardsOf(c)), Vals(prev.cur.value)) == Tied
    ensures TieKept(init + [c], TieScan(prev.cur, prev.final + [c]))
  {
    var cs := init + [c];
    assert cs[..|cs| - 1] == init && cs[|cs| - 1] == c;
    CmpTiedIffEqual(Vals(CardsOf(c)), Vals(prev.cur.value));
    var k0 :| 0 <= k0 < |init| && CardsOf(init[k0]) == prev.cur.value;
    assert cs[k0] == init[k0] && cs[0] == init[0];
    forall k | 0 <= k < |cs| ensures CmpDown(Vals(CardsOf(cs[k])), Vals(prev.cur.value)) != Better {
      if k < |init| {
        assert cs[k] == init[k];
      }
    }
  }

  lemma TieWorse(init: seq<Entry>, c: Entry, prev: TieScan)
    requires SameLength(init + [c]) && SameLength(init) && TieKept(init, prev)
    requires |CardsOf(c)| == |prev.cur.value| && CmpDown(Vals(CardsOf(c)), Vals(prev.cur.value)) == Worse
    ensures TieKept(init + [c], prev)
  {
    var cs := init + [c];
    var v := Vals(prev.cur.value);
    assert cs[..|cs| - 1] == init && cs[|cs| - 1] == c;
    CmpTiedIffEqual(Vals(CardsOf(c)), v);
    var k0 :| 0 <= k0 < |init| && CardsOf(init[k0]) == prev.cur.value;
    assert cs[k0] == init[k0] && cs[0] == init[0];
    forall k | 0 <= k < |cs| ensures CmpDown(Vals(CardsOf(cs[k])), v) != Better {
      if k < |init| {
        assert cs[k] == init[k];
      }
    }
  }

  /**
   * When all candidates share a size, the tie-break keeps exactly the candidates no other
   * candidate beats, in their original order.
   */
  lemma TieBreakKeepsUnbeaten(cs: seq<Entry>)
    requires SameLength(cs)
    ensures TiePass(cs).final == Filter(cs, UnbeatenIn(cs))
  {
    if cs == [] {
    } else {
      var r := TiePass(cs);
      var v := Vals(r.cur.value);
      var k0 :| 0 <= k0 < |cs| && CardsOf(cs[k0]) == r.cur.value;
      forall e | e in cs ensures HasVals(v)(e) == Unbeaten(cs, e) {
        var ke :| 0 <= ke < |cs| && cs[ke] == e;
        var x := Vals(CardsOf(e));
        assert |CardsOf(e)| == |CardsOf(cs[k0])|;
        if x == v {
          forall d | d in cs && |CardsOf(d)| == |CardsOf(e)|
            ensures CmpDown(Vals(CardsOf(d)), x) != Better
          {
            var kd :| 0 <= kd < |cs| && cs[kd] == d;
            assert CmpDown(Vals(CardsOf(cs[kd])), v) != Better;
          }
        }
        if Unbeaten(cs, e) {
          assert CmpDown(v, x) != Better by {
            assert cs[k0] in cs;
          }
          assert CmpDown(x, v) != Better;
          CmpFlip(x, v);
          CmpTiedIffEqual(x, v);
        }
      }
      FilterExt(cs, HasVals(v), UnbeatenIn(cs));
    }
  }

  /**
   * Candidates that are all invalid each reset the kept cards to `undefined`, so the last of
   * them alone is kept.
   */
  lemma {:induction false} TieAllInvalid(cs: seq<Entry>)
    requires cs != [] && forall e :: e in cs ==> !Carded(e)
    ensures TiePass(cs) == TieScan(None, [cs[|cs| - 1]])
    decreases |cs|
  {
    var init := cs[..|cs| - 1];
    assert cs[|cs| - 1] in cs;
    if init != [] {
      assert forall e :: e in init ==> e in cs;
      TieAllInvalid(init);
    }
  }

  /**
   * Once the first candidate holds cards, candidates of another size (or with no cards) never
   * affect the loop: it runs as if only the candidates of the first one's size were there.
   */
  lemma {:induction false} TiePassOfSize(cs: seq<Entry>)
    requires cs != [] && Carded(cs[0])
    ensures TiePass(cs) == TiePass(Filter(cs, OfSize(|CardsOf(cs[0])|)))
    decreases |cs|
  {
    var p := OfSize(|CardsOf(cs[0])|);
    var init, c := cs[..|cs| - 1], cs[|cs| - 1];
    assert cs == init + [c];
    if init == [] {
      assert Filter(cs, p) == [c];
    } else {
      assert init[0] == cs[0];
      TiePassOfSize(init);
      var f := Filter(init, p);
      if p(c) {
        var g := f + [c];
        assert g[..|g| - 1] == f && g[|g| - 1] == c;
        assert Filter(cs, p) == g;
      } else {
        assert Filter(cs, p) == f;
      }
    }
  }

  /**
   * compareBadugiHands: the entries with the lowest score, narrowed by the tie-break when
   * more than one holds it. An empty input yields no winners; otherwise there is at least one,
   * every winner is an entry, and no entry scores below a winner.
   */
  function Compare(es: seq<Entry>): (r: seq<Entry>)
    ensures es == [] <==> r == []
    ensures forall e :: e in r ==> e in es
    ensures forall e, d :: e in r && d in es ==> !Less(d.best.score, e.best.score)
  {
    if es == [] then []
    else
      var first := MinPass(es);
      var k :| 0 <= k < |es| && es[k].best.score == first.best;
      assert es[k] in Filter(es, HasScore(first.best)) by {
        FilterKeeps(es, HasScore(first.best), k);
      }
      if |first.winners| > 1 then TiePass(first.winners).final
      else first.winners
  }

  /** An entry built from a 4-card hand that is not paired. */
  ghost predicate FromUnpairedHand(e: Entry) {
    exists hand :: |hand| == 4 && !HasPair(hand) && e.best == Evaluate(hand)
  }

  /** Unpaired hands with equal scores hold badugis of equal size: the bands never overlap. */
  lemma EqualScoreEqualSize(a: seq<Card>, b: seq<Card>)
    requires |a| == 4 && |b| == 4 && !HasPair(a) && !HasPair(b)
    requires Evaluate(a).score == Evaluate(b).score
    ensures |Evaluate(a).badugiCards.value| == |Evaluate(b).badugiCards.value|
  {
    ScoreBands(a);
    ScoreBands(b);
    var x := Evaluate(a).score.points;
    BandsApart(Evaluate(a).badugiCount, Evaluate(b).badugiCount, x);
  }

  /** A score lies in the range of at most one badugi size. */
  lemma BandsApart(m: nat, n: nat, x: int)
    requires 1 <= m <= 4 && 1 <= n <= 4
    requires Band(m) + MinSum(m) <= x <= Band(m) + MaxSum(m)
    requires Band(n) + MinSum(n) <= x <= Band(n) + MaxSum(n)
    ensures m == n
  {
  }

  /**
   * Among unpaired hands the skip for a different card count never fires: the winners are
   * exactly the lowest-score entries that no other lowest-score entry beats card by card.
   */
  lemma CompareUnpaired(es: seq<Entry>)
    requires forall e :: e in es ==> FromUnpairedHand(e)
    ensures var w := MinPass(es).winners;
      |w| > 1 ==> Compare(es) == Filter(w, UnbeatenIn(w))
  {
    var m := MinPass(es);
    var w := m.winners;
    if |w| > 1 {
      assert forall e :: e in w ==> e in es && HasScore(m.best)(e);
      UnpairedTiesSameLength(w, m.best);
      TieBreakKeepsUnbeaten(w);
    }
  }

  /** Entries from unpaired hands holding one score hold badugis of one size. */
  lemma UnpairedTiesSameLength(w: seq<Entry>, s: Score)
    requires forall e :: e in w ==> FromUnpairedHand(e) && e.best.score == s
    ensures SameLength(w)
  {
    forall i | 0 <= i < |w| ensures Carded(w[i]) {
      assert w[i] in w;
    }
    forall i, j | 0 <= i < |w| && 0 <= j < |w| ensures |CardsOf(w[i])| == |CardsOf(w[j])| {
      assert w[i] in w && w[j] in w;
      var a :| |a| == 4 && !HasPair(a) && w[i].best == Evaluate(a);
      var b :| |b| == 4 && !HasPair(b) && w[j].best == Evaluate(b);
      EqualScoreEqualSize(a, b);
    }
  }

  /**
   * compareBadugiHands on evaluated hands, for every input. A single lowest-score entry wins
   * alone. Several lowest-score entries are either all invalid, and then the last of them wins,
   * or all hold badugis, and then the winners are those of the first one's badugi size that no
   * entry of that size beats card by card, in their original order.
   */
  lemma CompareWinners(es: seq<Entry>)
    requires forall e :: e in es ==> Consistent(e)
    ensures var w := MinPass(es).winners;
      && (|w| <= 1 ==> Compare(es) == w)
      && (|w| > 1 && w[0].best.score.Infinite? ==> Compare(es) == [w[|w| - 1]])
      && (|w| > 1 && w[0].best.score.Finite? ==>
            var v := Filter(w, OfSize(|CardsOf(w[0])|));
            Compare(es) == Filter(v, UnbeatenIn(v)))
  {
    var m := MinPass(es);
    var w := m.winners;
    if |w| > 1 {
      assert w[0] in w;
      if w[0].best.score.Infinite? {
        TieAllInvalid(w);
      } else {
        var v := Filter(w, OfSize(|CardsOf(w[0])|));
        TiePassOfSize(w);
        assert SameLength(v) by {
          forall i | 0 <= i < |v| ensures OfSize(|CardsOf(w[0])|)(v[i]) {
            assert v[i] in v;
          }
        }
        TieBreakKeepsUnbeaten(v);
      }
    }
  }

  /** The key that tells entries apart: the seat's user. */
  const PlayerOf: Entry -> int := (e: Entry) => e.playerId

  /** The tie-break loop never lists a user twice when the candidates are distinct users. */
  lemma {:induction false} TiePassApart(cs: seq<Entry>)
    requires Apart(cs, PlayerOf)
    ensures Apart(TiePass(cs).final, PlayerOf)
    decreases |cs|
  {
    if cs != [] {
      var n := |cs| - 1;
      var init, c := cs[..n], cs[n];
      assert cs == init + [c];
      assert Apart(init, PlayerOf) by {
        forall i, j | 0 <= i < j < n ensures PlayerOf(init[i]) != PlayerOf(init[j]) {
          assert init[i] == cs[i] && init[j] == cs[j];
        }
      }
      TiePassApart(init);
      var prev := TiePass(init);
      assert TiePass(cs) == TieStep(prev, c);
      if TieStep(prev, c).final == prev.final + [c] {
        AppendApart(prev.final, init, c, PlayerOf);
      }
    }
  }

  /** compareBadugiHands never lists a user twice when the entries are distinct users. */
  lemma CompareApart(es: seq<Entry>)
    requires Apart(es, PlayerOf)
    ensures Apart(Compare(es), PlayerOf)
  {
    if es != [] {
      var first := MinPass(es);
      FilterKeepsApart(es, HasScore(first.best), PlayerOf);
      if |first.winners| > 1 {
        TiePassApart(first.winners);
      }
    }
  }
}

=== FILE: dealing.dfy ===
/**
 * drawCard and the initial deal of startGame (badugi-game-server/src/services/GameService.js):
 * cards are popped from the end of the room's deck.
 */
module Dealing {
  import opened Options
  import opened Cards

  function Reverse<T>(s: seq<T>): (r: seq<T>)
    ensures |r| == |s|
    decreases |s|
  {
    if s == [] then [] else Reverse(s[1..]) + [s[0]]
  }

  lemma {:induction false} ReversePermutes<T>(s: seq<T>)
    ensures multiset(Reverse(s)) == multiset(s)
    decreases |s|
  {
    if s != [] {
      ReversePermutes(s[1..]);
      assert s == [s[0]] + s[1..];
    }
  }

  lemma {:induction false} ReverseAppend<T>(a: seq<T>, b: seq<T>)
    ensures Reverse(a + b) == Reverse(b) + Reverse(a)
    decreases |a|
  {
    if a == [] {
      assert a + b == b;
    } else {
      assert (a + b)[1..] == a[1..] + b;
      ReverseAppend(a[1..], b);
    }
  }

  /** drawCard: the last card of the deck and what remains, or nothing from an empty deck. */
  function DrawCard(deck: seq<Card>): (r: Option<(Card, seq<Card>)>)
    ensures r.None? <==> deck == []
    ensures r.Some? ==> r.value.1 + [r.value.0] == deck
  {
    if deck == [] then None else Some((deck[|deck| - 1], deck[..|deck| - 1]))
  }

  /** The cards popped by up to k calls of drawCard, in the order drawn, and the deck left over. */
  datatype Drawn = Drawn(cards: seq<Card>, rest: seq<Card>)

  function DrawMany(deck: seq<Card>, k: nat): (d: Drawn)
    ensures |d.cards| == if k <= |deck| then k else |deck|
    ensures d.rest + Reverse(d.cards) == deck
    ensures |d.cards| < k ==> d.rest == []
    decreases k
  {
    if k == 0 then Drawn([], deck)
    else
      match DrawCard(deck)
      case None => Drawn([], deck)
      case Some((c, rest)) =>
        var t := DrawMany(rest, k - 1);
        ReverseAppend([c], t.cards);
        assert Reverse([c]) == [c];
        assert t.rest + Reverse([c] + t.cards) == (t.rest + Reverse(t.cards)) + [c];
        Drawn([c] + t.cards, t.rest)
  }

  /** All hands laid end to end, in seat order. */
  function Concat(hs: seq<seq<Card>>): seq<Card>
    decreases |hs|
  {
    if hs == [] then [] else Concat(hs[..|hs| - 1]) + hs[|hs| - 1]
  }

  /** The deal: four pops per seat, seat by seat. */
  datatype Dealt = Dealt(hands: seq<seq<Card>>, deck: seq<Card>)

  function DealHands(n: nat, deck: seq<Card>): (d: Dealt)
    ensures |d.hands| == n
    decreases n
  {
    if n == 0 then Dealt([], deck)
    else
      var prev := DealHands(n - 1, deck);
      var h := DrawMany(prev.deck, 4);
      Dealt(prev.hands + [h.cards], h.rest)
  }

  /**
   * Dealing neither creates nor loses a card: what is left in the deck, followed by every
   * hand in reverse order of drawing, is the deck that was dealt from.
   */
  lemma {:induction false} DealConserves(n: nat, deck: seq<Card>)
    ensures var d := DealHands(n, deck); d.deck + Reverse(Concat(d.hands)) == deck
    decreases n
  {
    if n > 0 {
      var prev := DealHands(n - 1, deck);
      var h := DrawMany(prev.deck, 4);
      DealConserves(n - 1, deck);
      DealStep(prev.hands, prev.deck, h.cards, h.rest, deck);
    }
  }

  /** One more hand drawn from what is left keeps the deal's card accounting. */
  lemma DealStep(hands: seq<seq<Card>>, left: seq<Card>, hand: seq<Card>, rest: seq<Card>, deck: seq<Card>)
    requires left + Reverse(Concat(hands)) == deck
    requires rest + Reverse(hand) == left
    ensures rest + Reverse(Concat(hands + [hand])) == deck
  {
    ConcatSnoc(hands, hand);
    ReverseAppend(Concat(hands), hand);
    var a, b := Reverse(hand), Reverse(Concat(hands));
    assert Reverse(Concat(hands + [hand])) == a + b;
    assert rest + (a + b) == (rest + a) + b;
    assert rest + a == left;
  }

  lemma ConcatSnoc(hands: seq<seq<Card>>, hand: seq<Card>)
    ensures Concat(hands + [hand]) == Concat(hands) + hand
  {
    var hs := hands + [hand];
    assert hs[..|hs| - 1] == hands;
  }

  /** With at least four cards per seat in the deck, every seat gets four cards and 4n leave the deck. */
  lemma {:induction false} DealSizes(n: nat, deck: seq<Card>)
    requires 4 * n <= |deck|
    ensures var d := DealHands(n, deck);
      && |d.deck| == |deck| - 4 * n
      && forall k :: 0 <= k < n ==> |d.hands[k]| == 4
    decreases n
  {
    if n > 0 {
      DealSizes(n - 1, deck);
      var prev := DealHands(n - 1, deck);
      var h := DrawMany(prev.deck, 4);
      var d := DealHands(n, deck);
      assert d.hands == prev.hands + [h.cards] && d.deck == h.rest;
      assert |h.cards| == 4;
      assert |h.rest| + 4 == |prev.deck| by {
        assert |h.rest + Reverse(h.cards)| == |prev.deck|;
      }
      forall k | 0 <= k < n ensures |d.hands[k]| == 4 {
        if k < n - 1 {
          assert d.hands[k] == prev.hands[k];
        } else {
          assert d.hands[k] == h.cards;
        }
      }
    }
  }

  /** Dealing from a deck without repeated cards hands out distinct cards, none of them left in the deck. */
  lemma DealDistinct(n: nat, deck: seq<Card>)
    requires NoDuplicates(deck)
    ensures var d := DealHands(n, deck); NoDuplicates(d.deck + Reverse(Concat(d.hands)))
    ensures var d := DealHands(n, deck); forall c :: c in Concat(d.hands) ==> c !in d.deck
  {
    DealConserves(n, deck);
    var d := DealHands(n, deck);
    var rev := Reverse(Concat(d.hands));
    ReversePermutes(Concat(d.hands));
    forall c | c in Concat(d.hands) ensures c !in d.deck {
      assert c in multiset(rev);
      CountAtMostOne(deck, c);
      assert multiset(deck) == multiset(d.deck) + multiset(rev);
    }
  }

  /** Every hand lies inside the concatenation. */
  lemma {:induction false} HandInConcat(hs: seq<seq<Card>>, k: nat)
    requires k < |hs|
    ensures multiset(hs[k]) <= multiset(Concat(hs))
    decreases |hs|
  {
    var n := |hs| - 1;
    var init := hs[..n];
    assert Concat(hs) == Concat(init) + hs[n];
    if k < n {
      HandInConcat(init, k);
      assert init[k] == hs[k];
    }
  }

  /** Two different hands together lie inside the concatenation. */
  lemma {:induction false} ConcatHolds(hs: seq<seq<Card>>, j: nat, k: nat)
    requires j < k < |hs|
    ensures multiset(hs[j]) + multiset(hs[k]) <= multiset(Concat(hs))
    decreases |hs|
  {
    var n := |hs| - 1;
    var init := hs[..n];
    assert Concat(hs) == Concat(init) + hs[n];
    assert multiset(Concat(hs)) == multiset(Concat(init)) + multiset(hs[n]);
    assert init[j] == hs[j];
    if k < n {
      ConcatHolds(init, j, k);
      assert init[k] == hs[k];
    } else {
      HandInConcat(init, j);
    }
  }

  /**
   * Dealing from a deck without repeated cards: two different seats never share a card,
   * and no dealt card is still in the deck.
   */
  lemma HandsDisjoint(n: nat, deck: seq<Card>, j: nat, k: nat, c: Card)
    requires NoDuplicates(deck) && j < k < n
    ensures var d := DealHands(n, deck); c in d.hands[j] ==> c !in d.hands[k]
    ensures var d := DealHands(n, deck); c in d.hands[k] ==> c !in d.deck && c in Concat(d.hands)
  {
    DealDistinct(n, deck);
    var d := DealHands(n, deck);
    var all := d.deck + Reverse(Concat(d.hands));
    ConcatHolds(d.hands, j, k);
    HandInConcat(d.hands, k);
    ReversePermutes(Concat(d.hands));
    assert multiset(all) == multiset(d.deck) + multiset(Concat(d.hands));
    CountAtMostOne(all, c);
    if c in d.hands[k] {
      assert c in multiset(d.hands[k]);
      assert c in multiset(Concat(d.hands));
    }
  }

  /**
   * Dealing n seats from a duplicate-free deck: the hands are pairwise disjoint and none of
   * their cards is left in the deck.
   */
  lemma DealApart(n: nat, deck: seq<Card>)
    requires NoDuplicates(deck)
    ensures var d := DealHands(n, deck);
      forall k, c :: 0 <= k < n && c in d.hands[k] ==> c !in d.deck
    ensures var d := DealHands(n, deck);
      forall j, k, c :: 0 <= j < k < n && c in d.hands[j] ==> c !in d.hands[k]
  {
    var d := DealHands(n, deck);
    forall k, c | 0 <= k < n && c in d.hands[k] ensures c !in d.deck {
      DealtNotLeft(n, deck, k, c);
    }
    forall j, k, c | 0 <= j < k < n && c in d.hands[j] ensures c !in d.hands[k] {
      HandsDisjoint(n, deck, j, k, c);
    }
  }

  /** A card dealt to any seat is no longer in the deck. */
  lemma DealtNotLeft(n: nat, deck: seq<Card>, k: nat, c: Card)
    requires NoDuplicates(deck) && k < n
    ensures var d := DealHands(n, deck); c in d.hands[k] ==> c !in d.deck
  {
    if k > 0 {
      HandsDisjoint(n, deck, 0, k, c);
    } else {
      DealDistinct(n, deck);
      var hs := DealHands(n, deck).hands;
      HandInConcat(hs, 0);
      if c in hs[0] {
        assert c in multiset(hs[0]);
      }
    }
  }
}

=== FILE: evaluation.dfy ===
/**
 * Hand evaluation: findBestBadugi and evaluateBadugiHand
 * (badugi-game-server/src/utils/cards.js).
 */
module Evaluation {
  import opened Options
  import opened Cards

  /** `combo.map(c => c.suit)` */
  function SuitsOf(cs: seq<Card>): (r: seq<Suit>)
    ensures |r| == |cs|
  {
    seq(|cs|, i requires 0 <= i < |cs| => cs[i].suit)
  }

  /** `combo.map(c => c.rank)` */
  function RanksOf(cs: seq<Card>): (r: seq<Rank>)
    ensures |r| == |cs|
  {
    seq(|cs|, i requires 0 <= i < |cs| => cs[i].rank)
  }

  /** The source's test on a combination: a set of its suits and a set of its ranks each as large as the combination. */
  predicate IsBadugi(cs: seq<Card>) {
    |Elements(SuitsOf(cs))| == |cs| && |Elements(RanksOf(cs))| == |cs|
  }

  /** No two positions share a suit and no two share a rank. */
  predicate PairwiseDistinct(cs: seq<Card>) {
    forall i, j :: 0 <= i < j < |cs| ==> cs[i].suit != cs[j].suit && cs[i].rank != cs[j].rank
  }

  predicate SortedByValue(cs: seq<Card>) {
    forall i, j :: 0 <= i < j < |cs| ==> Value(cs[i]) <= Value(cs[j])
  }

  /** Strictly increasing positions inside a hand of n cards. */
  predicate IsIndexTuple(idx: seq<int>, n: int) {
    && (forall k :: 0 <= k < |idx| ==> 0 <= idx[k] < n)
    && (forall k, l :: 0 <= k < l < |idx| ==> idx[k] < idx[l])
  }

  /** The combination `[hand[i], hand[j], ...]` for the positions in idx. */
  function Pick(hand: seq<Card>, idx: seq<int>): (cs: seq<Card>)
    requires forall k :: 0 <= k < |idx| ==> 0 <= idx[k] < |hand|
    ensures |cs| == |idx|
  {
    seq(|idx|, k requires 0 <= k < |idx| => hand[idx[k]])
  }

  /** Some combination of `size` cards of the hand is a badugi. */
  ghost predicate HasBadugiOfSize(hand: seq<Card>, size: nat) {
    exists idx :: |idx| == size && IsIndexTuple(idx, |hand|) && IsBadugi(Pick(hand, idx))
  }

  /** The combinations of a 4-card hand, in the order the source's nested loops visit them. */
  const Quads: seq<seq<int>> := [[0, 1, 2, 3]]
  const Triples: seq<seq<int>> := [[0, 1, 2], [0, 1, 3], [0, 2, 3], [1, 2, 3]]
  const Pairs: seq<seq<int>> := [[0, 1], [0, 2], [0, 3], [1, 2], [1, 3], [2, 3]]

  predicate AllTuples(combos: seq<seq<int>>, n: int) {
    forall t :: t in combos ==> IsIndexTuple(t, n)
  }

  /** The visited combinations are index tuples of a 4-card hand, of sizes 4, 3 and 2. */
  lemma CombosShape()
    ensures AllTuples(Quads, 4) && AllTuples(Triples, 4) && AllTuples(Pairs, 4)
    ensures forall t :: t in Quads ==> |t| == 4
    ensures forall t :: t in Triples ==> |t| == 3
    ensures forall t :: t in Pairs ==> |t| == 2
  {
    TriplesShape();
    PairsShape();
  }

  lemma TriplesShape()
    ensures AllTuples(Triples, 4) && forall t :: t in Triples ==> |t| == 3
  {
    forall t | t in Triples ensures IsIndexTuple(t, 4) && |t| == 3 {
      assert t == [0, 1, 2] || t == [0, 1, 3] || t == [0, 2, 3] || t == [1, 2, 3];
    }
  }

  lemma PairsShape()
    ensures AllTuples(Pairs, 4) && forall t :: t in Pairs ==> |t| == 2
  {
    forall t | t in Pairs ensures IsIndexTuple(t, 4) && |t| == 2 {
      assert t == [0, 1] || t == [0, 2] || t == [0, 3] || t == [1, 2] || t == [1, 3] || t == [2, 3];
    }
  }


  /** The set test agrees with pairwise distinctness, in both directions. */
  lemma BadugiIffPairwiseDistinct(cs: seq<Card>)
    ensures IsBadugi(cs) <==> PairwiseDistinct(cs)
  {
    ElementsSize(SuitsOf(cs));
    ElementsSize(RanksOf(cs));
    if NoDuplicates(SuitsOf(cs)) && NoDuplicates(RanksOf(cs)) {
      forall i, j | 0 <= i < j < |cs| ensures cs[i].suit != cs[j].suit && cs[i].rank != cs[j].rank {
        assert SuitsOf(cs)[i] != SuitsOf(cs)[j] && RanksOf(cs)[i] != RanksOf(cs)[j];
      }
    }
    if PairwiseDistinct(cs) {
      assert NoDuplicates(SuitsOf(cs)) by {
        forall i, j | 0 <= i < j < |cs| ensures SuitsOf(cs)[i] != SuitsOf(cs)[j] {
          assert cs[i].suit != cs[j].suit;
        }
      }
      assert NoDuplicates(RanksOf(cs)) by {
        forall i, j | 0 <= i < j < |cs| ensures RanksOf(cs)[i] != RanksOf(cs)[j] {
          assert cs[i].rank != cs[j].rank;
        }
      }
    }
  }

  /** Reordering a combination does not change whether it is a badugi. */
  lemma BadugiPermutation(a: seq<Card>, b: seq<Card>)
    requires multiset(a) == multiset(b)
    ensures IsBadugi(a) <==> IsBadugi(b)
  {
    assert |a| == |multiset(a)| == |multiset(b)| == |b|;
    BadugiIffPairwiseDistinct(a);
    BadugiIffPairwiseDistinct(b);
    if PairwiseDistinct(a) {
      PermutationKeepsPairwiseDistinct(a, b);
    }
    if PairwiseDistinct(b) {
      PermutationKeepsPairwiseDistinct(b, a);
    }
  }

  lemma PermutationKeepsPairwiseDistinct(a: seq<Card>, b: seq<Card>)
    requires multiset(a) == multiset(b) && PairwiseDistinct(a)
    ensures PairwiseDistinct(b)
  {
    assert NoDuplicates(a) by {
      forall x, y | 0 <= x < y < |a| ensures a[x] != a[y] {
        assert a[x].suit != a[y].suit;
      }
    }
    PermutationKeepsNoDuplicates(a, b);
    forall i, j | 0 <= i < j < |b| ensures b[i].suit != b[j].suit && b[i].rank != b[j].rank {
      assert b[i] in multiset(a) && b[j] in multiset(a);
      var k :| 0 <= k < |a| && a[k] == b[i];
      var l :| 0 <= l < |a| && a[l] == b[j];
      assert k != l;
    }
  }



  /** Insert a card after every card of lower or equal value (keeps the sort stable). */
  function InsertByValue(c: Card, s: seq<Card>): (r: seq<Card>)
    requires SortedByValue(s)
    ensures |r| == |s| + 1 && multiset(r) == multiset(s) + multiset{c}
    ensures SortedByValue(r)
    decreases |s|
  {
    if s == [] then [c]
    else if Value(c) < Value(s[0]) then [c] + s
    else
      var rest := InsertByValue(c, s[1..]);
      assert s == [s[0]] + s[1..];
      assert forall x :: x in rest ==> Value(s[0]) <= Value(x) by {
        forall x | x in rest ensures Value(s[0]) <= Value(x) {
          assert x in multiset(rest);
          assert x in multiset(s[1..]) || x == c;
        }
      }
      [s[0]] + rest
  }

  /** `combo.sort((a, b) => a.value - b.value)`, a stable ascending sort. */
  function SortByValue(cs: seq<Card>): (r: seq<Card>)
    ensures |r| == |cs| && multiset(r) == multiset(cs)
    ensures SortedByValue(r)
    decreases |cs|
  {
    if cs == [] then []
    else
      assert cs == cs[..|cs| - 1] + [cs[|cs| - 1]];
      InsertByValue(cs[|cs| - 1], SortByValue(cs[..|cs| - 1]))
  }

  /** Sorting an already sorted combination leaves it as it is (the sort is stable). */
  lemma {:induction false} SortKeepsSorted(cs: seq<Card>)
    requires SortedByValue(cs)
    ensures SortByValue(cs) == cs
    decreases |cs|
  {
    if cs != [] {
      var init, last := cs[..|cs| - 1], cs[|cs| - 1];
      assert cs == init + [last];
      assert SortedByValue(init) by {
        forall i, j | 0 <= i < j < |init| ensures Value(init[i]) <= Value(init[j]) {
          assert init[i] == cs[i] && init[j] == cs[j];
        }
      }
      assert forall x :: x in init ==> Value(x) <= Value(last) by {
        forall x | x in init ensures Value(x) <= Value(last) {
          var i :| 0 <= i < |init| && init[i] == x;
          assert cs[i] == x;
        }
      }
      SortKeepsSorted(init);
      InsertAfterAll(last, init);
      assert SortByValue(cs) == InsertByValue(last, SortByValue(init));
    }
  }

  lemma {:induction false} InsertAfterAll(c: Card, s: seq<Card>)
    requires SortedByValue(s)
    requires forall x :: x in s ==> Value(x) <= Value(c)
    ensures InsertByValue(c, s) == s + [c]
    decreases |s|
  {
    if s != [] {
      var rest := s[1..];
      assert s == [s[0]] + rest;
      assert Value(s[0]) <= Value(c) by {
        assert s[0] in s;
      }
      assert SortedByValue(rest);
      assert forall x :: x in rest ==> x in s;
      InsertAfterAll(c, rest);
      assert InsertByValue(c, s) == [s[0]] + InsertByValue(c, rest);
      assert [s[0]] + (rest + [c]) == s + [c];
    }
  }

  /** Sorting is idempotent. */
  lemma SortIdempotent(cs: seq<Card>)
    ensures SortByValue(SortByValue(cs)) == SortByValue(cs)
  {
    SortKeepsSorted(SortByValue(cs));
  }

  /** The positions t pick a badugi from the hand. */
  predicate Qualifies(hand: seq<Card>, t: seq<int>) {
    IsIndexTuple(t, |hand|) && IsBadugi(Pick(hand, t))
  }

  /** Position k of the combinations qualifies and no earlier one does. */
  predicate FirstAt(hand: seq<Card>, combos: seq<seq<int>>, k: int) {
    && 0 <= k < |combos| && Qualifies(hand, combos[k])
    && forall j :: 0 <= j < k ==> !Qualifies(hand, combos[j])
  }

  /** The first combination, in loop order, that is a badugi. */
  function FirstBadugi(hand: seq<Card>, combos: seq<seq<int>>): (r: Option<seq<int>>)
    requires |hand| == 4 && AllTuples(combos, 4)
    ensures r.Some? ==> exists k :: FirstAt(hand, combos, k) && combos[k] == r.value
    ensures r.None? ==> forall t :: t in combos ==> !IsBadugi(Pick(hand, t))
    decreases |combos|
  {
    if combos == [] then None
    else
      assert combos[0] in combos;
      if IsBadugi(Pick(hand, combos[0])) then
      assert FirstAt(hand, combos, 0);
      Some(combos[0])
    else
      var r := FirstBadugi(hand, combos[1..]);
      if r.Some? then
        var k :| FirstAt(hand, combos[1..], k) && combos[1..][k] == r.value;
        assert FirstAt(hand, combos, k + 1) by {
          forall j | 0 <= j < k + 1 ensures !Qualifies(hand, combos[j]) {
            if j > 0 {
              assert combos[j] == combos[1..][j - 1];
            }
          }
        }
        r
      else
        assert forall t :: t in combos ==> t == combos[0] || t in combos[1..];
        r
  }

  /** Every strictly increasing tuple of positions of a 4-card hand is among the visited combinations. */
  lemma TuplesComplete(idx: seq<int>)
    requires IsIndexTuple(idx, 4)
    ensures |idx| == 4 ==> idx in Quads
    ensures |idx| == 3 ==> idx in Triples
    ensures |idx| == 2 ==> idx in Pairs
  {
    if |idx| == 4 {
      assert idx == [idx[0], idx[1], idx[2], idx[3]];
      assert idx[0] < idx[1] < idx[2] < idx[3];
    } else if |idx| == 3 {
      assert idx == [idx[0], idx[1], idx[2]];
      assert idx[0] < idx[1] < idx[2];
    } else if |idx| == 2 {
      assert idx == [idx[0], idx[1]];
      assert idx[0] < idx[1];
    }
  }

  /** No combination of the given size is a badugi when none of the visited ones is. */
  lemma NoneOfSize(hand: seq<Card>, combos: seq<seq<int>>, size: nat)
    requires |hand| == 4 && AllTuples(combos, 4)
    requires (size == 4 && combos == Quads) || (size == 3 && combos == Triples) || (size == 2 && combos == Pairs)
    requires forall t :: t in combos ==> !IsBadugi(Pick(hand, t))
    ensures !HasBadugiOfSize(hand, size)
  {
    if HasBadugiOfSize(hand, size) {
      var idx :| |idx| == size && IsIndexTuple(idx, |hand|) && IsBadugi(Pick(hand, idx));
      TuplesComplete(idx);
    }
  }

  /** The picked cards form a sub-multiset of the hand. */
  lemma PickIsSubMultiset(hand: seq<Card>, idx: seq<int>)
    requires IsIndexTuple(idx, |hand|)
    ensures multiset(Pick(hand, idx)) <= multiset(hand)
    decreases |idx|
  {
    if |idx| > 0 {
      var k := idx[|idx| - 1];
      var init := idx[..|idx| - 1];
      assert IsIndexTuple(init, k);
      assert Pick(hand, idx) == Pick(hand[..k], init) + [hand[k]] by {
        assert Pick(hand, idx) == Pick(hand, init) + [hand[k]];
        assert Pick(hand, init) == Pick(hand[..k], init);
      }
      PickIsSubMultiset(hand[..k], init);
      assert hand == hand[..k] + [hand[k]] + hand[k+1..];
    }
  }

  /** A qualifying combination, sorted ascending as the source returns it. */
  function Sorted(hand: seq<Card>, idx: seq<int>): (r: seq<Card>)
    requires IsIndexTuple(idx, |hand|) && IsBadugi(Pick(hand, idx))
    ensures |r| == |idx| && IsBadugi(r) && SortedByValue(r)
    ensures multiset(r) <= multiset(hand)
    ensures HasBadugiOfSize(hand, |r|)
  {
    var r := SortByValue(Pick(hand, idx));
    BadugiPermutation(Pick(hand, idx), r);
    PickIsSubMultiset(hand, idx);
    r
  }

  /**
   * findBestBadugi on a 4-card hand (its only caller, evaluateBadugiHand, passes 4 cards):
   * a badugi drawn from the hand, sorted by value, of the largest size any badugi in the hand has.
   * Within a size it is the first qualifying combination in index order; the 1-card fallback is hand[0].
   */
  function FindBestBadugi(hand: seq<Card>): (r: seq<Card>)
    requires |hand| == 4
    ensures 1 <= |r| <= 4
    ensures IsBadugi(r) && SortedByValue(r)
    ensures multiset(r) <= multiset(hand)
    ensures HasBadugiOfSize(hand, |r|)
    ensures forall k :: |r| < k <= 4 ==> !HasBadugiOfSize(hand, k)
    ensures |r| == 1 ==> r == [hand[0]]
  {
    CombosShape();
    var found := FirstBadugi(hand, Quads);
    if found.Some? then Sorted(hand, found.value)
    else
      NoneOfSize(hand, Quads, 4);
      BestOfTriples(hand)
  }

  /** The search from 3-card combinations down, once no 4-card badugi exists. */
  function BestOfTriples(hand: seq<Card>): (r: seq<Card>)
    requires |hand| == 4 && !HasBadugiOfSize(hand, 4)
    ensures 1 <= |r| <= 3
    ensures IsBadugi(r) && SortedByValue(r)
    ensures multiset(r) <= multiset(hand)
    ensures HasBadugiOfSize(hand, |r|)
    ensures |r| <= 2 ==> !HasBadugiOfSize(hand, 3)
    ensures |r| == 1 ==> !HasBadugiOfSize(hand, 2) && r == [hand[0]]
  {
    CombosShape();
    var found := FirstBadugi(hand, Triples);
    if found.Some? then Sorted(hand, found.value)
    else
      NoneOfSize(hand, Triples, 3);
      BestOfPairs(hand)
  }

  /** The search over 2-card combinations, then the 1-card fallback. */
  function BestOfPairs(hand: seq<Card>): (r: seq<Card>)
    requires |hand| == 4
    ensures 1 <= |r| <= 2
    ensures IsBadugi(r) && SortedByValue(r)
    ensures multiset(r) <= multiset(hand)
    ensures HasBadugiOfSize(hand, |r|)
    ensures |r| == 1 ==> !HasBadugiOfSize(hand, 2) && r == [hand[0]]
  {
    CombosShape();
    var found := FirstBadugi(hand, Pairs);
    if found.Some? then Sorted(hand, found.value)
    else
      NoneOfSize(hand, Pairs, 2);
      SingleCard(hand)
  }

  /** Any single card is a 1-card badugi; the source takes hand[0]. */
  function SingleCard(hand: seq<Card>): (r: seq<Card>)
    requires |hand| == 4
    ensures r == [hand[0]]
    ensures IsBadugi(r) && SortedByValue(r) && multiset(r) <= multiset(hand)
    ensures HasBadugiOfSize(hand, 1)
  {
    assert Pick(hand, [0]) == [hand[0]];
    assert SuitsOf([hand[0]]) == [hand[0].suit];
    assert RanksOf([hand[0]]) == [hand[0].rank];
    assert Elements([hand[0].suit]) == {hand[0].suit};
    assert Elements([hand[0].rank]) == {hand[0].rank};
    assert IsIndexTuple([0], |hand|);
    assert hand == [hand[0]] + hand[1..];
    [hand[0]]
  }

  /** The visited combinations of n cards, in loop order: quads, triples, else pairs. */
  function CombosOf(n: nat): (c: seq<seq<int>>)
    ensures AllTuples(c, 4)
  {
    CombosShape();
    if n == 4 then Quads else if n == 3 then Triples else Pairs
  }

  /**
   * findBestBadugi keeps the first qualifying combination in loop order, of the largest size
   * that has one, sorted by value: no larger size qualifies, and no earlier combination of its
   * own size does.
   */
  lemma BestIsFirstOfLargest(hand: seq<Card>)
    requires |hand| == 4
    ensures var r := FindBestBadugi(hand);
      |r| >= 2 ==> exists k :: FirstAt(hand, CombosOf(|r|), k) && r == SortByValue(Pick(hand, CombosOf(|r|)[k]))
  {
    CombosShape();
    var q := FirstBadugi(hand, Quads);
    if q.Some? {
      SortedFirst(hand, Quads, 4);
      assert CombosOf(4) == Quads;
    } else {
      NoneOfSize(hand, Quads, 4);
      assert FindBestBadugi(hand) == BestOfTriples(hand);
      if FirstBadugi(hand, Triples).Some? {
        SortedFirst(hand, Triples, 3);
        assert CombosOf(3) == Triples;
      } else {
        NoneOfSize(hand, Triples, 3);
        assert BestOfTriples(hand) == BestOfPairs(hand);
        if FirstBadugi(hand, Pairs).Some? {
          SortedFirst(hand, Pairs, 2);
          assert CombosOf(2) == Pairs;
        }
      }
    }
  }

  /** The sorted first qualifying combination of one size. */
  lemma SortedFirst(hand: seq<Card>, combos: seq<seq<int>>, n: nat)
    requires |hand| == 4 && AllTuples(combos, 4) && forall t :: t in combos ==> |t| == n
    requires FirstBadugi(hand, combos).Some?
    ensures var r := Sorted(hand, FirstBadugi(hand, combos).value);
      |r| == n && exists k :: FirstAt(hand, combos, k) && r == SortByValue(Pick(hand, combos[k]))
  {
    var t := FirstBadugi(hand, combos).value;
    var k :| FirstAt(hand, combos, k) && combos[k] == t;
    assert combos[k] in combos;
  }

  /** The score: lower is better; `Infinity` is the invalid-hand sentinel. */
  datatype Score = Finite(points: int) | Infinite

  /** The rank label: invalid, paired, or an n-card badugi. */
  datatype Category = Invalid | PairedHand | BadugiOf(size: nat)

  /**
   * The object evaluateBadugiHand returns, without its display strings. The invalid-hand
   * object has no `badugiCards` field at all: `None`.
   */
  datatype Evaluated = Evaluated(category: Category, score: Score, badugiCount: nat, badugiCards: Option<seq<Card>>)

  const PairedPoints: int := 900000

  /** Two cards of the hand share a rank. */
  predicate HasPair(hand: seq<Card>) {
    exists i, j :: 0 <= i < j < |hand| && hand[i].rank == hand[j].rank
  }

  /** The penalty added for a badugi of the given size. */
  function Band(count: nat): int {
    if count == 4 then 0
    else if count == 3 then 10000
    else if count == 2 then 20000
    else 30000
  }

  function SumValues(cs: seq<Card>): int
    decreases |cs|
  {
    if cs == [] then 0 else SumValues(cs[..|cs| - 1]) + Value(cs[|cs| - 1])
  }

  /**
   * evaluateBadugiHand. A hand that is not 4 cards is Invalid; a paired hand scores 900000;
   * otherwise the band of the badugi size plus the sum of the badugi's card values.
   */
  function Evaluate(hand: seq<Card>): (e: Evaluated)
    ensures |hand| != 4 <==> e.category == Invalid
    ensures |hand| != 4 ==> e.score == Infinite && e.badugiCount == 0 && e.badugiCards.None?
    ensures |hand| == 4 ==> e.badugiCards == Some(FindBestBadugi(hand)) && e.badugiCount == |e.badugiCards.value|
    ensures e.score.Infinite? <==> e.badugiCards.None?
    ensures |hand| == 4 ==> (e.category == PairedHand <==> HasPair(hand))
    ensures |hand| == 4 && HasPair(hand) ==> e.score == Finite(PairedPoints)
    ensures |hand| == 4 && !HasPair(hand) ==> e.category == BadugiOf(e.badugiCount)
  {
    if |hand| != 4 then Evaluated(Invalid, Infinite, 0, None)
    else
      var best := FindBestBadugi(hand);
      if HasPair(hand) then Evaluated(PairedHand, Finite(PairedPoints), |best|, Some(best))
      else Evaluated(BadugiOf(|best|), Finite(Band(|best|) + SumValues(best)), |best|, Some(best))
  }

  /** Lowest and highest value sums of a badugi of k cards: A-2-3-4 is 10, T-J-Q-K is 46. */
  function MinSum(k: nat): int {
    if k == 1 then 1 else if k == 2 then 3 else if k == 3 then 6 else 10
  }

  function MaxSum(k: nat): int {
    if k == 1 then 13 else if k == 2 then 25 else if k == 3 then 36 else 46
  }

  /** The values of a sorted badugi rise strictly, since distinct ranks have distinct values. */
  lemma StrictlyRising(cs: seq<Card>)
    requires IsBadugi(cs) && SortedByValue(cs)
    ensures forall i, j :: 0 <= i < j < |cs| ==> Value(cs[i]) < Value(cs[j])
  {
    BadugiIffPairwiseDistinct(cs);
    forall i, j | 0 <= i < j < |cs| ensures Value(cs[i]) < Value(cs[j]) {
      RankValueIsPosition(cs[i].rank);
    }
  }

  /** A strictly rising run of one to four card values sums to between MinSum and MaxSum. */
  lemma RisingBounds(cs: seq<Card>)
    requires 1 <= |cs| <= 4
    requires forall i, j :: 0 <= i < j < |cs| ==> Value(cs[i]) < Value(cs[j])
    ensures MinSum(|cs|) <= SumValues(cs) <= MaxSum(|cs|)
  {
    var n := |cs|;
    var a := cs[..n - 1];
    assert SumValues(cs) == SumValues(a) + Value(cs[n - 1]);
    if n >= 2 {
      var b := a[..n - 2];
      assert SumValues(a) == SumValues(b) + Value(cs[n - 2]);
      if n >= 3 {
        var c := b[..n - 3];
        assert SumValues(b) == SumValues(c) + Value(cs[n - 3]);
        if n == 4 {
          assert SumValues(c) == SumValues(c[..0]) + Value(cs[0]);
          assert Value(cs[0]) < Value(cs[1]) < Value(cs[2]) < Value(cs[3]);
        } else {
          assert Value(cs[0]) < Value(cs[1]) < Value(cs[2]);
        }
      } else {
        assert Value(cs[0]) < Value(cs[1]);
      }
    }
  }

  /** Bounds of the score of an unpaired 4-card hand: its band plus a value sum in MinSum..MaxSum. */
  lemma ScoreBands(hand: seq<Card>)
    requires |hand| == 4 && !HasPair(hand)
    ensures var e := Evaluate(hand);
      && 1 <= e.badugiCount <= 4
      && e.score.Finite?
      && Band(e.badugiCount) + MinSum(e.badugiCount) <= e.score.points <= Band(e.badugiCount) + MaxSum(e.badugiCount)
  {
    var best := FindBestBadugi(hand);
    StrictlyRising(best);
    RisingBounds(best);
    assert Evaluate(hand).score.points == Band(|best|) + SumValues(best);
  }

  /** Every 4-card badugi beats every 3-card badugi, and so on down: a larger badugi scores lower. */
  lemma BandsOrdered(a: seq<Card>, b: seq<Card>)
    requires |a| == 4 && |b| == 4 && !HasPair(a) && !HasPair(b)
    requires Evaluate(a).badugiCount > Evaluate(b).badugiCount
    ensures Evaluate(a).score.points < Evaluate(b).score.points
  {
    ScoreBands(a);
    ScoreBands(b);
  }

  /** Every unpaired 4-card hand beats every paired one. */
  lemma UnpairedBeatsPaired(a: seq<Card>, b: seq<Card>)
    requires |a| == 4 && |b| == 4 && !HasPair(a) && HasPair(b)
    ensures Evaluate(a).score.points < Evaluate(b).score.points
  {
    ScoreBands(a);
  }

  /** The hand s2 h3 dK d4 of the exhibit below. */
  predicate IsExhibitHand(hand: seq<Card>) {
    && |hand| == 4
    && hand[0] == Card(Spade, Two) && hand[1] == Card(Heart, Three)
    && hand[2] == Card(Diamond, King) && hand[3] == Card(Diamond, Four)
  }

  /**
   * The search keeps the first qualifying triple, not the lowest: s2 h3 dK d4 yields s2 h3 dK (sum 18)
   * although s2 h3 d4 (sum 9) also qualifies.
   */
  lemma FirstTripleNotLowest(hand: seq<Card>)
    requires IsExhibitHand(hand)
    ensures FindBestBadugi(hand) == [hand[0], hand[1], hand[2]]
    ensures IsBadugi([hand[0], hand[1], hand[3]])
    ensures SumValues([hand[0], hand[1], hand[3]]) < SumValues(FindBestBadugi(hand))
  {
    ExhibitBest(hand);
    ExhibitSums(hand);
    ExhibitLowerTriple(hand);
  }

  lemma ExhibitLowerTriple(hand: seq<Card>)
    requires IsExhibitHand(hand)
    ensures IsBadugi([hand[0], hand[1], hand[3]])
  {
    var t := [hand[0], hand[1], hand[3]];
    assert PairwiseDistinct(t) by {
      assert t[0] == Card(Spade, Two) && t[1] == Card(Heart, Three) && t[2] == Card(Diamond, Four);
    }
    BadugiIffPairwiseDistinct(t);
  }

  lemma ExhibitBest(hand: seq<Card>)
    requires IsExhibitHand(hand)
    ensures FindBestBadugi(hand) == [hand[0], hand[1], hand[2]]
  {
    ExhibitQuadFails(hand);
    CombosShape();
    NoneOfSize(hand, Quads, 4);
    ExhibitTriplesBest(hand);
  }

  lemma ExhibitTriplesBest(hand: seq<Card>)
    requires IsExhibitHand(hand) && !HasBadugiOfSize(hand, 4)
    ensures BestOfTriples(hand) == [hand[0], hand[1], hand[2]]
  {
    ExhibitTripleFound(hand);
    ExhibitSorted(hand);
  }

  lemma ExhibitSorted(hand: seq<Card>)
    requires IsExhibitHand(hand)
    ensures IsIndexTuple([0, 1, 2], |hand|) && IsBadugi(Pick(hand, [0, 1, 2]))
    ensures Sorted(hand, [0, 1, 2]) == [hand[0], hand[1], hand[2]]
  {
    ExhibitTriple(hand);
    SortKeepsSorted([hand[0], hand[1], hand[2]]);
  }

  lemma ExhibitTriple(hand: seq<Card>)
    requires IsExhibitHand(hand)
    ensures IsIndexTuple([0, 1, 2], |hand|)
    ensures Pick(hand, [0, 1, 2]) == [hand[0], hand[1], hand[2]]
    ensures IsBadugi([hand[0], hand[1], hand[2]]) && SortedByValue([hand[0], hand[1], hand[2]])
  {
    TriplesShape();
    assert Triples[0] == [0, 1, 2];
    var t := [hand[0], hand[1], hand[2]];
    assert PairwiseDistinct(t) by {
      assert t[0] == Card(Spade, Two) && t[1] == Card(Heart, Three) && t[2] == Card(Diamond, King);
    }
    BadugiIffPairwiseDistinct(t);
    assert SortedByValue(t) by {
      assert Value(t[0]) == 2 && Value(t[1]) == 3 && Value(t[2]) == 13;
    }
  }


  lemma ExhibitSums(hand: seq<Card>)
    requires IsExhibitHand(hand)
    ensures SumValues([hand[0], hand[1], hand[2]]) == 18
    ensures SumValues([hand[0], hand[1], hand[3]]) == 9
  {
    SumOfThree([hand[0], hand[1], hand[2]]);
    SumOfThree([hand[0], hand[1], hand[3]]);
  }

  lemma ExhibitQuadFails(hand: seq<Card>)
    requires IsExhibitHand(hand)
    ensures FirstBadugi(hand, Quads) == None
  {
    var q := Pick(hand, [0, 1, 2, 3]);
    BadugiIffPairwiseDistinct(q);
    assert q[2].suit == q[3].suit;
    assert Quads[1..] == [];
  }

  lemma ExhibitTripleFound(hand: seq<Card>)
    requires IsExhibitHand(hand)
    ensures FirstBadugi(hand, Triples) == Some([0, 1, 2])
  {
    var t := Pick(hand, [0, 1, 2]);
    assert t == [hand[0], hand[1], hand[2]];
    BadugiIffPairwiseDistinct(t);
  }

  lemma SumOfThree(cs: seq<Card>)
    requires |cs| == 3
    ensures SumValues(cs) == Value(cs[0]) + Value(cs[1]) + Value(cs[2])
  {
    var a, b, c := cs[..2], cs[..1], cs[..0];
    assert a[..1] == b && b[..0] == c && c == [];
    assert SumValues(cs) == SumValues(a) + Value(cs[2]);
    assert SumValues(a) == SumValues(b) + Value(cs[1]);
    assert SumValues(b) == SumValues(c) + Value(cs[0]);
  }

  /** A one-suit hand of four distinct ranks: sK sA s5 s7 in the exhibit below. */
  predicate IsSpadeHand(hand: seq<Card>) {
    && |hand| == 4
    && hand[0] == Card(Spade, King) && hand[1] == Card(Spade, Ace)
    && hand[2] == Card(Spade, Five) && hand[3] == Card(Spade, Seven)
  }

  /** The 1-card fallback keeps hand[0] even when a lower card is in the hand: sK sA s5 s7 keeps sK. */
  lemma SingleFallbackKeepsFirstCard(hand: seq<Card>)
    requires IsSpadeHand(hand)
    ensures FindBestBadugi(hand) == [hand[0]]
    ensures Evaluate(hand).score == Finite(30013)
  {
    SpadeHandHasNoPair(hand);
    SpadeHandBest(hand);
    SingleCardScore(hand);
    assert Value(hand[0]) == 13;
  }

  /** An unpaired hand whose badugi is the fallback hand[0] scores 30000 plus that card's value. */
  lemma SingleCardScore(hand: seq<Card>)
    requires |hand| == 4 && !HasPair(hand) && FindBestBadugi(hand) == [hand[0]]
    ensures Evaluate(hand).score == Finite(30000 + Value(hand[0]))
  {
    var best := FindBestBadugi(hand);
    assert SumValues(best) == Value(hand[0]) by {
      assert best[..0] == [];
    }
  }

  lemma SpadeHandBest(hand: seq<Card>)
    requires IsSpadeHand(hand)
    ensures FindBestBadugi(hand) == [hand[0]]
  {
    SpadeHandFailsEvery(hand, Quads);
    CombosShape();
    NoneOfSize(hand, Quads, 4);
    SpadeHandTriplesBest(hand);
  }

  lemma SpadeHandTriplesBest(hand: seq<Card>)
    requires IsSpadeHand(hand) && !HasBadugiOfSize(hand, 4)
    ensures BestOfTriples(hand) == [hand[0]]
  {
    SpadeHandFailsEvery(hand, Triples);
    SpadeHandPairsBest(hand);
  }

  lemma SpadeHandPairsBest(hand: seq<Card>)
    requires IsSpadeHand(hand)
    ensures BestOfPairs(hand) == [hand[0]]
  {
    SpadeHandFailsEvery(hand, Pairs);
  }

  lemma SpadeHandHasNoPair(hand: seq<Card>)
    requires IsSpadeHand(hand)
    ensures !HasPair(hand)
  {
    forall i, j | 0 <= i < j < |hand| ensures hand[i].rank != hand[j].rank {
      RankValueIsPosition(hand[i].rank);
      assert Value(hand[0]) == 13 && Value(hand[1]) == 1 && Value(hand[2]) == 5 && Value(hand[3]) == 7;
    }
  }

  lemma {:induction false} SpadeHandFailsEvery(hand: seq<Card>, combos: seq<seq<int>>)
    requires IsSpadeHand(hand)
    requires forall t :: t in combos ==> IsIndexTuple(t, 4) && |t| >= 2
    ensures FirstBadugi(hand, combos) == None
    decreases |combos|
  {
    if combos != [] {
      var p := Pick(hand, combos[0]);
      assert combos[0] in combos;
      BadugiIffPairwiseDistinct(p);
      assert p[0].suit == p[1].suit;
      SpadeHandFailsEvery(hand, combos[1..]);
    }
  }
}

=== FILE: exchange.dfy ===
/**
 * handleCardExchange (badugi-game-server/src/services/GameService.js): during an exchange
 * phase the player whose turn it is discards up to four cards, named by id, and draws as many
 * from the end of the deck; discarding none is a "stay".
 */
module Exchange {
  import opened Options
  import opened Cards
  import opened Evaluation
  import opened Rooms
  import opened Dealing
  import opened Turns

  /** Why an exchange was refused before anything changed. */
  datatype Refusal =
    | NotYourTurn
    | NotExchangePhase
    | NoExchangeNow
    | NoSuchPlayer
    | ExchangeUsed
    | AlreadyFolded
    | TooManyCards
    | NoHand
    | CardsNotInHand

  /** Why an exchange stopped after cards had been popped from the deck. */
  datatype Abort = DeckEmpty | HandNotFour

  /**
   * The outcome: refused with the room as it was; aborted, with the drawn cards gone from the
   * deck and nothing else changed; or done, the turn advanced (`None` when the showdown's
   * cleanup emptied the room).
   */
  datatype Outcome = Refused(reason: Refusal) | Aborted(why: Abort, room: Room) | Done(next: Option<Room>)

  // ---------------------------------------------------------------------------
  // Splitting a hand by card id
  // ---------------------------------------------------------------------------

  /** `hand.filter(card => ids.has(card.id))`. */
  function Picked(hand: seq<Card>, ids: set<string>): (s: seq<Card>)
    ensures |s| <= |hand|
    decreases |hand|
  {
    if hand == [] then []
    else
      var n := |hand| - 1;
      Picked(hand[..n], ids) + (if Id(hand[n]) in ids then [hand[n]] else [])
  }

  /** `hand.filter(card => !ids.has(card.id))`. */
  function Kept(hand: seq<Card>, ids: set<string>): (s: seq<Card>)
    ensures |s| <= |hand|
    decreases |hand|
  {
    if hand == [] then []
    else
      var n := |hand| - 1;
      Kept(hand[..n], ids) + (if Id(hand[n]) in ids then [] else [hand[n]])
  }

  /** The picked cards are the hand's cards named by an id; the kept ones are the rest. */
  lemma {:induction false} SplitMembers(hand: seq<Card>, ids: set<string>, c: Card)
    ensures c in Picked(hand, ids) <==> c in hand && Id(c) in ids
    ensures c in Kept(hand, ids) <==> c in hand && Id(c) !in ids
    decreases |hand|
  {
    if hand != [] {
      var n := |hand| - 1;
      SplitMembers(hand[..n], ids, c);
      assert hand == hand[..n] + [hand[n]];
    }
  }

  /** The two filters split the hand: every card goes to exactly one side. */
  lemma {:induction false} SplitHand(hand: seq<Card>, ids: set<string>)
    ensures multiset(Picked(hand, ids)) + multiset(Kept(hand, ids)) == multiset(hand)
    ensures |Picked(hand, ids)| + |Kept(hand, ids)| == |hand|
    decreases |hand|
  {
    if hand != [] {
      var n := |hand| - 1;
      var init := hand[..n];
      SplitHand(init, ids);
      assert multiset(hand) == multiset(init) + multiset{hand[n]} by {
        assert hand == init + [hand[n]];
      }
      if Id(hand[n]) in ids {
        assert Picked(hand, ids) == Picked(init, ids) + [hand[n]];
        assert Kept(hand, ids) == Kept(init, ids);
      } else {
        assert Picked(hand, ids) == Picked(init, ids);
        assert Kept(hand, ids) == Kept(init, ids) + [hand[n]];
      }
    }
  }

  /** Filters by id sets that agree on the hand's cards pick the same cards. */
  lemma {:induction false} PickedAgree(hand: seq<Card>, a: set<string>, b: set<string>)
    requires forall c :: c in hand ==> (Id(c) in a <==> Id(c) in b)
    ensures Picked(hand, a) == Picked(hand, b)
    decreases |hand|
  {
    if hand != [] {
      var n := |hand| - 1;
      assert forall c :: c in hand[..n] ==> c in hand;
      PickedAgree(hand[..n], a, b);
      assert hand[n] in hand;
    }
  }

  /** From a hand of distinct cards, no more cards are picked than there are ids. */
  lemma {:induction false} PickedAtMost(hand: seq<Card>, ids: set<string>)
    requires NoDuplicates(hand)
    ensures |Picked(hand, ids)| <= |ids|
    decreases |hand|
  {
    if hand != [] {
      var n := |hand| - 1;
      var init := hand[..n];
      assert NoDuplicates(init) by {
        forall i, j | 0 <= i < j < n ensures init[i] != init[j] {
          assert init[i] == hand[i] && init[j] == hand[j];
        }
      }
      var x := Id(hand[n]);
      if x in ids {
        forall c | c in init ensures Id(c) in ids <==> Id(c) in ids - {x} {
          var i :| 0 <= i < n && init[i] == c;
          assert hand[i] != hand[n];
          IdInjective(c, hand[n]);
        }
        PickedAgree(init, ids, ids - {x});
        PickedAtMost(init, ids - {x});
      } else {
        PickedAtMost(init, ids);
      }
    }
  }


  /** Mapping a sequence never yields more distinct values than it has elements. */
  lemma {:induction false} ImageAtMost(s: seq<Card>)
    ensures |set c | c in s :: Id(c)| <= |s|
    decreases |s|
  {
    if s != [] {
      var n := |s| - 1;
      ImageAtMost(s[..n]);
      assert (set c | c in s :: Id(c)) == (set c | c in s[..n] :: Id(c)) + {Id(s[n])} by {
        assert s == s[..n] + [s[n]];
      }
    }
  }

  /**
   * An exchange of distinct ids, each naming a card of a duplicate-free hand, picks exactly
   * one card per id.
   */
  lemma PickedExactly(hand: seq<Card>, ids: seq<string>)
    requires NoDuplicates(hand) && NoDuplicates(ids)
    requires forall x :: x in ids ==> exists c :: c in hand && Id(c) == x
    ensures |Picked(hand, Elements(ids))| == |ids|
  {
    var p := Picked(hand, Elements(ids));
    ElementsSize(ids);
    PickedAtMost(hand, Elements(ids));
    assert Elements(ids) <= set c | c in p :: Id(c) by {
      forall x | x in Elements(ids) ensures x in set c | c in p :: Id(c) {
        var c :| c in hand && Id(c) == x;
        SplitMembers(hand, Elements(ids), c);
      }
    }
    ImageAtMost(p);
    SubsetSize(Elements(ids), set c | c in p :: Id(c));
  }

  lemma SubsetSize(a: set<string>, b: set<string>)
    requires a <= b
    ensures |a| <= |b|
  {
    assert b == a + (b - a);
  }

  /** Naming one card twice is refused: the set of ids is smaller than the list. */
  lemma RepeatedIdsPickTooFew(hand: seq<Card>, ids: seq<string>)
    requires NoDuplicates(hand) && !NoDuplicates(ids)
    ensures |Picked(hand, Elements(ids))| < |ids|
  {
    ElementsSize(ids);
    PickedAtMost(hand, Elements(ids));
  }

  /** An id naming no card of a hand of distinct cards is refused: fewer cards than ids are picked. */
  lemma ForeignIdPicksTooFew(hand: seq<Card>, ids: seq<string>, x: string)
    requires NoDuplicates(hand) && x in ids && forall c :: c in hand ==> Id(c) != x
    ensures |Picked(hand, Elements(ids))| < |ids|
  {
    PickedAgree(hand, Elements(ids), Elements(ids) - {x});
    PickedAtMost(hand, Elements(ids) - {x});
    ElementsSize(ids);
  }

  /**
   * From a hand of distinct cards, the filter picks one card per id exactly when the ids are
   * distinct and each names a card of the hand.
   */
  lemma PickedAllIff(hand: seq<Card>, ids: seq<string>)
    requires NoDuplicates(hand)
    ensures |Picked(hand, Elements(ids))| == |ids| <==>
      NoDuplicates(ids) && forall x :: x in ids ==> exists c :: c in hand && Id(c) == x
  {
    if !NoDuplicates(ids) {
      RepeatedIdsPickTooFew(hand, ids);
    } else if x :| x in ids && !exists c :: c in hand && Id(c) == x {
      ForeignIdPicksTooFew(hand, ids, x);
    } else {
      PickedExactly(hand, ids);
    }
  }

  // ---------------------------------------------------------------------------
  // The exchange
  // ---------------------------------------------------------------------------

  /** The checks handleCardExchange makes before reading the hand, in its order. */
  function Gate(r: Room, pid: int, count: nat): (g: Result<nat, Refusal>)
    ensures g.Ok? <==>
      && r.currentTurnPlayer == Some(pid) && r.phase == ExchangePhase
      && r.exchangeIndex != -1 && r.exchangeIndex < MaxExchanges && Seated(r.players, pid)
      && r.players[FindIndex(r.players, pid)].canExchange && !r.players[FindIndex(r.players, pid)].folded
      && count <= 4
    ensures g.Ok? ==> g.value == FindIndex(r.players, pid)
  {
    if r.currentTurnPlayer != Some(pid) then Err(NotYourTurn)
    else if r.phase != ExchangePhase then Err(NotExchangePhase)
    else if r.exchangeIndex == -1 || r.exchangeIndex >= MaxExchanges then Err(NoExchangeNow)
    else
      var i := FindIndex(r.players, pid);
      if i == -1 then Err(NoSuchPlayer)
      else if !r.players[i].canExchange then Err(ExchangeUsed)
      else if r.players[i].folded then Err(AlreadyFolded)
      else if count > 4 then Err(TooManyCards)
      else Ok(i)
  }

  /** A stay: the seat's exchange for this phase is used up. */
  function Stay(r: Room, i: nat, pid: int): (c: Room)
    requires i < |r.players|
    ensures c.players == r.players[i := r.players[i].(canExchange := false)]
    ensures c.lastActionPlayer == Some(pid) && c.deck == r.deck && c.hands == r.hands && c.pot == r.pot
  {
    r.(players := r.players[i := r.players[i].(canExchange := false)], lastActionPlayer := Some(pid))
  }

  /** A completed exchange: the new hand recorded and evaluated, the deck popped. */
  function Exchanged(r: Room, i: nat, pid: int, hand: seq<Card>, deck: seq<Card>): (c: Room)
    requires i < |r.players|
    ensures c.players == r.players[i := r.players[i].(canExchange := false, bestHand := Some(Evaluate(hand)))]
    ensures c.hands == r.hands[pid := hand] && c.deck == deck && c.lastActionPlayer == Some(pid) && c.pot == r.pot
  {
    r.(players := r.players[i := r.players[i].(canExchange := false, bestHand := Some(Evaluate(hand)))],
       hands := r.hands[pid := hand], deck := deck, lastActionPlayer := Some(pid))
  }

  /** The step before the turn advances: what happens to the room, or why nothing did. */
  datatype Step = StepRefused(reason: Refusal) | StepAborted(why: Abort, room: Room) | StepDone(room: Room)

  function ExchangeStep(r: Room, pid: int, ids: seq<string>): (s: Step)
    ensures s.StepRefused? <==>
      || Gate(r, pid, |ids|).Err?
      || (|ids| > 0 && (pid !in r.hands || |Picked(r.hands[pid], Elements(ids))| != |ids|))
    ensures s.StepAborted? ==> s.room == r.(deck := s.room.deck)
  {
    match Gate(r, pid, |ids|)
    case Err(e) => StepRefused(e)
    case Ok(i) =>
      if |ids| == 0 then StepDone(Stay(r, i, pid))
      else if pid !in r.hands then StepRefused(NoHand)
      else
        var hand := r.hands[pid];
        var set_ := Elements(ids);
        if |Picked(hand, set_)| != |ids| then StepRefused(CardsNotInHand)
        else
          var drawn := DrawMany(r.deck, |ids|);
          var newHand := Kept(hand, set_) + drawn.cards;
          if |drawn.cards| < |ids| then StepAborted(DeckEmpty, r.(deck := drawn.rest))
          else if |newHand| != 4 then StepAborted(HandNotFour, r.(deck := drawn.rest))
          else StepDone(Exchanged(r, i, pid, newHand, drawn.rest))
  }

  /**
   * handleCardExchange. A refusal changes nothing; an abort loses the popped cards; a stay or
   * a completed exchange passes the turn.
   */
  function HandleCardExchange(r: Room, pid: int, ids: seq<string>): (o: Outcome)
    ensures o.Refused? <==> ExchangeStep(r, pid, ids).StepRefused?
    ensures o.Done? && o.next.Some? ==> o.next.value.status == Waiting || Armed(o.next.value)
  {
    match ExchangeStep(r, pid, ids)
    case StepRefused(e) => Refused(e)
    case StepAborted(why, c) => Aborted(why, c)
    case StepDone(c) => Done(AdvanceTurn(c))
  }

  /**
   * handleCardExchange with no cards, as the turn timer calls it: a stay, which can be refused
   * but never aborted, since it draws nothing.
   */
  function AutoStay(r: Room, pid: int): (o: Result<Option<Room>, Refusal>)
    ensures o.Err? <==> HandleCardExchange(r, pid, []).Refused?
    ensures o.Ok? ==> HandleCardExchange(r, pid, []) == Done(o.value)
    ensures o.Ok? && o.value.Some? ==> o.value.value.status == Waiting || Armed(o.value.value)
  {
    match Gate(r, pid, 0)
    case Err(e) => Err(e)
    case Ok(i) => Ok(AdvanceTurn(Stay(r, i, pid)))
  }

  // ---------------------------------------------------------------------------
  // Properties
  // ---------------------------------------------------------------------------

  /** A completed exchange of at least one card is the recorded new hand and the popped deck. */
  lemma StepDoneIs(r: Room, pid: int, ids: seq<string>)
    requires ExchangeStep(r, pid, ids).StepDone? && |ids| > 0
    ensures pid in r.hands && Gate(r, pid, |ids|).Ok?
    ensures var drawn := DrawMany(r.deck, |ids|); var newHand := Kept(r.hands[pid], Elements(ids)) + drawn.cards;
      && |Picked(r.hands[pid], Elements(ids))| == |ids| && |drawn.cards| == |ids| && |newHand| == 4
      && ExchangeStep(r, pid, ids).room == Exchanged(r, FindIndex(r.players, pid), pid, newHand, drawn.rest)
  {
  }

  /**
   * An exchange neither creates nor duplicates cards: the new hand and the deck left, together
   * with the discarded cards, are the old hand and the old deck.
   */
  lemma ExchangeKeepsCards(r: Room, pid: int, ids: seq<string>)
    requires ExchangeStep(r, pid, ids).StepDone? && |ids| > 0
    ensures var c := ExchangeStep(r, pid, ids).room;
      && pid in r.hands && pid in c.hands
      && multiset(c.hands[pid]) + multiset(c.deck) + multiset(Picked(r.hands[pid], Elements(ids)))
         == multiset(r.hands[pid]) + multiset(r.deck)
  {
    StepDoneIs(r, pid, ids);
    SwapKeepsCards(r.hands[pid], Elements(ids), r.deck, |ids|);
  }

  /** Discarding the picked cards and drawing k from the deck moves cards without creating any. */
  lemma SwapKeepsCards(hand: seq<Card>, ids: set<string>, deck: seq<Card>, k: nat)
    ensures var drawn := DrawMany(deck, k);
      multiset(Kept(hand, ids) + drawn.cards) + multiset(drawn.rest) + multiset(Picked(hand, ids))
      == multiset(hand) + multiset(deck)
  {
    var drawn := DrawMany(deck, k);
    SplitHand(hand, ids);
    assert multiset(deck) == multiset(drawn.rest) + multiset(drawn.cards) by {
      assert drawn.rest + Reverse(drawn.cards) == deck;
      ReversePermutes(drawn.cards);
    }
  }

  /** An aborted exchange loses exactly the cards it popped; the hand stays as it was. */
  lemma AbortLosesDrawn(r: Room, pid: int, ids: seq<string>)
    requires ExchangeStep(r, pid, ids).StepAborted?
    ensures var c := ExchangeStep(r, pid, ids).room;
      && c.hands == r.hands && c.players == r.players
      && c.deck + Reverse(DrawMany(r.deck, |ids|).cards) == r.deck
      && (ExchangeStep(r, pid, ids).why == DeckEmpty ==> c.deck == [])
  {
    StepAbortedIs(r, pid, ids);
  }

  lemma StepAbortedIs(r: Room, pid: int, ids: seq<string>)
    requires ExchangeStep(r, pid, ids).StepAborted?
    ensures ExchangeStep(r, pid, ids).room == r.(deck := DrawMany(r.deck, |ids|).rest)
    ensures ExchangeStep(r, pid, ids).why == DeckEmpty ==> |DrawMany(r.deck, |ids|).cards| < |ids|
  {
  }

  /**
   * A well-formed exchange succeeds: from a four-card hand of distinct cards, naming distinct
   * cards of that hand with enough cards left in the deck gives a new four-card hand holding
   * the kept cards and the cards drawn, evaluated as the seat's best hand, and uses the seat's
   * exchange. Chips are not touched.
   */
  lemma ExchangeSucceeds(r: Room, pid: int, ids: seq<string>)
    requires Gate(r, pid, |ids|).Ok? && 0 < |ids| && pid in r.hands
    requires |r.hands[pid]| == 4 && NoDuplicates(r.hands[pid]) && NoDuplicates(ids)
    requires forall x :: x in ids ==> exists c :: c in r.hands[pid] && Id(c) == x
    requires |ids| <= |r.deck|
    ensures ExchangeStep(r, pid, ids).StepDone?
    ensures var drawn := DrawMany(r.deck, |ids|);
      ExchangeStep(r, pid, ids).room
        == Exchanged(r, FindIndex(r.players, pid), pid, Kept(r.hands[pid], Elements(ids)) + drawn.cards, drawn.rest)
    ensures |Kept(r.hands[pid], Elements(ids)) + DrawMany(r.deck, |ids|).cards| == 4
  {
    var hand := r.hands[pid];
    PickedExactly(hand, ids);
    SplitHand(hand, Elements(ids));
  }

  /**
   * The seat after an exchange: its new hand, evaluated as its best hand, with its exchange used;
   * every other seat, and every stack, as before.
   */
  lemma ExchangedSeat(r: Room, i: nat, pid: int, hand: seq<Card>, deck: seq<Card>)
    requires i < |r.players|
    ensures var c := Exchanged(r, i, pid, hand, deck);
      && c.hands[pid] == hand && c.deck == deck
      && c.players[i].bestHand == Some(Evaluate(hand)) && !c.players[i].canExchange
      && (forall k :: 0 <= k < |r.players| && k != i ==> c.players[k] == r.players[k])
      && Wealth(c) == Wealth(r)
  {
    SumChipsUpdate(r.players, i, r.players[i].(canExchange := false, bestHand := Some(Evaluate(hand))));
  }

  /** A stay changes only the seat's exchange flag and the last actor. */
  lemma StayUsesExchange(r: Room, pid: int)
    requires Gate(r, pid, 0).Ok?
    ensures ExchangeStep(r, pid, []).StepDone?
    ensures var c := ExchangeStep(r, pid, []).room; var i := FindIndex(r.players, pid);
      && c == r.(players := r.players[i := r.players[i].(canExchange := false)], lastActionPlayer := Some(pid))
      && Wealth(c) == Wealth(r)
  {
    var i := FindIndex(r.players, pid);
    SumChipsUpdate(r.players, i, r.players[i].(canExchange := false));
  }

  /** A repeated card id is refused, from a hand of distinct cards. */
  lemma RepeatedIdsRefused(r: Room, pid: int, ids: seq<string>)
    requires Gate(r, pid, |ids|).Ok? && pid in r.hands && NoDuplicates(r.hands[pid]) && !NoDuplicates(ids)
    ensures HandleCardExchange(r, pid, ids) == Refused(CardsNotInHand)
  {
    RepeatedIdsPickTooFew(r.hands[pid], ids);
  }

  /** An id naming no card of the hand is refused, from a hand of distinct cards. */
  lemma ForeignIdRefused(r: Room, pid: int, ids: seq<string>, x: string)
    requires Gate(r, pid, |ids|).Ok? && pid in r.hands && NoDuplicates(r.hands[pid])
    requires x in ids && forall c :: c in r.hands[pid] ==> Id(c) != x
    ensures HandleCardExchange(r, pid, ids) == Refused(CardsNotInHand)
  {
    ForeignIdPicksTooFew(r.hands[pid], ids, x);
  }

  /**
   * With the seat's hand of distinct cards on record, an exchange is refused exactly when the
   * gates fail, or some cards are named and they repeat an id or name a card the hand lacks.
   */
  lemma ExchangeRefusedIff(r: Room, pid: int, ids: seq<string>)
    requires pid in r.hands && NoDuplicates(r.hands[pid])
    ensures ExchangeStep(r, pid, ids).StepRefused? <==>
      || Gate(r, pid, |ids|).Err?
      || (|ids| > 0 && !(NoDuplicates(ids) && forall x :: x in ids ==> exists c :: c in r.hands[pid] && Id(c) == x))
  {
    PickedAllIff(r.hands[pid], ids);
  }
}

=== FILE: lookup.dfy ===
/** The linear search behind `findIndex`, shared by the seat and robot lookups. */
module Lookup {
  /** `findIndex`: the first position whose element satisfies p, or -1 when none does. */
  function FindFirst<T>(s: seq<T>, p: T -> bool): (k: int)
    ensures -1 <= k < |s|
    ensures k >= 0 ==> p(s[k]) && forall j :: 0 <= j < k ==> !p(s[j])
    ensures k == -1 ==> forall j :: 0 <= j < |s| ==> !p(s[j])
    decreases |s|
  {
    if s == [] then -1
    else if p(s[0]) then 0
    else
      var k := FindFirst(s[1..], p);
      if k == -1 then -1 else k + 1
  }
}

=== FILE: options.dfy ===
/** Optional values and typed failures shared by the model's modules. */
module Options {

  /** A value that may be absent: the source's `null` / `undefined`. */
  datatype Option<+T> = None | Some(value: T)

  /** Either a value or the reason an operation was refused. */
  datatype Result<+T, +E> = Ok(value: T) | Err(error: E)
}

=== FILE: registry.dfy ===
/**
 * The room registry kept by the socket handlers of badugi-game-server/server.js: the map of
 * rooms with its id counter, and the seat rules of creating, joining, leaving, reserving a
 * leave, starting, logging out and disconnecting. Replies carry rooms without their password.
 */
module Registry {
  import opened Options
  import opened Rooms
  import opened Starting
  import opened Lookup
  import Settlement

  /** `rooms` keyed by id, and `roomIdCounter`, the id the next room gets. */
  datatype Lobby = Lobby(rooms: map<int, Room>, counter: int)

  /** The registry at start-up: no rooms, the counter at 1. */
  const Initial: Lobby := Lobby(map[], 1)

  datatype Refusal =
    | MissingFields | NoSuchRoom | GameInProgress | RoomFull | WrongPassword | NotInRoom
    | CreatorMustStay | LeaveDeferred | NotPlaying | NotReserved | NotCreator | TooFewPlayers
    | AlreadyPlaying | StartFailed

  /** The callback's answer: success, with the room shown to the client when there is one, or a refusal. */
  datatype Reply = Accepted(room: Option<Room>) | Rejected(why: Refusal)

  /** The registry after a handler, and its reply. */
  datatype Handled = Handled(lobby: Lobby, reply: Reply)

  /** Every room filed under its own id, below the counter; no user seated twice; no room over capacity. */
  predicate WellFormed(l: Lobby) {
    && l.counter >= 1
    && forall k :: k in l.rooms ==>
      && 1 <= k < l.counter && l.rooms[k].id == k
      && UniqueIds(l.rooms[k].players) && |l.rooms[k].players| <= l.rooms[k].maxPlayers
  }

  /** What a reply may show: a room never carries its password out. */
  predicate Discreet(reply: Reply) {
    reply.Accepted? && reply.room.Some? ==> reply.room.value.password == None
  }

  /** The copy of a room sent to clients, with the password deleted. */
  function Sanitize(r: Room): (v: Room)
    ensures v.password == None
    ensures v.(password := r.password) == r
  {
    r.(password := None)
  }

  function Put(l: Lobby, id: int, r: Room): (m: Lobby)
    ensures m.counter == l.counter && id in m.rooms && m.rooms[id] == r
    ensures forall k :: k != id ==> (k in m.rooms <==> k in l.rooms)
    ensures forall k :: k != id && k in l.rooms ==> m.rooms[k] == l.rooms[k]
  {
    Lobby(l.rooms[id := r], l.counter)
  }

  /** A room that is still there is stored back; an emptied one is deleted. */
  function Update(l: Lobby, id: int, c: Option<Room>): (m: Lobby)
    ensures m.counter == l.counter
    ensures id in m.rooms <==> c.Some?
    ensures c.Some? ==> m.rooms[id] == c.value
    ensures forall k :: k != id ==> (k in m.rooms <==> k in l.rooms)
    ensures forall k :: k != id && k in l.rooms ==> m.rooms[k] == l.rooms[k]
  {
    match c
    case None => Lobby(l.rooms - {id}, l.counter)
    case Some(r) => Put(l, id, r)
  }

  // ---------------------------------------------------------------------------
  // createRoom
  // ---------------------------------------------------------------------------

  /** A new room: five seats, waiting, private exactly when a password was given. */
  function NewRoom(id: int, uid: int, name: string, betAmount: int, password: string): (r: Room)
    ensures r.id == id && r.creatorId == uid && r.players == [] && r.maxPlayers == 5
    ensures r.status == Waiting && r.phase == WaitingPhase && r.dealerIndex == 0 && r.exchangeIndex == -1
    ensures r.isPrivate <==> password != []
    ensures r.password == if password == [] then None else Some(password)
  {
    Room(id, name, uid, betAmount, 5, if password == [] then None else Some(password), password != [],
      [], Waiting, 0, -1, 0, 0, None, None, 0, None, 0, -1, -1, -1, false, map[], [], None, WaitingPhase, None)
  }

  /**
   * createRoom: refused without a name or a bet amount; otherwise the room is filed under the
   * counter, which moves on by one.
   */
  function CreateRoom(l: Lobby, uid: int, name: string, betAmount: int, password: string): (h: Handled)
    ensures h.reply.Rejected? <==> name == [] || betAmount == 0
    ensures h.reply.Rejected? ==> h.lobby == l
    ensures h.reply.Accepted? ==>
      && h.lobby.counter == l.counter + 1
      && h.lobby.rooms == l.rooms[l.counter := NewRoom(l.counter, uid, name, betAmount, password)]
      && h.reply.room == Some(Sanitize(h.lobby.rooms[l.counter]))
    ensures Discreet(h.reply)
  {
    if name == [] || betAmount == 0 then Handled(l, Rejected(MissingFields))
    else
      var r := NewRoom(l.counter, uid, name, betAmount, password);
      Handled(Lobby(l.rooms[l.counter := r], l.counter + 1), Accepted(Some(Sanitize(r))))
  }

  /** A created room never overwrites another one, and the registry stays well formed. */
  lemma CreateKeepsWellFormed(l: Lobby, uid: int, name: string, betAmount: int, password: string)
    requires WellFormed(l)
    ensures var h := CreateRoom(l, uid, name, betAmount, password);
      && WellFormed(h.lobby)
      && (h.reply.Accepted? ==> l.counter !in l.rooms && h.lobby.rooms.Keys == l.rooms.Keys + {l.counter})
  {
  }

  /**
   * createRoom accepts a negative bet amount, since `!betAmount` is false for -101. A game of
   * three seats antes -303 at the start; if one seat folds in the first betting round, the two
   * left ante -101 each at the start of the three later rounds, so the pot reaches -909.
   * Splitting it between the two seated winners the source's way pays out -910: one chip less
   * than the pot, so a chip disappears from the room.
   */
  lemma NegativeBetLosesChip(l: Lobby, ps: seq<Player>, ids: seq<int>)
    requires |ids| == 2 && forall i :: 0 <= i < |ids| ==> Seated(ps, ids[i])
    ensures var h := CreateRoom(l, 7, "t", -101, "");
      h.reply.Accepted? && h.lobby.rooms[l.counter].betAmount == -101
    ensures var pot := 9 * -101;
      SumChips(Settlement.Pay(ps, ids, pot / |ids|, Settlement.JsRem(pot, |ids|))) == SumChips(ps) + pot - 1
  {
    var pot := 9 * -101;
    Settlement.PayTotal(ps, ids, pot / |ids|, Settlement.JsRem(pot, |ids|));
    assert Settlement.Bonuses(|ids|, Settlement.JsRem(pot, |ids|)) == 0;
  }

  /** createRoom as evidently intended: a bet amount must be positive, not merely non-zero. */
  function CreateRoomFixed(l: Lobby, uid: int, name: string, betAmount: int, password: string): (h: Handled)
    ensures h.reply.Rejected? <==> name == [] || betAmount <= 0
    ensures h.reply.Rejected? ==> h.lobby == l
    ensures h.reply.Accepted? ==>
      && h.lobby.counter == l.counter + 1
      && h.lobby.rooms == l.rooms[l.counter := NewRoom(l.counter, uid, name, betAmount, password)]
      && h.lobby.rooms[l.counter].betAmount > 0
    ensures betAmount > 0 ==> h == CreateRoom(l, uid, name, betAmount, password)
  {
    if betAmount <= 0 then Handled(l, Rejected(MissingFields))
    else CreateRoom(l, uid, name, betAmount, password)
  }

  /**
   * In a room the corrected createRoom accepts, the pot of any number of antes is non-negative,
   * and the split among any number of winners hands out exactly that pot.
   */
  lemma FixedAntesSplitExactly(l: Lobby, uid: int, name: string, betAmount: int, password: string, n: nat, w: int)
    requires CreateRoomFixed(l, uid, name, betAmount, password).reply.Accepted? && w > 0
    ensures var pot := n * betAmount;
      pot >= 0 && (pot / w) * w + Settlement.Bonuses(w, Settlement.JsRem(pot, w)) == pot
  {
    var pot := n * betAmount;
    assert betAmount > 0;
    assert pot >= 0 by {
      ProductNonNegative(n, betAmount);
    }
    Settlement.SplitIsExact(pot, w);
  }

  lemma ProductNonNegative(n: nat, b: int)
    requires b > 0
    ensures n * b >= 0
  {
  }

  // ---------------------------------------------------------------------------
  // joinRoom
  // ---------------------------------------------------------------------------

  /** The stack a new seat brings: the given one, or 100000 when none (or zero) is given. */
  function Buyin(initialChips: Option<int>): (c: int)
    ensures c != 0
    ensures initialChips.Some? && initialChips.value != 0 ==> c == initialChips.value
  {
    match initialChips
    case None => 100000
    case Some(x) => if x == 0 then 100000 else x
  }

  /** A fresh seat, waiting for the next game. */
  function Seat(uid: int, name: string, socketId: string, chips: int, isCreator: bool): Player {
    Player(uid, name, chips, socketId, isCreator, false, 0, false, SeatWaiting, None, false, false)
  }

  /** The checks joinRoom makes, in order, before looking for the user's seat. */
  function JoinGate(l: Lobby, roomId: int, password: Option<string>): (e: Option<Refusal>)
    ensures e.None? <==>
      && roomId in l.rooms && l.rooms[roomId].status == Waiting
      && |l.rooms[roomId].players| < l.rooms[roomId].maxPlayers
      && (l.rooms[roomId].isPrivate ==> l.rooms[roomId].password == password)
  {
    if roomId !in l.rooms then Some(NoSuchRoom)
    else
      var r := l.rooms[roomId];
      if r.status != Waiting then Some(GameInProgress)
      else if |r.players| >= r.maxPlayers then Some(RoomFull)
      else if r.isPrivate && r.password != password then Some(WrongPassword)
      else None
  }

  /**
   * joinRoom: a user already seated only gets their socket updated; anyone else is appended
   * with their buy-in, as the creator exactly when the room was created by them.
   */
  function JoinRoom(l: Lobby, uid: int, name: string, socketId: string, roomId: int,
                    password: Option<string>, initialChips: Option<int>): (h: Handled)
    ensures h.reply.Rejected? <==> JoinGate(l, roomId, password).Some?
    ensures h.reply.Rejected? ==> h.lobby == l
    ensures h.reply.Accepted? ==> roomId in h.lobby.rooms && h.reply.room == Some(Sanitize(h.lobby.rooms[roomId]))
    ensures Discreet(h.reply)
  {
    match JoinGate(l, roomId, password)
    case Some(e) => Handled(l, Rejected(e))
    case None =>
      var r := l.rooms[roomId];
      var k := FindIndex(r.players, uid);
      var c := if k > -1 then r.(players := r.players[k := r.players[k].(socketId := socketId)])
               else r.(players := r.players + [Seat(uid, name, socketId, Buyin(initialChips), r.creatorId == uid)]);
      Handled(Put(l, roomId, c), Accepted(Some(Sanitize(c))))
  }

  /** A rejoining user keeps their seat and only changes socket; nobody else's seat moves. */
  lemma RejoinKeepsSeat(l: Lobby, uid: int, name: string, socketId: string, roomId: int,
                        password: Option<string>, initialChips: Option<int>)
    requires JoinGate(l, roomId, password).None? && Seated(l.rooms[roomId].players, uid)
    ensures var h := JoinRoom(l, uid, name, socketId, roomId, password, initialChips);
      var ps, qs := l.rooms[roomId].players, h.lobby.rooms[roomId].players;
      var k := FindIndex(ps, uid);
      && 0 <= k < |ps| && qs == ps[k := ps[k].(socketId := socketId)]
      && h.lobby.rooms[roomId] == l.rooms[roomId].(players := qs)
  {
  }

  /** A newcomer is appended with their buy-in, a creator flag matching the room's creator, and no hand. */
  lemma NewcomerAppended(l: Lobby, uid: int, name: string, socketId: string, roomId: int,
                         password: Option<string>, initialChips: Option<int>)
    requires JoinGate(l, roomId, password).None? && !Seated(l.rooms[roomId].players, uid)
    ensures var h := JoinRoom(l, uid, name, socketId, roomId, password, initialChips);
      var r, c := l.rooms[roomId], h.lobby.rooms[roomId];
      && c == r.(players := r.players + [c.players[|r.players|]])
      && |c.players| == |r.players| + 1
      && var p := c.players[|r.players|];
        p.id == uid && p.chips == Buyin(initialChips) && p.socketId == socketId
        && (p.isCreator <==> r.creatorId == uid) && !p.leaveReserved && p.bestHand == None
  {
    assert FindIndex(l.rooms[roomId].players, uid) == -1;
  }

  /** Joining never seats a user twice and never overfills a room. */
  lemma JoinKeepsWellFormed(l: Lobby, uid: int, name: string, socketId: string, roomId: int,
                            password: Option<string>, initialChips: Option<int>)
    requires WellFormed(l)
    ensures WellFormed(JoinRoom(l, uid, name, socketId, roomId, password, initialChips).lobby)
  {
    var h := JoinRoom(l, uid, name, socketId, roomId, password, initialChips);
    if h.reply.Accepted? {
      var ps, qs := l.rooms[roomId].players, h.lobby.rooms[roomId].players;
      if Seated(ps, uid) {
        RejoinKeepsSeat(l, uid, name, socketId, roomId, password, initialChips);
        assert forall j :: 0 <= j < |ps| ==> qs[j].id == ps[j].id;
      } else {
        NewcomerAppended(l, uid, name, socketId, roomId, password, initialChips);
        assert forall j :: 0 <= j < |ps| ==> qs[j] == ps[j];
      }
    }
  }

  // ---------------------------------------------------------------------------
  // Seats leaving
  // ---------------------------------------------------------------------------

  /** `player.leaveReserved = true` on seat k. */
  function Reserve(r: Room, k: nat, flag: bool): (c: Room)
    requires k < |r.players|
    ensures |c.players| == |r.players| && c.players[k].leaveReserved == flag
    ensures c == r.(players := r.players[k := r.players[k].(leaveReserved := flag)])
  {
    r.(players := r.players[k := r.players[k].(leaveReserved := flag)])
  }

  /**
   * Seat k leaves the room, on behalf of user uid: an emptied room is gone; otherwise, when
   * uid created the room, the first remaining seat becomes the creator.
   */
  function Vacate(r: Room, k: nat, uid: int): (c: Option<Room>)
    requires k < |r.players|
    ensures c.None? <==> |r.players| == 1
    ensures c.Some? ==>
      && |c.value.players| == |r.players| - 1
      && (forall j :: 0 <= j < k ==> c.value.players[j].id == r.players[j].id)
      && (forall j :: k <= j < |c.value.players| ==> c.value.players[j].id == r.players[j + 1].id)
      && (r.creatorId == uid ==> c.value.creatorId == c.value.players[0].id && c.value.players[0].isCreator)
      && (r.creatorId != uid ==> c.value.creatorId == r.creatorId)
      && c.value.id == r.id && c.value.maxPlayers == r.maxPlayers && c.value.status == r.status
  {
    var ps := r.players[..k] + r.players[k + 1..];
    if ps == [] then None
    else if r.creatorId == uid then Some(r.(players := ps[0 := ps[0].(isCreator := true)], creatorId := ps[0].id))
    else Some(r.(players := ps))
  }

  /** The seat left behind is gone, and the remaining users stay distinct. */
  lemma VacateKeepsIds(r: Room, k: nat, uid: int)
    requires k < |r.players| && UniqueIds(r.players) && Vacate(r, k, uid).Some?
    ensures var c := Vacate(r, k, uid).value;
      UniqueIds(c.players) && !Seated(c.players, r.players[k].id)
  {
    var c := Vacate(r, k, uid).value;
    var ps := r.players;
    forall i, j | 0 <= i < j < |c.players| ensures c.players[i].id != c.players[j].id {
      var i', j' := if i < k then i else i + 1, if j < k then j else j + 1;
      assert c.players[i].id == ps[i'].id && c.players[j].id == ps[j'].id;
    }
    forall j | 0 <= j < |c.players| ensures c.players[j].id != ps[k].id {
      var j' := if j < k then j else j + 1;
      assert c.players[j].id == ps[j'].id;
    }
  }

  /**
   * leaveRoom: leaving a room that no longer exists succeeds; a user with no seat is refused,
   * as is the creator of a waiting room with others in it; while a game is on the leave is
   * only reserved (and reported as a refusal); otherwise the seat is vacated.
   */
  function LeaveRoom(l: Lobby, uid: int, roomId: int): (h: Handled)
    ensures roomId !in l.rooms ==> h == Handled(l, Accepted(None))
    ensures roomId in l.rooms ==> (h.reply.Rejected? && h.reply.why != LeaveDeferred <==>
      var r := l.rooms[roomId];
      !Seated(r.players, uid) || (r.creatorId == uid && |r.players| > 1 && r.status == Waiting))
    ensures h.reply.Rejected? && h.reply.why != LeaveDeferred ==> h.lobby == l
    ensures h.reply.Rejected? && h.reply.why == LeaveDeferred ==>
      && roomId in l.rooms && l.rooms[roomId].status == Playing
      && var r := l.rooms[roomId]; var k := FindIndex(r.players, uid);
        0 <= k && h.lobby == Put(l, roomId, Reserve(r, k, true))
    ensures h.reply.Accepted? && roomId in l.rooms ==>
      && l.rooms[roomId].status != Playing
      && var r := l.rooms[roomId]; var k := FindIndex(r.players, uid);
        0 <= k && h.lobby == Update(l, roomId, Vacate(r, k, uid))
    ensures Discreet(h.reply)
  {
    if roomId !in l.rooms then Handled(l, Accepted(None))
    else
      var r := l.rooms[roomId];
      var k := FindIndex(r.players, uid);
      if k == -1 then Handled(l, Rejected(NotInRoom))
      else if r.creatorId == uid && |r.players| > 1 && r.status == Waiting then Handled(l, Rejected(CreatorMustStay))
      else if r.status == Playing then Handled(Put(l, roomId, Reserve(r, k, true)), Rejected(LeaveDeferred))
      else Handled(Update(l, roomId, Vacate(r, k, uid)), Accepted(None))
  }

  lemma LeaveKeepsWellFormed(l: Lobby, uid: int, roomId: int)
    requires WellFormed(l)
    ensures WellFormed(LeaveRoom(l, uid, roomId).lobby)
  {
    var h := LeaveRoom(l, uid, roomId);
    if roomId in l.rooms && h.lobby != l {
      var r := l.rooms[roomId];
      var k := FindIndex(r.players, uid);
      if r.status == Playing {
        assert forall j :: 0 <= j < |r.players| ==> Reserve(r, k, true).players[j].id == r.players[j].id;
      } else if Vacate(r, k, uid).Some? {
        VacateKeepsIds(r, k, uid);
      }
    }
  }

  /** A user seated nowhere else is found at the seat appended for them. */
  lemma FoundAtEnd(ps: seq<Player>, p: Player)
    requires !Seated(ps, p.id)
    ensures FindIndex(ps + [p], p.id) == |ps|
  {
    assert (ps + [p])[|ps|] == p;
    assert forall j :: 0 <= j < |ps| ==> (ps + [p])[j] == ps[j];
  }

  /**
   * Joining a waiting room and leaving it again, as anyone but its creator, puts the room
   * back as it was, or deletes it when it had been empty.
   */
  lemma JoinThenLeave(l: Lobby, uid: int, name: string, socketId: string, roomId: int,
                      password: Option<string>, initialChips: Option<int>)
    requires WellFormed(l) && JoinGate(l, roomId, password).None?
    requires !Seated(l.rooms[roomId].players, uid) && l.rooms[roomId].creatorId != uid
    ensures var j := JoinRoom(l, uid, name, socketId, roomId, password, initialChips).lobby;
      var h := LeaveRoom(j, uid, roomId);
      && h.reply == Accepted(None)
      && h.lobby == if l.rooms[roomId].players == [] then Update(l, roomId, None) else l
  {
    NewcomerAppended(l, uid, name, socketId, roomId, password, initialChips);
    var j := JoinRoom(l, uid, name, socketId, roomId, password, initialChips).lobby;
    var r, c := l.rooms[roomId], j.rooms[roomId];
    var n := |r.players|;
    FoundAtEnd(r.players, c.players[n]);
    var k := FindIndex(c.players, uid);
    assert (c.players[..k] + c.players[k + 1..]) == r.players;
    if n > 0 {
      assert Vacate(c, k, uid) == Some(r);
      assert j.rooms[roomId := r] == l.rooms;
    } else {
      assert l.rooms - {roomId} == j.rooms - {roomId};
    }
  }

  // ---------------------------------------------------------------------------
  // reserveLeaveRoom and cancelLeaveRoom
  // ---------------------------------------------------------------------------

  /** reserveLeaveRoom: only a seated user of a room in play can reserve a leave. */
  function ReserveLeave(l: Lobby, uid: int, roomId: int): (h: Handled)
    ensures h.reply.Accepted? <==>
      roomId in l.rooms && Seated(l.rooms[roomId].players, uid) && l.rooms[roomId].status == Playing
    ensures h.reply.Rejected? ==> h.lobby == l
    ensures h.reply.Accepted? ==>
      var r := l.rooms[roomId]; var k := FindIndex(r.players, uid);
      0 <= k && h.lobby == Put(l, roomId, Reserve(r, k, true)) && h.reply.room == None
  {
    if roomId !in l.rooms then Handled(l, Rejected(NoSuchRoom))
    else
      var r := l.rooms[roomId];
      var k := FindIndex(r.players, uid);
      if k != -1 && r.status == Playing then Handled(Put(l, roomId, Reserve(r, k, true)), Accepted(None))
      else Handled(l, Rejected(NotPlaying))
  }

  /** cancelLeaveRoom: only a reserved leave in a room in play can be cancelled. */
  function CancelLeave(l: Lobby, uid: int, roomId: int): (h: Handled)
    ensures h.reply.Accepted? <==>
      && roomId in l.rooms && Seated(l.rooms[roomId].players, uid) && l.rooms[roomId].status == Playing
      && l.rooms[roomId].players[FindIndex(l.rooms[roomId].players, uid)].leaveReserved
    ensures h.reply.Rejected? ==> h.lobby == l
    ensures h.reply.Accepted? ==>
      var r := l.rooms[roomId]; var k := FindIndex(r.players, uid);
      0 <= k && h.lobby == Put(l, roomId, Reserve(r, k, false)) && h.reply.room == None
  {
    if roomId !in l.rooms then Handled(l, Rejected(NoSuchRoom))
    else
      var r := l.rooms[roomId];
      var k := FindIndex(r.players, uid);
      if k != -1 && r.status == Playing && r.players[k].leaveReserved then
        Handled(Put(l, roomId, Reserve(r, k, false)), Accepted(None))
      else Handled(l, Rejected(NotReserved))
  }

  /** Reserving a leave and cancelling it puts the registry back as it was. */
  lemma ReserveThenCancel(l: Lobby, uid: int, roomId: int)
    requires roomId in l.rooms && Seated(l.rooms[roomId].players, uid) && l.rooms[roomId].status == Playing
    requires !l.rooms[roomId].players[FindIndex(l.rooms[roomId].players, uid)].leaveReserved
    ensures var h := CancelLeave(ReserveLeave(l, uid, roomId).lobby, uid, roomId);
      h.reply.Accepted? && h.lobby == l
  {
    var r := l.rooms[roomId];
    var k := FindIndex(r.players, uid);
    ReserveThenCancelSteps(l, uid, roomId);
    ReserveUndone(r, k);
    PutBack(l, roomId, Reserve(r, k, true));
  }

  /** The two handlers in a row both accept, and store the room twice over. */
  lemma ReserveThenCancelSteps(l: Lobby, uid: int, roomId: int)
    requires roomId in l.rooms && Seated(l.rooms[roomId].players, uid) && l.rooms[roomId].status == Playing
    requires !l.rooms[roomId].players[FindIndex(l.rooms[roomId].players, uid)].leaveReserved
    ensures var r := l.rooms[roomId]; var k := FindIndex(r.players, uid);
      var h := CancelLeave(ReserveLeave(l, uid, roomId).lobby, uid, roomId);
      && 0 <= k < |r.players|
      && h.reply.Accepted?
      && h.lobby == Put(Put(l, roomId, Reserve(r, k, true)), roomId, Reserve(Reserve(r, k, true), k, false))
  {
    var r := l.rooms[roomId];
    var k := FindIndex(r.players, uid);
    var c := Reserve(r, k, true);
    var l1 := Put(l, roomId, c);
    assert ReserveLeave(l, uid, roomId).lobby == l1;
    SameIdsSameIndex(r.players, c.players, uid);
    assert l1.rooms[roomId] == c;
  }

  /** Storing a room over a stored room, then storing the original back, restores the registry. */
  lemma PutBack(l: Lobby, id: int, c: Room)
    requires id in l.rooms
    ensures Put(Put(l, id, c), id, l.rooms[id]) == l
  {
    assert l.rooms[id := c][id := l.rooms[id]] == l.rooms;
  }

  /** Clearing a reservation just made restores the room. */
  lemma ReserveUndone(r: Room, k: nat)
    requires k < |r.players| && !r.players[k].leaveReserved
    ensures Reserve(Reserve(r, k, true), k, false) == r
  {
    var p := r.players[k];
    assert p.(leaveReserved := true).(leaveReserved := false) == p;
    assert r.players[k := p] == r.players;
  }

  lemma ReserveKeepsWellFormed(l: Lobby, uid: int, roomId: int, flag: bool)
    requires WellFormed(l)
    ensures WellFormed((if flag then ReserveLeave(l, uid, roomId) else CancelLeave(l, uid, roomId)).lobby)
  {
    var h := if flag then ReserveLeave(l, uid, roomId) else CancelLeave(l, uid, roomId);
    if h.reply.Accepted? {
      var r := l.rooms[roomId];
      var k := FindIndex(r.players, uid);
      assert forall j :: 0 <= j < |r.players| ==> Reserve(r, k, flag).players[j].id == r.players[j].id;
    }
  }

  // ---------------------------------------------------------------------------
  // startGame
  // ---------------------------------------------------------------------------

  /**
   * The startGame handler: only the creator may start, with two seats or more, and not while
   * a game is on; the engine's startGame then decides, and whatever it changed is kept.
   */
  function StartGameHandler(l: Lobby, uid: int, roomId: int, pick: nat -> nat): (h: Handled)
    ensures h.reply.Accepted? <==>
      && roomId in l.rooms && l.rooms[roomId].creatorId == uid && l.rooms[roomId].status != Playing
      && StartGame(l.rooms[roomId], pick).Started?
    ensures h.reply.Accepted? ==>
      h.lobby == Put(l, roomId, StartGame(l.rooms[roomId], pick).room) && h.reply.room == None
    ensures h.lobby != l ==> roomId in l.rooms && !StartGame(l.rooms[roomId], pick).Refused?
  {
    if roomId !in l.rooms then Handled(l, Rejected(NoSuchRoom))
    else
      var r := l.rooms[roomId];
      if r.creatorId != uid then Handled(l, Rejected(NotCreator))
      else if |r.players| < 2 then Handled(l, Rejected(TooFewPlayers))
      else if r.status == Playing then Handled(l, Rejected(AlreadyPlaying))
      else
        match StartGame(r, pick)
        case Refused => Handled(l, Rejected(StartFailed))
        case Failed(g) => Handled(Put(l, roomId, g), Rejected(StartFailed))
        case Started(g) => Handled(Put(l, roomId, g), Accepted(None))
  }

  lemma StartKeepsWellFormed(l: Lobby, uid: int, roomId: int, pick: nat -> nat)
    requires WellFormed(l)
    ensures WellFormed(StartGameHandler(l, uid, roomId, pick).lobby)
  {
    var h := StartGameHandler(l, uid, roomId, pick);
    if h.lobby != l {
      var r := l.rooms[roomId];
      StartKeepsSeats(r, pick);
    }
  }

  // ---------------------------------------------------------------------------
  // userLoggedOut and disconnect: every room at once
  // ---------------------------------------------------------------------------

  /** `players.findIndex(p => p.socketId === socketId)`. */
  function FindSocket(ps: seq<Player>, socketId: string): (k: int)
    ensures -1 <= k < |ps|
    ensures k >= 0 ==> ps[k].socketId == socketId && forall j :: 0 <= j < k ==> ps[j].socketId != socketId
    ensures k == -1 ==> forall j :: 0 <= j < |ps| ==> ps[j].socketId != socketId
  {
    FindFirst(ps, (p: Player) => p.socketId == socketId)
  }

  /** The registry after one room-by-room step; rooms it empties are deleted. */
  function EachRoom(l: Lobby, step: Room -> Option<Room>): (m: Lobby)
    ensures m.counter == l.counter
    ensures forall k :: k in m.rooms <==> k in l.rooms && step(l.rooms[k]).Some?
    ensures forall k :: k in m.rooms ==> m.rooms[k] == step(l.rooms[k]).value
  {
    Lobby(map k | k in l.rooms && step(l.rooms[k]).Some? :: step(l.rooms[k]).value, l.counter)
  }

  /** One room's part in userLoggedOut: the user's seat is vacated even while a game is on. */
  function LogoutFrom(r: Room, uid: int): (c: Option<Room>)
    ensures !Seated(r.players, uid) ==> c == Some(r)
  {
    var k := FindIndex(r.players, uid);
    if k == -1 then Some(r) else Vacate(r, k, uid)
  }

  /** userLoggedOut: a report about another user is ignored; otherwise the user leaves every room. */
  function UserLoggedOut(l: Lobby, uid: int, loggedOut: int): (m: Lobby)
    ensures loggedOut != uid ==> m == l
    ensures loggedOut == uid ==> m == EachRoom(l, r => LogoutFrom(r, uid))
  {
    if loggedOut != uid then l else EachRoom(l, r => LogoutFrom(r, uid))
  }

  /** After logging out the user holds no seat anywhere, and the registry stays well formed. */
  lemma LogoutLeavesNoSeat(l: Lobby, uid: int)
    requires WellFormed(l)
    ensures var m := UserLoggedOut(l, uid, uid);
      && WellFormed(m)
      && forall k :: k in m.rooms ==> !Seated(m.rooms[k].players, uid)
  {
    var m := UserLoggedOut(l, uid, uid);
    forall k | k in m.rooms
      ensures UniqueIds(m.rooms[k].players) && !Seated(m.rooms[k].players, uid)
      ensures m.rooms[k].id == k && |m.rooms[k].players| <= m.rooms[k].maxPlayers
    {
      var r := l.rooms[k];
      var i := FindIndex(r.players, uid);
      if i != -1 {
        VacateKeepsIds(r, i, uid);
      }
    }
  }

  /**
   * One room's part in disconnect, for the seat holding the socket: in a game in play an
   * unreserved seat becomes reserved; otherwise the seat is vacated.
   */
  function DisconnectFrom(r: Room, uid: int, socketId: string): (c: Option<Room>)
  {
    var k := FindSocket(r.players, socketId);
    if k == -1 then Some(r)
    else if r.status == Playing && !r.players[k].leaveReserved then Some(Reserve(r, k, true))
    else Vacate(r, k, uid)
  }

  /** disconnect: the socket's seat in every room is reserved or vacated. */
  function Disconnect(l: Lobby, uid: int, socketId: string): (m: Lobby)
    ensures m.counter == l.counter
    ensures forall k :: k in m.rooms ==> k in l.rooms
  {
    EachRoom(l, r => DisconnectFrom(r, uid, socketId))
  }

  /**
   * What a disconnect does to a room holding the socket: a seat in a game in play stays,
   * reserved, with every other seat unchanged; any other seat is gone.
   */
  lemma DisconnectSeat(l: Lobby, uid: int, socketId: string, id: int)
    requires id in l.rooms
    ensures var r := l.rooms[id]; var k := FindSocket(r.players, socketId); var m := Disconnect(l, uid, socketId);
      && (k == -1 ==> id in m.rooms && m.rooms[id] == r)
      && (k != -1 && r.status == Playing && !r.players[k].leaveReserved ==>
            id in m.rooms && m.rooms[id] == Reserve(r, k, true))
      && (k != -1 && !(r.status == Playing && !r.players[k].leaveReserved) ==>
            (id in m.rooms <==> |r.players| > 1)
            && (id in m.rooms ==> |m.rooms[id].players| == |r.players| - 1))
  {
  }

  lemma DisconnectKeepsWellFormed(l: Lobby, uid: int, socketId: string)
    requires WellFormed(l)
    ensures WellFormed(Disconnect(l, uid, socketId))
  {
    var m := Disconnect(l, uid, socketId);
    forall k | k in m.rooms
      ensures UniqueIds(m.rooms[k].players) && m.rooms[k].id == k && |m.rooms[k].players| <= m.rooms[k].maxPlayers
    {
      var r := l.rooms[k];
      var i := FindSocket(r.players, socketId);
      if i != -1 {
        if r.status == Playing && !r.players[i].leaveReserved {
          assert forall j :: 0 <= j < |r.players| ==> Reserve(r, i, true).players[j].id == r.players[j].id;
        } else {
          VacateKeepsIds(r, i, uid);
        }
      }
    }
  }
}

=== FILE: robots.dfy ===
/**
 * The robot accounts kept by badugi-server/app/Helpers/RobotManager.php, over the list itself:
 * reading and saving the JSON file are left to the caller, the password hasher and the clock
 * are parameters.
 */
module Robots {
  import opened Options
  import opened Seqs
  import opened Lookup

  /** One entry of the robot file. */
  datatype Robot = Robot(
    id: int,
    name: string,
    email: string,
    password: string,
    points: int,
    isActive: bool,
    createdAt: string,
    updatedAt: string)

  /** Ids 1..m, the ones an id search has already found taken. */
  function Upto(m: nat): (s: set<int>)
    ensures |s| == m
    ensures forall j :: j in s <==> 1 <= j <= m
  {
    if m == 0 then {} else
      var t := Upto(m - 1);
      assert m !in t;
      t + {m}
  }

  /** If every id 1..m is taken, there are at least m ids. */
  lemma TakenBound(ids: set<int>, m: nat)
    requires forall j :: 1 <= j <= m ==> j in ids
    ensures m <= |ids|
  {
    var u := Upto(m);
    assert u <= ids;
    assert |u| <= |ids| by {
      var rest := ids - u;
      assert ids == u + rest;
    }
  }

  /** The ids of a robot list. */
  function Ids(robots: seq<Robot>): (ids: set<int>)
    ensures forall x :: x in ids <==> exists k :: 0 <= k < |robots| && robots[k].id == x
  {
    set k | 0 <= k < |robots| :: robots[k].id
  }

  /** The search of generateUniqueId from candidate n on, every smaller positive id being taken. */
  function FreeFrom(ids: set<int>, n: int): (k: int)
    requires n >= 1 && forall j :: 1 <= j < n ==> j in ids
    ensures k >= n && k !in ids
    ensures forall j :: 1 <= j < k ==> j in ids
    decreases |ids| + 1 - n
  {
    TakenBound(ids, n - 1);
    if n in ids then FreeFrom(ids, n + 1) else n
  }

  /** generateUniqueId: the least positive id no robot has. */
  function GenerateUniqueId(robots: seq<Robot>): (id: int)
    ensures id >= 1 && id !in Ids(robots)
    ensures forall j :: 1 <= j < id ==> j in Ids(robots)
  {
    FreeFrom(Ids(robots), 1)
  }

  /** The least free id is at most one past the number of robots. */
  lemma UniqueIdBound(robots: seq<Robot>)
    ensures GenerateUniqueId(robots) <= |robots| + 1
  {
    var id := GenerateUniqueId(robots);
    TakenBound(Ids(robots), id - 1);
    SetOfSeqSize(robots);
  }

  /** A list has no more distinct ids than entries. */
  lemma {:induction false} SetOfSeqSize(robots: seq<Robot>)
    ensures |Ids(robots)| <= |robots|
    decreases |robots|
  {
    if robots != [] {
      var init := robots[..|robots| - 1];
      SetOfSeqSize(init);
      assert Ids(robots) == Ids(init) + {robots[|robots| - 1].id} by {
        forall x | x in Ids(robots) ensures x in Ids(init) + {robots[|robots| - 1].id} {
          var k :| 0 <= k < |robots| && robots[k].id == x;
          if k < |robots| - 1 {
            assert init[k].id == x;
          }
        }
        forall x | x in Ids(init) ensures x in Ids(robots) {
          var k :| 0 <= k < |init| && init[k].id == x;
          assert robots[k].id == x;
        }
      }
    }
  }

  /** Decimal digits of a natural number, as PHP interpolates an integer into a string. */
  function Decimal(n: nat): (s: string)
    ensures |s| >= 1
    ensures forall k :: 0 <= k < |s| ==> '0' <= s[k] <= '9'
    decreases n
  {
    var d := (48 + n % 10) as char;
    if n < 10 then [d] else Decimal(n / 10) + [d]
  }

  /** The address of robot `id`: `{base}{id}@example.com`. */
  function EmailOf(base: string, id: nat): string {
    base + Decimal(id) + "@example.com"
  }

  predicate HasEmail(robots: seq<Robot>, email: string) {
    exists k :: 0 <= k < |robots| && robots[k].email == email
  }

  /** A new robot: 100000 points, inactive, created and updated at `now`. */
  function NewRobot(id: nat, email: string, hashed: string, now: string): (r: Robot)
    ensures r.id == id && r.email == email && r.password == hashed
    ensures r.points == 100000 && !r.isActive && r.createdAt == now && r.updatedAt == now
  {
    Robot(id, "\U{B85C}\U{BD07}" + Decimal(id), email, hashed, 100000, false, now, now)
  }

  /**
   * The loop of generateRobots, `count` rounds over the growing list `existing`: each round
   * takes the least free id and adds a robot for it, unless a robot already has its address,
   * in which case the round is skipped.
   */
  function Generate(existing: seq<Robot>, count: int, base: string, hashed: string, now: string): (added: seq<Robot>)
    ensures |added| <= if count <= 0 then 0 else count
    ensures forall k :: 0 <= k < |added| ==>
      && added[k].id >= 1 && added[k].id !in Ids(existing)
      && added[k].email == EmailOf(base, added[k].id) && !HasEmail(existing, added[k].email)
      && added[k].password == hashed && added[k].points == 100000 && !added[k].isActive
    ensures forall j, k :: 0 <= j < k < |added| ==> added[j].id != added[k].id
    decreases count
  {
    if count <= 0 then []
    else
      var id := GenerateUniqueId(existing);
      var email := EmailOf(base, id);
      if HasEmail(existing, email) then Generate(existing, count - 1, base, hashed, now)
      else
        var robot := NewRobot(id, email, hashed, now);
        var more := existing + [robot];
        var rest := Generate(more, count - 1, base, hashed, now);
        assert forall x :: x in Ids(existing) ==> x in Ids(more) by {
          forall x | x in Ids(existing) ensures x in Ids(more) {
            var k :| 0 <= k < |existing| && existing[k].id == x;
            assert more[k].id == x;
          }
        }
        assert id in Ids(more) by {
          assert more[|existing|].id == id;
        }
        assert forall e :: HasEmail(existing, e) ==> HasEmail(more, e) by {
          forall e | HasEmail(existing, e) ensures HasEmail(more, e) {
            var k :| 0 <= k < |existing| && existing[k].email == e;
            assert more[k].email == e;
          }
        }
        [robot] + rest
  }

  /**
   * generateRobots: the list saved back (the old robots followed by the new ones), and the
   * new robots alone, which is what the caller gets.
   */
  function GenerateRobots(robots: seq<Robot>, count: int, base: string, password: string,
                          hash: string -> string, now: string): (r: (seq<Robot>, seq<Robot>))
    ensures r.0 == robots + r.1
    ensures |r.1| <= if count <= 0 then 0 else count
    ensures forall k :: 0 <= k < |r.1| ==>
      r.1[k].id >= 1 && r.1[k].id !in Ids(robots) && r.1[k].email == EmailOf(base, r.1[k].id) && r.1[k].password == hash(password)
  {
    var added := Generate(robots, count, base, hash(password), now);
    (robots + added, added)
  }

  /** Different numbers print differently. */
  lemma {:induction false} DecimalInjective(n: nat, m: nat)
    requires Decimal(n) == Decimal(m)
    ensures n == m
    decreases n
  {
    var s := Decimal(n);
    if n >= 10 && m >= 10 {
      assert s[..|s| - 1] == Decimal(n / 10) && s[..|s| - 1] == Decimal(m / 10);
      DecimalInjective(n / 10, m / 10);
    } else if n < 10 && m < 10 {
      assert (48 + n % 10) as char == (48 + m % 10) as char;
    }
  }

  /** Different ids get different addresses. */
  lemma EmailInjective(base: string, a: nat, b: nat)
    requires EmailOf(base, a) == EmailOf(base, b)
    ensures a == b
  {
    var e := EmailOf(base, a);
    assert e[|base|..|e| - 12] == Decimal(a);
    assert e[|base|..|e| - 12] == Decimal(b);
    DecimalInjective(a, b);
  }

  /** The robots generateRobots makes: positive ids, each with its own address. */
  predicate Generated(robots: seq<Robot>, base: string) {
    forall k :: 0 <= k < |robots| ==> robots[k].id >= 1 && robots[k].email == EmailOf(base, robots[k].id)
  }

  /** Over a list of generated robots no round is skipped: exactly `count` robots are added. */
  lemma {:induction false} GenerateFillsCount(existing: seq<Robot>, count: int, base: string, hashed: string, now: string)
    requires Generated(existing, base)
    ensures |Generate(existing, count, base, hashed, now)| == if count <= 0 then 0 else count
    decreases count
  {
    if count > 0 {
      var id := GenerateUniqueId(existing);
      var email := EmailOf(base, id);
      if HasEmail(existing, email) {
        var k :| 0 <= k < |existing| && existing[k].email == email;
        EmailInjective(base, existing[k].id, id);
        assert false;
      }
      var robot := NewRobot(id, email, hashed, now);
      var more := existing + [robot];
      assert Generate(existing, count, base, hashed, now) == [robot] + Generate(more, count - 1, base, hashed, now);
      GeneratedAppend(existing, robot, base);
      GenerateFillsCount(more, count - 1, base, hashed, now);
    }
  }

  /** A list of generated robots stays one after a robot of the same shape is added. */
  lemma GeneratedAppend(robots: seq<Robot>, robot: Robot, base: string)
    requires Generated(robots, base) && robot.id >= 1 && robot.email == EmailOf(base, robot.id)
    ensures Generated(robots + [robot], base)
  {
  }

  /**
   * Once the least free id's address is already taken, no later round can add anything: the
   * list does not change, so every round finds the same id and skips it.
   */
  lemma {:induction false} CollisionStopsGeneration(existing: seq<Robot>, count: int, base: string, hashed: string, now: string)
    requires HasEmail(existing, EmailOf(base, GenerateUniqueId(existing)))
    ensures Generate(existing, count, base, hashed, now) == []
    decreases count
  {
    if count > 0 {
      CollisionStopsGeneration(existing, count - 1, base, hashed, now);
    }
  }

  /** A robot numbered 2 holding the address of number 1 stops generateRobots from adding any. */
  lemma CollisionExample(count: int, hashed: string, now: string)
    ensures var existing := [Robot(2, "bot", EmailOf("bot", 1), "", 100000, false, now, now)];
      Generate(existing, count, "bot", hashed, now) == []
  {
    var existing := [Robot(2, "bot", EmailOf("bot", 1), "", 100000, false, now, now)];
    assert 1 !in Ids(existing);
    assert GenerateUniqueId(existing) == 1;
    assert existing[0].email == EmailOf("bot", 1);
    CollisionStopsGeneration(existing, count, "bot", hashed, now);
  }

  // ---------------------------------------------------------------------------
  // deleteRobot
  // ---------------------------------------------------------------------------

  /** deleteRobot: every robot with that address goes; the answer is whether any went. */
  function DeleteRobot(robots: seq<Robot>, email: string): (r: (seq<Robot>, bool))
    ensures forall x :: x in r.0 ==> x in robots && x.email != email
    ensures forall x :: x in robots && x.email != email ==> x in r.0
    ensures r.1 <==> HasEmail(robots, email)
  {
    var kept := Filter(robots, (x: Robot) => x.email != email);
    FilterShorter(robots, (x: Robot) => x.email != email);
    forall x | x in robots && x.email != email ensures x in kept {
      var k :| 0 <= k < |robots| && robots[k] == x;
      FilterKeeps(robots, (x: Robot) => x.email != email, k);
    }
    assert HasEmail(robots, email) <==> exists x :: x in robots && x.email == email by {
      if HasEmail(robots, email) {
        var k :| 0 <= k < |robots| && robots[k].email == email;
        assert robots[k] in robots;
      }
    }
    (kept, |kept| < |robots|)
  }

  /** Deleting keeps the survivors in order: the list split anywhere is filtered piece by piece. */
  lemma DeleteKeepsOrder(a: seq<Robot>, b: seq<Robot>, email: string)
    ensures DeleteRobot(a + b, email).0 == DeleteRobot(a, email).0 + DeleteRobot(b, email).0
  {
    FilterAppend(a, b, (x: Robot) => x.email != email);
  }

  /** Deleting twice is deleting once, and the second call reports that nothing went. */
  lemma DeleteIdempotent(robots: seq<Robot>, email: string)
    ensures var once := DeleteRobot(robots, email).0;
      DeleteRobot(once, email) == (once, false)
  {
    var p := (x: Robot) => x.email != email;
    var once := DeleteRobot(robots, email).0;
    FilterAll(once, p);
  }

  // ---------------------------------------------------------------------------
  // updateRobot
  // ---------------------------------------------------------------------------

  /** The fields `$data` may carry; an absent field leaves the robot's value. */
  datatype Patch = Patch(
    id: Option<int>,
    name: Option<string>,
    email: Option<string>,
    password: Option<string>,
    passwordConfirmation: Option<string>,
    points: Option<int>,
    isActive: Option<bool>)

  /** PHP's `blank` on a string: empty once surrounding whitespace is trimmed. */
  predicate Blank(s: string) {
    forall k :: 0 <= k < |s| ==> s[k] in {' ', '\t', '\n', '\r', '\U{0000}', '\U{000B}'}
  }

  /** A password is set only when given and not blank. */
  predicate Filled(p: Option<string>) {
    p.Some? && !Blank(p.value)
  }

  function Or<T>(o: Option<T>, d: T): T {
    match o
    case None => d
    case Some(v) => v
  }

  /**
   * `array_merge($robot, $data)` after the password rule, stamped with `now`: every field the
   * patch carries takes the patch's value and every other keeps the robot's, a filled password
   * is hashed in, a blank or missing one leaves the stored hash, and the confirmation is never
   * stored.
   */
  function Merge(r: Robot, patch: Patch, hash: string -> string, now: string): (m: Robot)
    ensures m.password == if Filled(patch.password) then hash(patch.password.value) else r.password
    ensures m.updatedAt == now && m.createdAt == r.createdAt
    ensures patch.id.Some? ==> m.id == patch.id.value
    ensures patch.id.None? ==> m.id == r.id
    ensures patch.name.Some? ==> m.name == patch.name.value
    ensures patch.name.None? ==> m.name == r.name
    ensures patch.email.Some? ==> m.email == patch.email.value
    ensures patch.email.None? ==> m.email == r.email
    ensures patch.points.Some? ==> m.points == patch.points.value
    ensures patch.points.None? ==> m.points == r.points
    ensures patch.isActive.Some? ==> m.isActive == patch.isActive.value
    ensures patch.isActive.None? ==> m.isActive == r.isActive
  {
    Robot(Or(patch.id, r.id), Or(patch.name, r.name), Or(patch.email, r.email),
      if Filled(patch.password) then hash(patch.password.value) else r.password,
      Or(patch.points, r.points), Or(patch.isActive, r.isActive), r.createdAt, now)
  }

  /** The first robot with that id, or -1. */
  function FindId(robots: seq<Robot>, id: int): (k: int)
    ensures -1 <= k < |robots|
    ensures k >= 0 ==> robots[k].id == id && forall j :: 0 <= j < k ==> robots[j].id != id
    ensures k == -1 ==> forall j :: 0 <= j < |robots| ==> robots[j].id != id
  {
    FindFirst(robots, (r: Robot) => r.id == id)
  }

  /**
   * updateRobot: the patch is merged into the first robot with that id only, and the list
   * saved; with no such robot nothing is saved (`None`, the call's `false`).
   */
  function UpdateRobot(robots: seq<Robot>, id: int, patch: Patch, hash: string -> string, now: string): (r: Option<seq<Robot>>)
    ensures r.None? <==> id !in Ids(robots)
    ensures r.Some? ==>
      && |r.value| == |robots|
      && exists k ::
           && 0 <= k < |robots| && robots[k].id == id
           && (forall j :: 0 <= j < k ==> robots[j].id != id)
           && r.value[k] == Merge(robots[k], patch, hash, now)
           && forall j :: 0 <= j < |robots| && j != k ==> r.value[j] == robots[j]
  {
    var k := FindId(robots, id);
    if k == -1 then None else Some(robots[k := Merge(robots[k], patch, hash, now)])
  }

  /** An update that gives no password never changes the stored hash. */
  lemma BlankPasswordKept(robots: seq<Robot>, id: int, patch: Patch, hash: string -> string, now: string)
    requires !Filled(patch.password) && UpdateRobot(robots, id, patch, hash, now).Some?
    ensures var after := UpdateRobot(robots, id, patch, hash, now).value;
      forall j :: 0 <= j < |robots| ==> after[j].password == robots[j].password
  {
  }
}

=== FILE: rooms.dfy ===
/**
 * The room and seat records shared by the socket handlers (badugi-game-server/server.js)
 * and the game engine (badugi-game-server/src/services/GameService.js).
 */
module Rooms {
  import opened Options
  import opened Cards
  import opened Evaluation
  import opened Lookup

  /** `room.status`. */
  datatype RoomStatus = Waiting | Playing | InShowdown | Ended

  /** `room.currentPhase`. */
  datatype Phase = WaitingPhase | BettingPhase | ExchangePhase

  /** `player.status`. */
  datatype SeatStatus = SeatWaiting | SeatPlaying | SeatFolded

  /** One seat of `room.players`. */
  datatype Player = Player(
    id: int,
    name: string,
    chips: int,
    socketId: string,
    isCreator: bool,
    leaveReserved: bool,
    currentRoundBet: int,
    folded: bool,
    status: SeatStatus,
    bestHand: Option<Evaluated>,
    canExchange: bool,
    hasActed: bool)

  /**
   * A room. The engine keeps each room's deck and turn timer in maps keyed by room id;
   * here they are the fields `deck` and `timer` (the id of the player the timer is armed for).
   */
  datatype Room = Room(
    id: int,
    name: string,
    creatorId: int,
    betAmount: int,
    maxPlayers: int,
    password: Option<string>,
    isPrivate: bool,
    players: seq<Player>,
    status: RoomStatus,
    bettingRound: int,
    exchangeIndex: int,
    pot: int,
    currentBet: int,
    lastBettingPlayer: Option<int>,
    lastActionPlayer: Option<int>,
    turnIndex: nat,
    turnIndexAtRoundStart: Option<nat>,
    dealerIndex: int,
    dealerId: int,
    smallBlindId: int,
    bigBlindId: int,
    timerLock: bool,
    hands: map<int, seq<Card>>,
    deck: seq<Card>,
    currentTurnPlayer: Option<int>,
    phase: Phase,
    timer: Option<int>)

  /** Four betting rounds, three exchanges between them. */
  const MaxBettingRounds: int := 4
  const MaxExchanges: int := 3

  /** Neither folded nor leaving: the engine's filter for players still in the hand. */
  predicate Active(p: Player) {
    !p.folded && !p.leaveReserved
  }

  function CountActive(ps: seq<Player>): (n: nat)
    ensures n <= |ps|
    decreases |ps|
  {
    if ps == [] then 0 else CountActive(ps[..|ps| - 1]) + (if Active(ps[|ps| - 1]) then 1 else 0)
  }

  function SumChips(ps: seq<Player>): int
    decreases |ps|
  {
    if ps == [] then 0 else SumChips(ps[..|ps| - 1]) + ps[|ps| - 1].chips
  }

  /** The chips in play in a room: every seat's stack plus the pot. */
  function Wealth(r: Room): int {
    SumChips(r.players) + r.pot
  }

  /** `players.findIndex(p => p.id === id)`. */
  function FindIndex(ps: seq<Player>, id: int): (k: int)
    ensures -1 <= k < |ps|
    ensures k >= 0 ==> ps[k].id == id && forall j :: 0 <= j < k ==> ps[j].id != id
    ensures k == -1 ==> forall j :: 0 <= j < |ps| ==> ps[j].id != id
  {
    FindFirst(ps, (p: Player) => p.id == id)
  }

  /** No two seats hold the same user. */
  predicate UniqueIds(ps: seq<Player>) {
    forall i, j :: 0 <= i < j < |ps| ==> ps[i].id != ps[j].id
  }

  predicate Seated(ps: seq<Player>, id: int) {
    exists j :: 0 <= j < |ps| && ps[j].id == id
  }

  /** Replacing one seat changes the chip total by that seat's difference. */
  lemma {:induction false} SumChipsUpdate(ps: seq<Player>, i: nat, p: Player)
    requires i < |ps|
    ensures SumChips(ps[i := p]) == SumChips(ps) - ps[i].chips + p.chips
    decreases |ps|
  {
    var n := |ps| - 1;
    var qs := ps[i := p];
    assert qs[..n] == if i < n then ps[..n][i := p] else ps[..n];
    if i < n {
      SumChipsUpdate(ps[..n], i, p);
    }
  }

  /** The chip total of a concatenation. */
  lemma {:induction false} SumChipsAppend(a: seq<Player>, b: seq<Player>)
    ensures SumChips(a + b) == SumChips(a) + SumChips(b)
    decreases |b|
  {
    if b != [] {
      var n := |b| - 1;
      assert (a + b)[..|a + b| - 1] == a + b[..n];
      assert (a + b)[|a + b| - 1] == b[n];
      SumChipsAppend(a, b[..n]);
    } else {
      assert a + b == a;
    }
  }

  /** The active count of a concatenation. */
  lemma {:induction false} CountActiveAppend(a: seq<Player>, b: seq<Player>)
    ensures CountActive(a + b) == CountActive(a) + CountActive(b)
    decreases |b|
  {
    if b != [] {
      var n := |b| - 1;
      assert (a + b)[..|a + b| - 1] == a + b[..n];
      assert (a + b)[|a + b| - 1] == b[n];
      CountActiveAppend(a, b[..n]);
    } else {
      assert a + b == a;
    }
  }

  /** Some seat is active exactly when the active count is positive. */
  lemma {:induction false} CountActivePositive(ps: seq<Player>)
    ensures CountActive(ps) > 0 <==> exists j :: 0 <= j < |ps| && Active(ps[j])
    decreases |ps|
  {
    if ps != [] {
      var n := |ps| - 1;
      CountActivePositive(ps[..n]);
      if exists j :: 0 <= j < |ps| && Active(ps[j]) {
        var j :| 0 <= j < |ps| && Active(ps[j]);
        if j < n {
          assert ps[..n][j] == ps[j];
        }
      }
      if exists j :: 0 <= j < n && Active(ps[..n][j]) {
        var j :| 0 <= j < n && Active(ps[..n][j]);
        assert ps[j] == ps[..n][j];
      }
    }
  }

  /** At least two active seats means two distinct active seat indices. */
  lemma {:induction false} TwoActiveSeats(ps: seq<Player>)
    requires CountActive(ps) >= 2
    ensures exists i, j :: 0 <= i < |ps| && 0 <= j < |ps| && i != j && Active(ps[i]) && Active(ps[j])
    decreases |ps|
  {
    var n := |ps| - 1;
    if Active(ps[n]) {
      CountActivePositive(ps[..n]);
      var j :| 0 <= j < n && Active(ps[..n][j]);
      assert ps[j] == ps[..n][j];
    } else {
      TwoActiveSeats(ps[..n]);
      var i, j :| 0 <= i < n && 0 <= j < n && i != j && Active(ps[..n][i]) && Active(ps[..n][j]);
      assert ps[i] == ps[..n][i] && ps[j] == ps[..n][j];
    }
  }
}

=== FILE: seqs.dfy ===
/** Order-preserving filtering of sequences, used by the hand comparison and the seat rules. */
module Seqs {
  /** The elements of s that satisfy p, in order. */
  function Filter<T>(s: seq<T>, p: T -> bool): (r: seq<T>)
    ensures |r| <= |s|
    ensures forall x :: x in r ==> x in s && p(x)
    decreases |s|
  {
    if s == [] then []
    else Filter(s[..|s| - 1], p) + (if p(s[|s| - 1]) then [s[|s| - 1]] else [])
  }

  /** Filters with predicates that agree on every element are equal. */
  lemma {:induction false} FilterExt<T>(s: seq<T>, p: T -> bool, q: T -> bool)
    requires forall x :: x in s ==> p(x) == q(x)
    ensures Filter(s, p) == Filter(s, q)
    decreases |s|
  {
    if s != [] {
      assert forall x :: x in s[..|s| - 1] ==> x in s;
      FilterExt(s[..|s| - 1], p, q);
      assert s[|s| - 1] in s;
    }
  }

  /** A filter that no element passes is empty. */
  lemma {:induction false} FilterNone<T>(s: seq<T>, p: T -> bool)
    requires forall x :: x in s ==> !p(x)
    ensures Filter(s, p) == []
    decreases |s|
  {
    if s != [] {
      assert forall x :: x in s[..|s| - 1] ==> x in s;
      FilterNone(s[..|s| - 1], p);
      assert s[|s| - 1] in s;
    }
  }

  /** The filter keeps an element that passes. */
  lemma {:induction false} FilterKeeps<T>(s: seq<T>, p: T -> bool, k: nat)
    requires k < |s| && p(s[k])
    ensures s[k] in Filter(s, p)
    decreases |s|
  {
    if k < |s| - 1 {
      assert s[..|s| - 1][k] == s[k];
      FilterKeeps(s[..|s| - 1], p, k);
    }
  }

  /** The filter of a sequence every element passes is the sequence itself. */
  lemma {:induction false} FilterAll<T>(s: seq<T>, p: T -> bool)
    requires forall x :: x in s ==> p(x)
    ensures Filter(s, p) == s
    decreases |s|
  {
    if s != [] {
      var init, last := s[..|s| - 1], s[|s| - 1];
      assert s == init + [last];
      assert p(last);
      FilterAll(init, p);
    }
  }

  /** Filtering shortens a sequence exactly when some element fails the predicate. */
  lemma {:induction false} FilterShorter<T>(s: seq<T>, p: T -> bool)
    ensures |Filter(s, p)| < |s| <==> exists x :: x in s && !p(x)
    decreases |s|
  {
    if s != [] {
      var init := s[..|s| - 1];
      FilterShorter(init, p);
      assert forall x :: x in s <==> x in init || x == s[|s| - 1];
    }
  }

  /** Filtering distributes over concatenation: the kept elements stay in order. */
  lemma {:induction false} FilterAppend<T>(a: seq<T>, b: seq<T>, p: T -> bool)
    ensures Filter(a + b, p) == Filter(a, p) + Filter(b, p)
    decreases |b|
  {
    if b == [] {
      assert a + b == a;
    } else {
      var n := |b| - 1;
      assert b == b[..n] + [b[n]];
      assert a + b == (a + b[..n]) + [b[n]];
      FilterSnoc(a + b[..n], b[n], p);
      FilterSnoc(b[..n], b[n], p);
      FilterAppend(a, b[..n], p);
    }
  }

  /** Filtering a sequence with one more element at the end. */
  lemma FilterSnoc<T>(s: seq<T>, x: T, p: T -> bool)
    ensures Filter(s + [x], p) == Filter(s, p) + (if p(x) then [x] else [])
  {
    var c := s + [x];
    assert c[..|c| - 1] == s && c[|c| - 1] == x;
  }

  /** Elements told apart by a key. */
  predicate Apart<T, K(==)>(s: seq<T>, key: T -> K) {
    forall i, j :: 0 <= i < j < |s| ==> key(s[i]) != key(s[j])
  }

  /** A filter keeps apart what was apart: it only drops elements. */
  lemma {:induction false} FilterKeepsApart<T, K>(s: seq<T>, p: T -> bool, key: T -> K)
    requires Apart(s, key)
    ensures Apart(Filter(s, p), key)
    decreases |s|
  {
    if s != [] {
      var n := |s| - 1;
      var init := s[..n];
      assert Apart(init, key) by {
        forall i, j | 0 <= i < j < n ensures key(init[i]) != key(init[j]) {
          assert init[i] == s[i] && init[j] == s[j];
        }
      }
      FilterKeepsApart(init, p, key);
      AppendApart(Filter(init, p), init, s[n], key);
    }
  }

  /**
   * Appending an element whose key differs from every key of an apart prefix's source keeps
   * the elements apart.
   */
  lemma AppendApart<T, K>(f: seq<T>, init: seq<T>, x: T, key: T -> K)
    requires Apart(f, key) && Apart(init + [x], key) && forall y :: y in f ==> y in init
    ensures Apart(f + [x], key)
  {
    var s := init + [x];
    forall i, j | 0 <= i < j < |f| + 1 ensures key((f + [x])[i]) != key((f + [x])[j]) {
      if j == |f| {
        assert f[i] in f;
        var k :| 0 <= k < |init| && init[k] == f[i];
        assert s[k] == f[i] && s[|init|] == x;
      } else {
        assert (f + [x])[i] == f[i] && (f + [x])[j] == f[j];
      }
    }
  }
}

=== FILE: settlement.dfy ===
/**
 * showdown and cleanupRoomAfterGame (badugi-game-server/src/services/GameService.js):
 * paying out the pot and resetting the room for the next game.
 */
module Settlement {
  import opened Options
  import opened Cards
  import opened Evaluation
  import opened Seqs
  import opened Comparison
  import opened Rooms

  // ---------------------------------------------------------------------------
  // cleanupRoomAfterGame
  // ---------------------------------------------------------------------------

  const NotLeaving: Player -> bool := (p: Player) => !p.leaveReserved

  /** The per-hand fields a surviving seat gets back. */
  function Reset(p: Player): (q: Player)
    ensures q.id == p.id && q.chips == p.chips && q.leaveReserved == p.leaveReserved
    ensures q.isCreator == p.isCreator && q.socketId == p.socketId && q.name == p.name
    ensures !q.folded && q.currentRoundBet == 0 && q.status == SeatWaiting
    ensures q.bestHand == None && !q.canExchange && !q.hasActed
  {
    p.(currentRoundBet := 0, folded := false, status := SeatWaiting, bestHand := None,
       canExchange := false, hasActed := false)
  }

  /** The seats that stay after a game, reset. */
  function Survivors(ps: seq<Player>): (r: seq<Player>)
    ensures |r| == |Filter(ps, NotLeaving)|
    ensures forall k :: 0 <= k < |r| ==> r[k] == Reset(Filter(ps, NotLeaving)[k])
  {
    var kept := Filter(ps, NotLeaving);
    seq(|kept|, k requires 0 <= k < |kept| => Reset(kept[k]))
  }

  /** The seat list and creator after the creator check of cleanupRoomAfterGame. */
  datatype Seating = Seating(players: seq<Player>, creatorId: int)

  /** A room whose creator left hands the creator role to players[0]. */
  function Reseat(ps: seq<Player>, creatorId: int): (s: Seating)
    requires |ps| > 0
    ensures |s.players| == |ps|
    ensures forall k :: 0 <= k < |ps| ==> s.players[k] == ps[k].(isCreator := s.players[k].isCreator)
    ensures Seated(s.players, s.creatorId)
    ensures Seated(ps, creatorId) ==> s == Seating(ps, creatorId)
    ensures !Seated(ps, creatorId) ==> s.creatorId == ps[0].id && s.players[0].isCreator
  {
    if FindIndex(ps, creatorId) == -1 then Seating(ps[0 := ps[0].(isCreator := true)], ps[0].id)
    else Seating(ps, creatorId)
  }

  /**
   * cleanupRoomAfterGame. None when every seat was leave-reserved (the room is deleted);
   * otherwise the waiting room holding the reset survivors.
   */
  function Cleanup(r: Room): (c: Option<Room>)
    ensures c.None? <==> Filter(r.players, NotLeaving) == []
    ensures c.Some? ==>
      && c.value.status == Waiting && c.value.phase == WaitingPhase
      && c.value.pot == 0 && c.value.currentBet == 0
      && c.value.bettingRound == 0 && c.value.exchangeIndex == -1
      && c.value.dealerIndex == -1 && c.value.timer == None && !c.value.timerLock
      && c.value.lastBettingPlayer == None && c.value.lastActionPlayer == None
  {
    var ps := Survivors(r.players);
    if |ps| == 0 then None
    else
      var seating := Reseat(ps, r.creatorId);
      Some(r.(status := Waiting, bettingRound := 0, exchangeIndex := -1, pot := 0, currentBet := 0,
        lastBettingPlayer := None, phase := WaitingPhase, dealerIndex := -1, dealerId := -1,
        smallBlindId := -1, bigBlindId := -1, lastActionPlayer := None, timerLock := false,
        turnIndexAtRoundStart := None, timer := None,
        players := seating.players, creatorId := seating.creatorId))
  }

  /** The seats of a cleaned-up room are the survivors, up to the creator flag. */
  lemma CleanupPlayers(r: Room)
    requires Cleanup(r).Some?
    ensures Cleanup(r).value.players == Reseat(Survivors(r.players), r.creatorId).players
    ensures Cleanup(r).value.creatorId == Reseat(Survivors(r.players), r.creatorId).creatorId
  {
  }

  /** Exactly the seats that were not leave-reserved survive, each reset, their stacks intact. */
  lemma SurvivorSeats(ps: seq<Player>)
    ensures var qs := Survivors(ps); var kept := Filter(ps, NotLeaving);
      && (forall k :: 0 <= k < |qs| ==>
            && qs[k].id == kept[k].id && qs[k].chips == kept[k].chips
            && !qs[k].leaveReserved && !qs[k].folded && qs[k].currentRoundBet == 0
            && qs[k].bestHand == None && !qs[k].canExchange && !qs[k].hasActed)
      && SumChips(qs) == SumChips(kept)
      && (forall id :: Seated(qs, id) <==> exists j :: 0 <= j < |ps| && ps[j].id == id && !ps[j].leaveReserved)
  {
    var qs := Survivors(ps);
    var kept := Filter(ps, NotLeaving);
    forall k | 0 <= k < |qs| ensures !qs[k].leaveReserved {
      assert kept[k] in kept;
    }
    SameChipsSameSum(qs, kept);
    SurvivorIds(ps);
  }

  /** A user holds a surviving seat exactly when they held a seat not reserved for leaving. */
  lemma SurvivorIds(ps: seq<Player>)
    ensures forall id :: Seated(Survivors(ps), id) <==> exists j :: 0 <= j < |ps| && ps[j].id == id && !ps[j].leaveReserved
  {
    var qs := Survivors(ps);
    var kept := Filter(ps, NotLeaving);
    forall id ensures Seated(qs, id) <==> exists j :: 0 <= j < |ps| && ps[j].id == id && !ps[j].leaveReserved {
      if Seated(qs, id) {
        var k :| 0 <= k < |qs| && qs[k].id == id;
        assert kept[k] in kept;
        var j :| 0 <= j < |ps| && ps[j] == kept[k];
      }
      if exists j :: 0 <= j < |ps| && ps[j].id == id && !ps[j].leaveReserved {
        var j :| 0 <= j < |ps| && ps[j].id == id && !ps[j].leaveReserved;
        FilterKeeps(ps, NotLeaving, j);
        var k :| 0 <= k < |kept| && kept[k] == ps[j];
        assert qs[k].id == id;
      }
    }
  }


  /** Two seat lists with the same stacks position by position hold the same chip total. */
  lemma {:induction false} SameChipsSameSum(a: seq<Player>, b: seq<Player>)
    requires |a| == |b| && forall k :: 0 <= k < |a| ==> a[k].chips == b[k].chips
    ensures SumChips(a) == SumChips(b)
    decreases |a|
  {
    if a != [] {
      SameChipsSameSum(a[..|a| - 1], b[..|b| - 1]);
    }
  }

  /**
   * cleanupRoomAfterGame keeps exactly the seats not reserved for leaving, with their stacks;
   * the pot is discarded; the creator always holds a seat, and is replaced by players[0]
   * only when the old creator is gone.
   */
  lemma CleanupSeats(r: Room)
    requires Cleanup(r).Some?
    ensures var c := Cleanup(r).value; var kept := Filter(r.players, NotLeaving);
      && |c.players| == |kept|
      && (forall k :: 0 <= k < |c.players| ==> c.players[k].id == kept[k].id && c.players[k].chips == kept[k].chips)
      && Wealth(c) == SumChips(kept)
      && (forall id :: Seated(c.players, id) <==> exists j :: 0 <= j < |r.players| && r.players[j].id == id && !r.players[j].leaveReserved)
      && Seated(c.players, c.creatorId)
      && (Seated(kept, r.creatorId) ==> c.creatorId == r.creatorId)
      && (!Seated(kept, r.creatorId) ==> c.creatorId == c.players[0].id && c.players[0].isCreator)
  {
    CleanupStacks(r);
    CleanupMembers(r);
    CleanupCreator(r);
  }

  lemma CleanupStacks(r: Room)
    requires Cleanup(r).Some?
    ensures var c := Cleanup(r).value; var kept := Filter(r.players, NotLeaving);
      && |c.players| == |kept|
      && (forall k :: 0 <= k < |c.players| ==> c.players[k].id == kept[k].id && c.players[k].chips == kept[k].chips)
      && Wealth(c) == SumChips(kept)
  {
    var ps := Survivors(r.players);
    CleanupPlayers(r);
    SurvivorSeats(r.players);
    var s := Reseat(ps, r.creatorId);
    SameChipsSameSum(s.players, ps);
  }

  lemma CleanupMembers(r: Room)
    requires Cleanup(r).Some?
    ensures var c := Cleanup(r).value;
      forall id :: Seated(c.players, id) <==> exists j :: 0 <= j < |r.players| && r.players[j].id == id && !r.players[j].leaveReserved
  {
    var ps := Survivors(r.players);
    CleanupPlayers(r);
    SurvivorIds(r.players);
    var s := Reseat(ps, r.creatorId);
    assert forall id :: Seated(s.players, id) <==> Seated(ps, id) by {
      assert forall k :: 0 <= k < |ps| ==> s.players[k].id == ps[k].id;
    }
  }

  lemma CleanupCreator(r: Room)
    requires Cleanup(r).Some?
    ensures var c := Cleanup(r).value; var kept := Filter(r.players, NotLeaving);
      && |c.players| > 0
      && Seated(c.players, c.creatorId)
      && (Seated(kept, r.creatorId) ==> c.creatorId == r.creatorId)
      && (!Seated(kept, r.creatorId) ==> c.creatorId == c.players[0].id && c.players[0].isCreator)
  {
    var ps := Survivors(r.players);
    var kept := Filter(r.players, NotLeaving);
    CleanupPlayers(r);
    assert Seated(kept, r.creatorId) <==> Seated(ps, r.creatorId) by {
      assert forall k :: 0 <= k < |ps| ==> ps[k].id == kept[k].id;
    }
  }


  /** A reset seat list without leavers survives cleanup unchanged. */
  lemma SurvivorsOfSurvivors(ps: seq<Player>)
    requires forall k :: 0 <= k < |ps| ==> Reset(ps[k]) == ps[k] && !ps[k].leaveReserved
    ensures Survivors(ps) == ps
  {
    FilterAll(ps, NotLeaving);
  }

  /** Cleaning up a room that was just cleaned up changes nothing. */
  lemma CleanupIdempotent(r: Room)
    requires Cleanup(r).Some?
    ensures Cleanup(Cleanup(r).value) == Cleanup(r)
  {
    var c := Cleanup(r).value;
    CleanupPlayers(r);
    SurvivorSeats(r.players);
    var ps := Survivors(r.players);
    var s := Reseat(ps, r.creatorId);
    assert forall k :: 0 <= k < |c.players| ==> Reset(c.players[k]) == c.players[k] && !c.players[k].leaveReserved by {
      forall k | 0 <= k < |c.players| ensures Reset(c.players[k]) == c.players[k] && !c.players[k].leaveReserved {
        assert c.players[k] == ps[k].(isCreator := c.players[k].isCreator);
      }
    }
    SurvivorsOfSurvivors(c.players);
    assert Reseat(c.players, c.creatorId) == Seating(c.players, c.creatorId);
  }

  // ---------------------------------------------------------------------------
  // showdown: paying out the pot
  // ---------------------------------------------------------------------------

  const IsActive: Player -> bool := (p: Player) => Active(p)

  /** The evaluated hand showdown reads; a seat that was never dealt scores as an invalid hand. */
  function BestOf(p: Player): Evaluated {
    match p.bestHand
    case Some(e) => e
    case None => Evaluate([])
  }

  /** `eligiblePlayers.map(p => ({ playerId, hand, bestHand }))`. */
  function EntriesOf(ps: seq<Player>): (es: seq<Entry>)
    ensures |es| == |ps|
    ensures forall k :: 0 <= k < |ps| ==> es[k].playerId == ps[k].id
  {
    seq(|ps|, k requires 0 <= k < |ps| => Entry(ps[k].id, BestOf(ps[k])))
  }

  function WinnerIds(ws: seq<Entry>): (ids: seq<int>)
    ensures |ids| == |ws|
  {
    seq(|ws|, k requires 0 <= k < |ws| => ws[k].playerId)
  }

  /** `pot % n` in JavaScript: the remainder takes the sign of the dividend. */
  function JsRem(a: int, n: int): int
    requires n > 0
  {
    if a >= 0 then a % n else -((-a) % n)
  }

  /** One more chip for each of the first `rem` winners. */
  function Bonus(idx: int, rem: int): int {
    if idx < rem then 1 else 0
  }

  /**
   * `winners.forEach((winner, idx) => ...)`: the seat found by each winner id receives
   * `share`, plus one chip while idx < rem.
   */
  function Pay(ps: seq<Player>, ids: seq<int>, share: int, rem: int): (r: seq<Player>)
    ensures |r| == |ps|
    ensures forall k :: 0 <= k < |ps| ==> r[k].id == ps[k].id
    decreases |ids|
  {
    if ids == [] then ps
    else
      var idx := |ids| - 1;
      var qs := Pay(ps, ids[..idx], share, rem);
      var k := FindIndex(qs, ids[idx]);
      if k >= 0 then qs[k := qs[k].(chips := qs[k].chips + share + Bonus(idx, rem))] else qs
  }

  /** What the payout loop adds to the seat holding id x. */
  function PaidTo(ids: seq<int>, x: int, share: int, rem: int): int
    decreases |ids|
  {
    if ids == [] then 0
    else
      var idx := |ids| - 1;
      PaidTo(ids[..idx], x, share, rem) + (if ids[idx] == x then share + Bonus(idx, rem) else 0)
  }

  /** Paying changes nothing but stacks. */
  lemma {:induction false} PayOnlyStacks(ps: seq<Player>, ids: seq<int>, share: int, rem: int)
    ensures forall k :: 0 <= k < |ps| ==> Pay(ps, ids, share, rem)[k] == ps[k].(chips := Pay(ps, ids, share, rem)[k].chips)
    decreases |ids|
  {
    if ids != [] {
      PayOnlyStacks(ps, ids[..|ids| - 1], share, rem);
    }
  }

  /** Paying only changes stacks, so the seat a winner id finds stays the same. */
  lemma PayKeepsIds(ps: seq<Player>, ids: seq<int>, share: int, rem: int, x: int)
    ensures FindIndex(Pay(ps, ids, share, rem), x) == FindIndex(ps, x)
  {
    var r := Pay(ps, ids, share, rem);
    var a, b := FindIndex(r, x), FindIndex(ps, x);
    assert forall k :: 0 <= k < |ps| ==> r[k].id == ps[k].id;
    if a >= 0 && b >= 0 {
      assert !(a < b) && !(b < a);
    }
  }

  /** With distinct seat ids, every seat gains exactly what the loop pays to its id. */
  lemma {:induction false} PayExact(ps: seq<Player>, ids: seq<int>, share: int, rem: int)
    requires UniqueIds(ps)
    ensures forall k :: 0 <= k < |ps| ==> Pay(ps, ids, share, rem)[k].chips == ps[k].chips + PaidTo(ids, ps[k].id, share, rem)
    decreases |ids|
  {
    if ids != [] {
      var idx := |ids| - 1;
      PayExact(ps, ids[..idx], share, rem);
      var qs := Pay(ps, ids[..idx], share, rem);
      PayKeepsIds(ps, ids[..idx], share, rem, ids[idx]);
      var k0 := FindIndex(qs, ids[idx]);
      forall k | 0 <= k < |ps|
        ensures Pay(ps, ids, share, rem)[k].chips == ps[k].chips + PaidTo(ids, ps[k].id, share, rem)
      {
        if k0 >= 0 && k != k0 {
          assert qs[k].id == ps[k].id && qs[k0].id == ps[k0].id;
        }
      }
    }
  }

  /** A winner listed once, at position idx, receives share plus its bonus. */
  lemma {:induction false} PaidToOnce(ids: seq<int>, i: nat, share: int, rem: int)
    requires i < |ids| && NoDuplicates(ids)
    ensures PaidTo(ids, ids[i], share, rem) == share + Bonus(i, rem)
    decreases |ids|
  {
    var idx := |ids| - 1;
    if i < idx {
      PaidToOnce(ids[..idx], i, share, rem);
    } else {
      PaidToAbsent(ids[..idx], ids[i], share, rem);
    }
  }

  lemma {:induction false} PaidToAbsent(ids: seq<int>, x: int, share: int, rem: int)
    requires x !in ids
    ensures PaidTo(ids, x, share, rem) == 0
    decreases |ids|
  {
    if ids != [] {
      PaidToAbsent(ids[..|ids| - 1], x, share, rem);
    }
  }

  /** How many of the first n winners get the extra chip. */
  function Bonuses(n: nat, rem: int): int
    decreases n
  {
    if n == 0 then 0 else Bonuses(n - 1, rem) + Bonus(n - 1, rem)
  }

  lemma {:induction false} BonusesCount(n: nat, rem: int)
    requires 0 <= rem <= n
    ensures Bonuses(n, rem) == rem
    decreases n
  {
    if rem == n {
      BonusesAll(n, rem);
    } else {
      BonusesCount(n - 1, rem);
    }
  }

  lemma {:induction false} BonusesAll(n: nat, rem: int)
    requires n <= rem
    ensures Bonuses(n, rem) == n
    decreases n
  {
    if n > 0 {
      BonusesAll(n - 1, rem);
    }
  }

  /** A seated id is found by findIndex. */
  lemma SeatedFound(ps: seq<Player>, x: int)
    ensures Seated(ps, x) <==> FindIndex(ps, x) >= 0
  {
  }

  /** One payout step adds exactly what it pays to the chip total. */
  lemma PayStep(ps: seq<Player>, ids: seq<int>, share: int, rem: int)
    requires ids != [] && Seated(ps, ids[|ids| - 1])
    ensures SumChips(Pay(ps, ids, share, rem)) == SumChips(Pay(ps, ids[..|ids| - 1], share, rem)) + share + Bonus(|ids| - 1, rem)
  {
    var idx := |ids| - 1;
    var qs := Pay(ps, ids[..idx], share, rem);
    var k := FindIndex(qs, ids[idx]);
    assert k >= 0 by {
      PayKeepsIds(ps, ids[..idx], share, rem, ids[idx]);
      SeatedFound(ps, ids[idx]);
    }
    var p := qs[k].(chips := qs[k].chips + share + Bonus(idx, rem));
    var r := Pay(ps, ids, share, rem);
    assert r == qs[k := p] by {
      PayLast(ps, ids, share, rem);
    }
    assert SumChips(qs[k := p]) == SumChips(qs) - qs[k].chips + p.chips by {
      SumChipsUpdate(qs, k, p);
    }
  }

  /** The last payout step credits the seat the last winner id finds. */
  lemma PayLast(ps: seq<Player>, ids: seq<int>, share: int, rem: int)
    requires ids != []
    requires FindIndex(Pay(ps, ids[..|ids| - 1], share, rem), ids[|ids| - 1]) >= 0
    ensures var qs := Pay(ps, ids[..|ids| - 1], share, rem); var k := FindIndex(qs, ids[|ids| - 1]);
      Pay(ps, ids, share, rem) == qs[k := qs[k].(chips := qs[k].chips + share + Bonus(|ids| - 1, rem))]
  {
  }


  /** When every winner id is seated, the payout adds share per winner plus the bonuses to the chip total. */
  lemma {:induction false} PayTotal(ps: seq<Player>, ids: seq<int>, share: int, rem: int)
    requires forall i :: 0 <= i < |ids| ==> Seated(ps, ids[i])
    ensures SumChips(Pay(ps, ids, share, rem)) == SumChips(ps) + share * |ids| + Bonuses(|ids|, rem)
    decreases |ids|
  {
    if ids != [] {
      var idx := |ids| - 1;
      var init := ids[..idx];
      assert forall i :: 0 <= i < |init| ==> init[i] == ids[i];
      PayTotal(ps, init, share, rem);
      PayStep(ps, ids, share, rem);
      MulStep(share, |ids|, |init|);
      assert Bonuses(|ids|, rem) == Bonuses(|init|, rem) + Bonus(idx, rem);
    }
  }

  lemma MulStep(a: int, n: nat, m: nat)
    requires m + 1 == n
    ensures a * n == a * m + a
  {
  }

  /** floor(pot / w) each, plus one for the first pot mod w, adds up to the pot. */
  lemma SplitIsExact(pot: int, w: int)
    requires pot >= 0 && w > 0
    ensures (pot / w) * w + Bonuses(w, JsRem(pot, w)) == pot
  {
    BonusesCount(w, pot % w);
  }

  /** The first active seat, if any: `eligiblePlayers[0]` is that seat's object. */
  function FirstActive(ps: seq<Player>): (k: int)
    ensures -1 <= k < |ps|
    ensures k >= 0 ==> Active(ps[k]) && forall j :: 0 <= j < k ==> !Active(ps[j])
    ensures k == -1 ==> forall j :: 0 <= j < |ps| ==> !Active(ps[j])
    decreases |ps|
  {
    if ps == [] then -1
    else if Active(ps[0]) then 0
    else
      var k := FirstActive(ps[1..]);
      if k == -1 then -1 else k + 1
  }

  /** The seats with what each winner takes home; None when nobody is paid. */
  function Payout(ps: seq<Player>, pot: int, force: bool): (q: Option<seq<Player>>)
    ensures q.Some? ==> |q.value| == |ps| && forall k :: 0 <= k < |ps| ==> q.value[k] == ps[k].(chips := q.value[k].chips)
    ensures q.Some? <==> |Filter(ps, IsActive)| > 1 || (force && |Filter(ps, IsActive)| == 1)
    ensures force && |Filter(ps, IsActive)| == 1 ==>
      0 <= FirstActive(ps) && q == Some(ps[FirstActive(ps) := ps[FirstActive(ps)].(chips := ps[FirstActive(ps)].chips + pot)])
  {
    var elig := Filter(ps, IsActive);
    if force && |elig| == 1 then
      var k := FirstActive(ps);
      assert elig[0] in elig;
      Some(ps[k := ps[k].(chips := ps[k].chips + pot)])
    else if |elig| > 1 then
      var winners := Compare(EntriesOf(elig));
      if |winners| > 0 then
        var w := |winners|;
        PayOnlyStacks(ps, WinnerIds(winners), pot / w, JsRem(pot, w));
        Some(Pay(ps, WinnerIds(winners), pot / w, JsRem(pot, w)))
      else None
    else None
  }

  /**
   * The payout part of showdown, before cleanup. A forced showdown with one eligible seat
   * hands it the pot; more than one eligible seat splits the pot among the compared winners;
   * otherwise the game ends with the pot untouched.
   */
  function Settle(r: Room, force: bool): (s: Room)
    ensures s.status == Ended
    ensures |s.players| == |r.players|
    ensures forall k :: 0 <= k < |r.players| ==> s.players[k] == r.players[k].(chips := s.players[k].chips)
  {
    match Payout(r.players, r.pot, force)
    case Some(ps) => r.(players := ps, pot := 0, status := Ended)
    case None => r.(status := Ended)
  }

  /** Every compared winner holds a seat. */
  lemma WinnersSeated(ps: seq<Player>, winners: seq<Entry>)
    requires winners == Compare(EntriesOf(Filter(ps, IsActive)))
    ensures forall i :: 0 <= i < |winners| ==> Seated(ps, WinnerIds(winners)[i])
  {
    var elig := Filter(ps, IsActive);
    var es := EntriesOf(elig);
    var ids := WinnerIds(winners);
    forall i | 0 <= i < |winners| ensures Seated(ps, ids[i]) {
      assert winners[i] in winners;
      var j :| 0 <= j < |es| && es[j] == winners[i];
      assert elig[j] in elig;
      var m :| 0 <= m < |ps| && ps[m] == elig[j];
    }
  }

  /** The key that tells seats apart: the user. */
  const IdOf: Player -> int := (p: Player) => p.id

  /** With distinct seat ids, the compared winners are distinct users. */
  lemma WinnerIdsDistinct(ps: seq<Player>)
    requires UniqueIds(ps)
    ensures NoDuplicates(WinnerIds(Compare(EntriesOf(Filter(ps, IsActive)))))
  {
    var elig := Filter(ps, IsActive);
    var es := EntriesOf(elig);
    assert Apart(ps, IdOf);
    FilterKeepsApart(ps, IsActive, IdOf);
    assert Apart(es, PlayerOf) by {
      forall i, j | 0 <= i < j < |es| ensures PlayerOf(es[i]) != PlayerOf(es[j]) {
        assert IdOf(elig[i]) != IdOf(elig[j]);
      }
    }
    CompareApart(es);
    var ws := Compare(es);
    var ids := WinnerIds(ws);
    forall i, j | 0 <= i < j < |ids| ensures ids[i] != ids[j] {
      assert PlayerOf(ws[i]) != PlayerOf(ws[j]);
    }
  }

  /**
   * Paying distinct winner ids into seats of distinct ids: the i-th winner's seat gains share
   * plus its bonus, and a seat of no winner keeps its stack.
   */
  lemma {:induction false} PayShares(ps: seq<Player>, ids: seq<int>, share: int, rem: int)
    requires UniqueIds(ps) && NoDuplicates(ids)
    ensures forall i, k :: 0 <= i < |ids| && 0 <= k < |ps| && ps[k].id == ids[i] ==>
      Pay(ps, ids, share, rem)[k].chips == ps[k].chips + share + Bonus(i, rem)
    ensures forall k :: 0 <= k < |ps| && ps[k].id !in ids ==> Pay(ps, ids, share, rem)[k].chips == ps[k].chips
  {
    PayExact(ps, ids, share, rem);
    forall i | 0 <= i < |ids| ensures PaidTo(ids, ids[i], share, rem) == share + Bonus(i, rem) {
      PaidToOnce(ids, i, share, rem);
    }
    forall k | 0 <= k < |ps| && ps[k].id !in ids ensures PaidTo(ids, ps[k].id, share, rem) == 0 {
      PaidToAbsent(ids, ps[k].id, share, rem);
    }
  }

  /**
   * A showdown among several eligible seats pays the i-th compared winner `pot / w`, plus one
   * chip while i is below the remainder, and leaves every other seat's stack as it was.
   */
  lemma SplitShares(ps: seq<Player>, pot: int, force: bool)
    requires UniqueIds(ps) && |Filter(ps, IsActive)| > 1
    ensures var ids := WinnerIds(Compare(EntriesOf(Filter(ps, IsActive)))); var w := |ids|;
      && w > 0 && Payout(ps, pot, force).Some?
      && (forall i, k :: 0 <= i < w && 0 <= k < |ps| && ps[k].id == ids[i] ==>
            Payout(ps, pot, force).value[k].chips == ps[k].chips + pot / w + Bonus(i, JsRem(pot, w)))
      && (forall k :: 0 <= k < |ps| && ps[k].id !in ids ==> Payout(ps, pot, force).value[k].chips == ps[k].chips)
  {
    var ids := WinnerIds(Compare(EntriesOf(Filter(ps, IsActive))));
    var w := |ids|;
    assert Payout(ps, pot, force) == Some(Pay(ps, ids, pot / w, JsRem(pot, w)));
    WinnerIdsDistinct(ps);
    PayShares(ps, ids, pot / w, JsRem(pot, w));
  }

  /** A payout hands out exactly the pot, for a non-negative pot. */
  lemma PayoutConserves(ps: seq<Player>, pot: int, force: bool)
    requires pot >= 0 && Payout(ps, pot, force).Some?
    ensures SumChips(Payout(ps, pot, force).value) == SumChips(ps) + pot
  {
    var elig := Filter(ps, IsActive);
    if force && |elig| == 1 {
      assert elig[0] in elig;
      var k := FirstActive(ps);
      var p := ps[k].(chips := ps[k].chips + pot);
      assert Payout(ps, pot, force) == Some(ps[k := p]);
      SumChipsUpdate(ps, k, p);
    } else {
      var winners := Compare(EntriesOf(elig));
      var ids := WinnerIds(winners);
      assert |winners| > 0;
      assert Payout(ps, pot, force) == Some(Pay(ps, ids, pot / |winners|, JsRem(pot, |winners|)));
      WinnersSeated(ps, winners);
      SplitConserves(ps, ids, pot);
    }
  }

  /** Splitting the pot among seated winners hands out exactly the pot. */
  lemma SplitConserves(ps: seq<Player>, ids: seq<int>, pot: int)
    requires pot >= 0 && |ids| > 0
    requires forall i :: 0 <= i < |ids| ==> Seated(ps, ids[i])
    ensures SumChips(Pay(ps, ids, pot / |ids|, JsRem(pot, |ids|))) == SumChips(ps) + pot
  {
    var w := |ids|;
    PayTotal(ps, ids, pot / w, JsRem(pot, w));
    SplitIsExact(pot, w);
  }

  /** Paying out never creates or destroys chips: stacks plus pot are unchanged, for a non-negative pot. */
  lemma SettleConserves(r: Room, force: bool)
    requires r.pot >= 0
    ensures Wealth(Settle(r, force)) == Wealth(r)
  {
    if Payout(r.players, r.pot, force).Some? {
      PayoutConserves(r.players, r.pot, force);
    }
  }

  /** Whenever someone is eligible to be paid, somebody is paid and the pot is emptied. */
  lemma SettleEmptiesPot(r: Room, force: bool)
    requires (force && |Filter(r.players, IsActive)| == 1) || |Filter(r.players, IsActive)| > 1
    ensures Payout(r.players, r.pot, force).Some?
    ensures Settle(r, force).pot == 0
  {
    var elig := Filter(r.players, IsActive);
    if !(force && |elig| == 1) {
      var es := EntriesOf(elig);
      assert es != [];
    }
  }

  /** showdown: settle, then clean up; the room is deleted or back to waiting. */
  function Showdown(r: Room, force: bool): (c: Option<Room>)
    ensures c.Some? ==> c.value.status == Waiting && c.value.timer == None
    ensures c.None? <==> Filter(r.players, NotLeaving) == []
  {
    var s := Settle(r, force);
    assert Filter(s.players, NotLeaving) == [] <==> Filter(r.players, NotLeaving) == [] by {
      SameReservations(s.players, r.players);
    }
    Cleanup(s)
  }

  /** Seat lists that agree on who is leaving filter to lists of the same emptiness. */
  lemma SameReservations(a: seq<Player>, b: seq<Player>)
    requires |a| == |b| && forall k :: 0 <= k < |a| ==> a[k].leaveReserved == b[k].leaveReserved
    ensures Filter(a, NotLeaving) == [] <==> Filter(b, NotLeaving) == []
  {
    if Filter(a, NotLeaving) != [] {
      var x := Filter(a, NotLeaving)[0];
      assert x in Filter(a, NotLeaving);
      var k :| 0 <= k < |a| && a[k] == x;
      FilterKeeps(b, NotLeaving, k);
    }
    if Filter(b, NotLeaving) != [] {
      var x := Filter(b, NotLeaving)[0];
      assert x in Filter(b, NotLeaving);
      var k :| 0 <= k < |b| && b[k] == x;
      FilterKeeps(a, NotLeaving, k);
    }
  }
}

=== FILE: start.dfy ===
/**
 * startGame (badugi-game-server/src/services/GameService.js): antes, dealer and blinds, the
 * first turn, and the deal from a freshly shuffled deck.
 */
module Starting {
  import opened Options
  import opened Cards
  import opened Evaluation
  import opened Rooms
  import opened Settlement
  import opened Dealing
  import opened Turns

  /**
   * What startGame leaves behind: refused before touching the room, failed after changing it
   * (back to waiting), or started.
   */
  datatype Start = Refused | Failed(room: Room) | Started(room: Room)

  /** Every seat can pay the first ante. */
  predicate CanAnte(ps: seq<Player>, ante: int) {
    forall k :: 0 <= k < |ps| ==> ps[k].chips >= ante
  }

  /** The first ante: each seat pays and is reset for the hand, leave reservations included. */
  function AnteUp(ps: seq<Player>, ante: int): (qs: seq<Player>)
    ensures |qs| == |ps|
    ensures forall k :: 0 <= k < |ps| ==>
      && qs[k].id == ps[k].id && qs[k].chips == ps[k].chips - ante
      && Active(qs[k]) && qs[k].status == SeatPlaying && qs[k].bestHand == None
      && qs[k].currentRoundBet == 0 && !qs[k].canExchange && !qs[k].hasActed
  {
    seq(|ps|, k requires 0 <= k < |ps| =>
      ps[k].(chips := ps[k].chips - ante, currentRoundBet := 0, folded := false, status := SeatPlaying,
        bestHand := None, canExchange := false, hasActed := false, leaveReserved := false))
  }

  lemma {:induction false} AnteUpCharges(ps: seq<Player>, ante: int)
    ensures SumChips(AnteUp(ps, ante)) == SumChips(ps) - ante * |ps|
    decreases |ps|
  {
    if ps != [] {
      var n := |ps| - 1;
      assert AnteUp(ps, ante)[..n] == AnteUp(ps[..n], ante);
      AnteUpCharges(ps[..n], ante);
      assert ante * |ps| == ante * n + ante;
    }
  }

  lemma AnteUpIds(ps: seq<Player>, ante: int)
    requires UniqueIds(ps)
    ensures UniqueIds(AnteUp(ps, ante))
  {
    var qs := AnteUp(ps, ante);
    assert forall k :: 0 <= k < |ps| ==> qs[k].id == ps[k].id;
  }

  /** `room.hands[player.id] = hand`, seat by seat. */
  function HandsMap(ps: seq<Player>, hs: seq<seq<Card>>): (m: map<int, seq<Card>>)
    requires |hs| == |ps|
    ensures forall id :: id in m <==> Seated(ps, id)
    decreases |ps|
  {
    if ps == [] then map[]
    else
      var n := |ps| - 1;
      var m := HandsMap(ps[..n], hs[..n]);
      assert forall id :: Seated(ps, id) <==> Seated(ps[..n], id) || id == ps[n].id by {
        forall id | Seated(ps, id) ensures Seated(ps[..n], id) || id == ps[n].id {
          var j :| 0 <= j < |ps| && ps[j].id == id;
          if j < n {
            assert ps[..n][j].id == id;
          }
        }
      }
      m[ps[n].id := hs[n]]
  }

  /** With distinct seat ids, each seat's entry in the map is its own hand. */
  lemma {:induction false} HandsMapLookup(ps: seq<Player>, hs: seq<seq<Card>>)
    requires |hs| == |ps| && UniqueIds(ps)
    ensures forall k :: 0 <= k < |ps| ==> ps[k].id in HandsMap(ps, hs) && HandsMap(ps, hs)[ps[k].id] == hs[k]
    decreases |ps|
  {
    if ps != [] {
      var n := |ps| - 1;
      HandsMapLookup(ps[..n], hs[..n]);
      forall k | 0 <= k < n ensures HandsMap(ps, hs)[ps[k].id] == hs[k] {
        assert ps[..n][k] == ps[k] && hs[..n][k] == hs[k];
        assert ps[k].id != ps[n].id;
      }
    }
  }

  /** `player.bestHand = evaluateBadugiHand(hand)` for every seat. */
  function WithHands(ps: seq<Player>, hs: seq<seq<Card>>): (qs: seq<Player>)
    requires |hs| == |ps|
    ensures |qs| == |ps|
    ensures forall k :: 0 <= k < |ps| ==> qs[k] == ps[k].(bestHand := Some(Evaluate(hs[k])))
  {
    seq(|ps|, k requires 0 <= k < |ps| => ps[k].(bestHand := Some(Evaluate(hs[k]))))
  }

  /**
   * The dealer for this game: the seat after the creator when the dealer index is unset (-1),
   * otherwise the seat after the last dealer.
   */
  function Dealer(dealerIndex: int, creator: nat, n: nat): (d: nat)
    requires creator < n
    ensures d < n
  {
    if dealerIndex < 0 then Next(creator, n) else (dealerIndex + 1) % n
  }

  /**
   * A room startGame gave up on: its resets made (nothing in the pot but what was anted, no
   * hands, no turn), then put back to waiting with the seats `ps` and the dealer index `d`.
   */
  function Unstarted(r: Room, ps: seq<Player>, pot: int, d: int): (r1: Room)
    ensures r1.players == ps && r1.status == Waiting && r1.pot == pot && r1.dealerIndex == d
    ensures r1.id == r.id && r1.maxPlayers == r.maxPlayers && r1.creatorId == r.creatorId
  {
    r.(status := Waiting, bettingRound := 0, exchangeIndex := -1, pot := pot, currentBet := 0,
      lastBettingPlayer := None, hands := map[], currentTurnPlayer := None, phase := BettingPhase,
      lastActionPlayer := None, timerLock := false, turnIndexAtRoundStart := None,
      players := ps, dealerIndex := d)
  }

  /**
   * The started room: antes paid into the pot, dealer and blinds fixed, the first turn given
   * to seat t with its timer armed, and the dealt hands recorded and evaluated.
   */
  function Opening(r: Room, ps: seq<Player>, d: nat, t: nat, dealt: Dealt): (g: Room)
    requires |ps| == |r.players| && d < |ps| && t < |ps| && |dealt.hands| == |ps|
    ensures g.players == WithHands(ps, dealt.hands) && g.deck == dealt.deck
    ensures g.hands == HandsMap(ps, dealt.hands)
    ensures g.dealerIndex == d && g.turnIndex == t
  {
    var n := |ps|;
    var id := ps[t].id;
    r.(status := Playing, bettingRound := 0, exchangeIndex := -1, pot := r.betAmount * n, currentBet := 0,
      lastBettingPlayer := None, hands := HandsMap(ps, dealt.hands), currentTurnPlayer := Some(id),
      phase := BettingPhase, lastActionPlayer := Some(id), timerLock := false, turnIndexAtRoundStart := Some(t),
      players := WithHands(ps, dealt.hands), dealerIndex := d, dealerId := ps[d].id,
      smallBlindId := ps[Next(d, n)].id, bigBlindId := ps[Next(Next(d, n), n)].id,
      turnIndex := t, deck := dealt.deck, timer := Some(id))
  }

  /**
   * startGame with the shuffle's choices given by `pick`. Refused unless the room is waiting
   * with two or more seats; failed (back to waiting) when a seat cannot pay the ante, or,
   * after the antes, when the creator holds no seat.
   */
  function StartGame(r: Room, pick: nat -> nat): (s: Start)
    ensures s.Refused? <==> r.status != Waiting || |r.players| < 2
    ensures s.Failed? ==> s.room.status == Waiting
    ensures !s.Refused? && !CanAnte(r.players, r.betAmount) ==> s.Failed? && s.room.players == r.players
    ensures s.Started? <==> !s.Refused? && CanAnte(r.players, r.betAmount) && Seated(r.players, r.creatorId)
  {
    if r.status != Waiting || |r.players| < 2 then Refused
    else if !CanAnte(r.players, r.betAmount) then Failed(Unstarted(r, r.players, 0, r.dealerIndex))
    else AntedStart(r, ShuffleDeck(FullDeck(), pick))
  }

  /**
   * startGame once every seat can pay: the antes, then, with the creator seated, the dealer,
   * the first turn and the deal from the shuffled `deck`.
   */
  function AntedStart(r: Room, deck: seq<Card>): (s: Start)
    requires |r.players| >= 2 && CanAnte(r.players, r.betAmount)
    ensures !s.Refused?
    ensures s.Failed? ==> s.room.status == Waiting
    ensures s.Started? <==> Seated(r.players, r.creatorId)
  {
    var n := |r.players|;
    var ps := AnteUp(r.players, r.betAmount);
    assert Seated(ps, r.creatorId) <==> Seated(r.players, r.creatorId) by {
      assert forall k :: 0 <= k < n ==> ps[k].id == r.players[k].id;
    }
    if FindIndex(ps, r.creatorId) == -1 then Failed(Unstarted(r, ps, r.betAmount * n, r.dealerIndex))
    else Deal(r, deck)
  }

  /**
   * The rest of startGame once the creator is found among the anted seats: the dealer, then
   * the first active seat after the dealer gets the turn, and the hands are dealt.
   */
  function Deal(r: Room, deck: seq<Card>): (s: Start)
    requires |r.players| >= 2 && CanAnte(r.players, r.betAmount) && Seated(r.players, r.creatorId)
    ensures s.Started?
    ensures s.room == Opening(r, AnteUp(r.players, r.betAmount), DealerOf(r), Next(DealerOf(r), |r.players|),
                              DealHands(|r.players|, deck))
  {
    var n := |r.players|;
    var ps := AnteUp(r.players, r.betAmount);
    var d := DealerOf(r);
    AntedTurn(r);
    match FirstActiveAt(ps, Next(d, n), 0)
    case None => Failed(Unstarted(r, ps, r.betAmount * n, d))
    case Some(t) => Started(Opening(r, ps, d, t, DealHands(n, deck)))
  }

  /** The seat of the creator in the anted seats, and the dealer startGame picks from it. */
  function DealerOf(r: Room): (d: nat)
    requires Seated(r.players, r.creatorId)
    ensures d < |r.players|
  {
    var ci := FindIndex(AnteUp(r.players, r.betAmount), r.creatorId);
    assert ci >= 0 by {
      var j :| 0 <= j < |r.players| && r.players[j].id == r.creatorId;
      assert AnteUp(r.players, r.betAmount)[j].id == r.creatorId;
    }
    Dealer(r.dealerIndex, ci, |r.players|)
  }

  /** A started game is the opening with the first turn on the seat after the dealer. */
  lemma StartedIsOpening(r: Room, pick: nat -> nat)
    requires StartGame(r, pick).Started?
    ensures Seated(r.players, r.creatorId) && |r.players| >= 2
    ensures var n := |r.players|; var d := DealerOf(r);
      StartGame(r, pick).room
        == Opening(r, AnteUp(r.players, r.betAmount), d, Next(d, n), DealHands(n, ShuffleDeck(FullDeck(), pick)))
  {
    StartIsDeal(r, pick);
  }

  /** A game that starts is dealt from the shuffled fresh deck. */
  lemma StartIsDeal(r: Room, pick: nat -> nat)
    requires StartGame(r, pick).Started?
    ensures |r.players| >= 2 && CanAnte(r.players, r.betAmount) && Seated(r.players, r.creatorId)
    ensures StartGame(r, pick) == Deal(r, ShuffleDeck(FullDeck(), pick))
  {
    assert StartGame(r, pick) == AntedStart(r, ShuffleDeck(FullDeck(), pick));
  }

  /** After the antes every seat is active, so the first turn is the seat after the dealer. */
  lemma AntedTurn(r: Room)
    requires |r.players| >= 2 && CanAnte(r.players, r.betAmount) && Seated(r.players, r.creatorId)
    ensures var ps := AnteUp(r.players, r.betAmount); var s := Next(DealerOf(r), |r.players|);
      && FindIndex(ps, r.creatorId) >= 0
      && DealerOf(r) == Dealer(r.dealerIndex, FindIndex(ps, r.creatorId), |r.players|)
      && FirstActiveAt(ps, s, 0) == Some(s)
  {
    CreatorAnted(r);
    var s := Next(DealerOf(r), |r.players|);
    assert Active(AnteUp(r.players, r.betAmount)[s]);
  }

  /** The creator keeps a seat through the antes, and the dealer follows from it. */
  lemma CreatorAnted(r: Room)
    requires Seated(r.players, r.creatorId)
    ensures var ci := FindIndex(AnteUp(r.players, r.betAmount), r.creatorId);
      ci >= 0 && DealerOf(r) == Dealer(r.dealerIndex, ci, |r.players|)
  {
    var j :| 0 <= j < |r.players| && r.players[j].id == r.creatorId;
    assert AnteUp(r.players, r.betAmount)[j].id == r.creatorId;
  }

  /** What the opening room holds, field by field. */
  lemma OpeningState(r: Room, ps: seq<Player>, d: nat, dealt: Dealt)
    requires |ps| == |r.players| >= 2 && d < |ps| && |dealt.hands| == |ps|
    requires forall k :: 0 <= k < |ps| ==> Active(ps[k]) && !ps[k].canExchange && ps[k].currentRoundBet == 0
    ensures var g := Opening(r, ps, d, Next(d, |r.players|), dealt);
      && g.status == Playing && g.phase == BettingPhase
      && g.bettingRound == 0 && g.exchangeIndex == -1
      && g.currentBet == 0 && g.lastBettingPlayer == None
      && g.pot == r.betAmount * |ps| && g.dealerIndex == d
      && g.turnIndex == Next(d, |r.players|)
      && |g.players| == |ps|
      && (forall k :: 0 <= k < |ps| ==> g.players[k].id == ps[k].id && g.players[k].chips == ps[k].chips)
      && Armed(g) && PhaseCounters(g)
  {
    var t := Next(d, |r.players|);
    var g := Opening(r, ps, d, t, dealt);
    assert g.players[t] == ps[t].(bestHand := Some(Evaluate(dealt.hands[t])));
  }

  /**
   * A started game: every seat has paid the ante into the pot, the dealer is a seat, the
   * first turn belongs to the seat after the dealer, its timer is armed, and the first
   * betting round is open with nothing bet.
   */
  lemma StartedState(r: Room, pick: nat -> nat)
    requires StartGame(r, pick).Started?
    ensures var g := StartGame(r, pick).room;
      && g.status == Playing && g.phase == BettingPhase
      && g.bettingRound == 0 && g.exchangeIndex == -1
      && g.currentBet == 0 && g.lastBettingPlayer == None
      && |g.players| == |r.players|
      && (forall k :: 0 <= k < |r.players| ==>
            g.players[k].id == r.players[k].id && g.players[k].chips == r.players[k].chips - r.betAmount)
      && g.pot == r.betAmount * |r.players|
      && 0 <= g.dealerIndex < |r.players|
      && g.turnIndex == Next(g.dealerIndex, |r.players|)
      && Armed(g) && PhaseCounters(g)
  {
    var deck := ShuffleDeck(FullDeck(), pick);
    StartIsDeal(r, pick);
    DealState(r, deck);
    DealSeats(r, deck);
    DealTurn(r, deck);
    DealDealer(r, deck);
  }

  /** StartedState for the deal from any deck, with the dealer startGame picks. */
  lemma DealState(r: Room, deck: seq<Card>)
    requires |r.players| >= 2 && CanAnte(r.players, r.betAmount) && Seated(r.players, r.creatorId)
    ensures var g := Deal(r, deck).room;
      && g.status == Playing && g.phase == BettingPhase
      && g.bettingRound == 0 && g.exchangeIndex == -1
      && g.currentBet == 0 && g.lastBettingPlayer == None
      && g.pot == r.betAmount * |r.players|
      && Armed(g) && PhaseCounters(g)
  {
    OpeningState(r, AnteUp(r.players, r.betAmount), DealerOf(r), DealHands(|r.players|, deck));
  }

  /** The deal's dealer is the one startGame picks. */
  lemma DealDealer(r: Room, deck: seq<Card>)
    requires |r.players| >= 2 && CanAnte(r.players, r.betAmount) && Seated(r.players, r.creatorId)
    ensures Deal(r, deck).room.dealerIndex == DealerOf(r)
  {
    OpeningState(r, AnteUp(r.players, r.betAmount), DealerOf(r), DealHands(|r.players|, deck));
  }

  /** The deal gives the first turn to the seat after the dealer. */
  lemma DealTurn(r: Room, deck: seq<Card>)
    requires |r.players| >= 2 && CanAnte(r.players, r.betAmount) && Seated(r.players, r.creatorId)
    ensures Deal(r, deck).room.turnIndex == Next(DealerOf(r), |r.players|)
  {
    var t := Next(DealerOf(r), |r.players|);
    assert t < |r.players|;
    var o := Opening(r, AnteUp(r.players, r.betAmount), DealerOf(r), t, DealHands(|r.players|, deck));
    assert Deal(r, deck).room == o;
    assert o.turnIndex == t;
  }

  /** The seats of the deal are the anted seats, in order. */
  lemma DealSeats(r: Room, deck: seq<Card>)
    requires |r.players| >= 2 && CanAnte(r.players, r.betAmount) && Seated(r.players, r.creatorId)
    ensures var g := Deal(r, deck).room;
      && |g.players| == |r.players|
      && forall k :: 0 <= k < |r.players| ==>
           g.players[k].id == r.players[k].id && g.players[k].chips == r.players[k].chips - r.betAmount
  {
    var ps := AnteUp(r.players, r.betAmount);
    var dealt := DealHands(|r.players|, deck);
    var qs := Deal(r, deck).room.players;
    assert qs == WithHands(ps, dealt.hands);
    forall k | 0 <= k < |r.players|
      ensures qs[k].id == r.players[k].id && qs[k].chips == r.players[k].chips - r.betAmount
    {
      assert qs[k] == ps[k].(bestHand := Some(Evaluate(dealt.hands[k])));
    }
  }

  /** Whatever startGame does to a room, it keeps the room's identity and its seats' users. */
  lemma StartKeepsSeats(r: Room, pick: nat -> nat)
    requires !StartGame(r, pick).Refused?
    ensures var g := StartGame(r, pick).room;
      && g.id == r.id && g.maxPlayers == r.maxPlayers && g.creatorId == r.creatorId
      && |g.players| == |r.players|
      && forall k :: 0 <= k < |r.players| ==> g.players[k].id == r.players[k].id
  {
    if StartGame(r, pick).Started? {
      StartedIsOpening(r, pick);
      StartedState(r, pick);
    }
  }

  /** The antes move exactly n times the ante from the stacks into the pot. */
  lemma StartConserves(r: Room, pick: nat -> nat)
    requires StartGame(r, pick).Started?
    ensures Wealth(StartGame(r, pick).room) == SumChips(r.players)
  {
    StartedIsOpening(r, pick);
    var n := |r.players|;
    var d := DealerOf(r);
    AnteUpCharges(r.players, r.betAmount);
    OpeningWealth(r, AnteUp(r.players, r.betAmount), d, Next(d, n), DealHands(n, ShuffleDeck(FullDeck(), pick)));
  }

  lemma OpeningWealth(r: Room, ps: seq<Player>, d: nat, t: nat, dealt: Dealt)
    requires |ps| == |r.players| && d < |ps| && t < |ps| && |dealt.hands| == |ps|
    ensures Wealth(Opening(r, ps, d, t, dealt)) == SumChips(ps) + r.betAmount * |ps|
  {
    SameChipsSameSum(WithHands(ps, dealt.hands), ps);
  }

  /**
   * A well-dealt table: every seat holds four cards; two seats never share a card; and no
   * dealt card remains in the deck.
   */
  predicate WellDealt(ps: seq<Player>, hands: map<int, seq<Card>>, deck: seq<Card>) {
    && (forall k :: 0 <= k < |ps| ==>
          && ps[k].id in hands && |hands[ps[k].id]| == 4
          && forall c :: c in hands[ps[k].id] ==> c !in deck)
    && (forall j, k, c :: 0 <= j < k < |ps| && c in hands[ps[j].id] ==> c !in hands[ps[k].id])
  }

  /** Every seat's best hand is the evaluation of the hand recorded for it. */
  predicate BestHandsEvaluated(ps: seq<Player>, hands: map<int, seq<Card>>) {
    forall k :: 0 <= k < |ps| ==> ps[k].id in hands && ps[k].bestHand == Some(Evaluate(hands[ps[k].id]))
  }

  /**
   * The deal of a started game with distinct seat ids and at most 13 seats is well dealt,
   * each seat's best hand is its own hand's evaluation, and the deck keeps the other 52 - 4n
   * cards.
   */
  lemma StartDeals(r: Room, pick: nat -> nat)
    requires StartGame(r, pick).Started? && UniqueIds(r.players) && |r.players| <= 13
    ensures var g := StartGame(r, pick).room;
      && |g.deck| == 52 - 4 * |g.players|
      && WellDealt(g.players, g.hands, g.deck)
      && BestHandsEvaluated(g.players, g.hands)
  {
    StartedIsOpening(r, pick);
    var n := |r.players|;
    var deck := ShuffleDeck(FullDeck(), pick);
    ShuffledDistinct(pick);
    AnteUpIds(r.players, r.betAmount);
    OpeningDealt(r, AnteUp(r.players, r.betAmount), DealerOf(r), deck);
  }

  /** A shuffled fresh deck holds 52 distinct cards. */
  lemma ShuffledDistinct(pick: nat -> nat)
    ensures |ShuffleDeck(FullDeck(), pick)| == 52 && NoDuplicates(ShuffleDeck(FullDeck(), pick))
  {
    FullDeckDistinct();
    PermutationKeepsNoDuplicates(FullDeck(), ShuffleDeck(FullDeck(), pick));
  }

  /** The opening's table, dealt from a duplicate-free deck with four cards per seat. */
  lemma OpeningDealt(r: Room, ps: seq<Player>, d: nat, deck: seq<Card>)
    requires |ps| == |r.players| && d < |ps| && UniqueIds(ps) && NoDuplicates(deck) && 4 * |ps| <= |deck|
    ensures var g := Opening(r, ps, d, Next(d, |ps|), DealHands(|ps|, deck));
      && |g.deck| == |deck| - 4 * |g.players|
      && WellDealt(g.players, g.hands, g.deck)
      && BestHandsEvaluated(g.players, g.hands)
  {
    var n := |ps|;
    var dealt := DealHands(n, deck);
    DealSizes(n, deck);
    DealFromDistinct(ps, deck);
    EvaluatedHands(ps, dealt.hands);
    var qs := WithHands(ps, dealt.hands);
    WellDealtByIds(ps, qs, HandsMap(ps, dealt.hands), dealt.deck);
  }

  /** Dealing one hand per seat from a duplicate-free deck with enough cards is well dealt. */
  lemma DealFromDistinct(ps: seq<Player>, deck: seq<Card>)
    requires UniqueIds(ps) && NoDuplicates(deck) && 4 * |ps| <= |deck|
    ensures var dealt := DealHands(|ps|, deck); WellDealt(ps, HandsMap(ps, dealt.hands), dealt.deck)
  {
    var n := |ps|;
    var dealt := DealHands(n, deck);
    DealSizes(n, deck);
    DealApart(n, deck);
    HandsMapLookup(ps, dealt.hands);
  }

  /** Being well dealt depends on the seats' ids only. */
  lemma WellDealtByIds(a: seq<Player>, b: seq<Player>, hands: map<int, seq<Card>>, deck: seq<Card>)
    requires |a| == |b| && forall k :: 0 <= k < |a| ==> a[k].id == b[k].id
    requires WellDealt(a, hands, deck)
    ensures WellDealt(b, hands, deck)
  {
  }

  /** Recording and evaluating each seat's hand makes every best hand that hand's evaluation. */
  lemma EvaluatedHands(ps: seq<Player>, hs: seq<seq<Card>>)
    requires |hs| == |ps| && UniqueIds(ps)
    ensures BestHandsEvaluated(WithHands(ps, hs), HandsMap(ps, hs))
  {
    HandsMapLookup(ps, hs);
    var qs := WithHands(ps, hs);
    var m := HandsMap(ps, hs);
    forall k | 0 <= k < |ps| ensures qs[k].id in m && qs[k].bestHand == Some(Evaluate(m[qs[k].id])) {
      assert qs[k].id == ps[k].id;
      assert m[ps[k].id] == hs[k];
    }
  }

  /**
   * After a cleanup the dealer index is -1, so the next game's dealer is always the seat after
   * the creator: the dealer does not move round the table from one game to the next.
   */
  lemma DealerFollowsCreator(r: Room, pick: nat -> nat)
    requires Cleanup(r).Some? && StartGame(Cleanup(r).value, pick).Started?
    ensures var c := Cleanup(r).value; var g := StartGame(c, pick).room;
      0 <= FindIndex(c.players, c.creatorId) < |c.players| && g.dealerIndex == Next(FindIndex(c.players, c.creatorId), |c.players|)
  {
    var c := Cleanup(r).value;
    assert c.dealerIndex == -1;
    StartIsDeal(c, pick);
    UnsetDealer(c, ShuffleDeck(FullDeck(), pick));
  }

  /** With the dealer index unset, the deal's dealer is the seat after the creator's. */
  lemma UnsetDealer(c: Room, deck: seq<Card>)
    requires |c.players| >= 2 && CanAnte(c.players, c.betAmount) && Seated(c.players, c.creatorId)
    requires c.dealerIndex < 0
    ensures 0 <= FindIndex(c.players, c.creatorId) < |c.players|
    ensures Deal(c, deck).room.dealerIndex == Next(FindIndex(c.players, c.creatorId), |c.players|)
  {
    DealDealer(c, deck);
    CreatorAnted(c);
    var ps := AnteUp(c.players, c.betAmount);
    var ci := FindIndex(ps, c.creatorId);
    assert ci == FindIndex(c.players, c.creatorId) by {
      assert forall k :: 0 <= k < |ps| ==> ps[k].id == c.players[k].id;
      SameIdsSameIndex(ps, c.players, c.creatorId);
    }
  }

  lemma {:induction false} SameIdsSameIndex(a: seq<Player>, b: seq<Player>, id: int)
    requires |a| == |b| && forall k :: 0 <= k < |a| ==> a[k].id == b[k].id
    ensures FindIndex(a, id) == FindIndex(b, id)
    decreases |a|
  {
    if a != [] && a[0].id != id {
      SameIdsSameIndex(a[1..], b[1..], id);
    }
  }

  /** A freshly created room (dealer index 0) deals its first game from seat 1. */
  lemma FirstGameDealer(r: Room, pick: nat -> nat)
    requires r.dealerIndex == 0 && StartGame(r, pick).Started?
    ensures StartGame(r, pick).room.dealerIndex == 1
  {
    StartIsDeal(r, pick);
    DealDealer(r, ShuffleDeck(FullDeck(), pick));
    CreatorAnted(r);
    var ci := FindIndex(AnteUp(r.players, r.betAmount), r.creatorId);
    DealerAfterFirstSeat(ci, |r.players|);
  }

  /** After seat 0 deals, seat 1 deals next, whoever created the room. */
  lemma DealerAfterFirstSeat(creator: nat, n: nat)
    requires creator < n && 2 <= n
    ensures Dealer(0, creator, n) == 1
  {
  }
}

=== FILE: timeouts.dfy ===
/**
 * handleTimerTimeout (badugi-game-server/src/services/GameService.js): when the turn timer
 * runs out, the player whose turn it is stays automatically in an exchange phase and dies
 * automatically otherwise. The timer is cleared before the handler runs.
 */
module Timeouts {
  import opened Options
  import opened Rooms
  import opened Turns
  import opened Betting
  import opened Exchange

  /** The processing lock released on a room that still exists. */
  function Unlock(next: Option<Room>): (c: Option<Room>)
    ensures c.None? <==> next.None?
    ensures c.Some? ==> c.value == next.value.(timerLock := false)
  {
    match next
    case None => None
    case Some(room) => Some(room.(timerLock := false))
  }

  /**
   * handleTimerTimeout as written. A timeout for a player whose turn is over, or one arriving
   * while another is being handled, is ignored. Otherwise the automatic action runs under the
   * lock; when it is refused, nothing else happens. `None` is a room the showdown's cleanup
   * emptied.
   */
  function HandleTimerTimeout(r: Room, pid: int): (c: Option<Room>)
    ensures r.currentTurnPlayer != Some(pid) || r.timerLock ==> c == Some(r)
    ensures c.Some? ==> !c.value.timerLock || r.timerLock
    ensures c.Some? && c.value.status != Waiting && c.value != r ==> Armed(c.value)
  {
    if r.currentTurnPlayer != Some(pid) || r.timerLock then Some(r)
    else
      var r1 := r.(timerLock := true);
      if r.phase == ExchangePhase then
        match AutoStay(r1, pid)
        case Err(_) => Some(r1.(timerLock := false))
        case Ok(next) => Unlock(next)
      else
        match HandleBettingAction(r1, pid, Die, 0)
        case Err(_) => Some(r1.(timerLock := false))
        case Ok(next) => Unlock(next)
  }

  /** The timer firing: it is cleared, then the handler runs for the player it was armed for. */
  function TimerExpires(r: Room): (c: Option<Room>)
    requires r.timer.Some?
    ensures c.Some? && c.value.status != Waiting ==> c.value.timer == None || Armed(c.value)
  {
    HandleTimerTimeout(r.(timer := None), r.timer.value)
  }

  /**
   * The stall. A player may reserve a leave, or be disconnected, while it is their turn to
   * bet. When their timer then runs out, the automatic die is refused because the seat is
   * leaving, the timer is already gone, and the room stays in play with no timer and a turn
   * nobody can take: every betting action and every exchange is refused, whoever sends it.
   */
  lemma TimeoutStalls(r: Room, pid: int)
    requires r.status == Playing && r.phase == BettingPhase && r.timer == Some(pid)
    requires r.currentTurnPlayer == Some(pid) && !r.timerLock
    requires Seated(r.players, pid) && r.players[FindIndex(r.players, pid)].leaveReserved
    ensures var c := TimerExpires(r);
      && c == Some(r.(timer := None))
      && c.value.status == Playing && !Armed(c.value)
      && (forall q, a, amount :: HandleBettingAction(c.value, q, a, amount).Err?)
      && (forall q, ids :: HandleCardExchange(c.value, q, ids).Refused?)
  {
    var r0 := r.(timer := None);
    assert FindIndex(r0.players, pid) == FindIndex(r.players, pid);
    forall q, a, amount ensures HandleBettingAction(r0, q, a, amount).Err? {
      if q == pid {
        assert Betting.Gate(r0, q, a).Err?;
      }
    }
  }

  /**
   * handleTimerTimeout as evidently intended: when the automatic action is refused, the turn
   * still moves on, so a timeout never leaves a room in play without a timer.
   */
  function HandleTimerTimeoutFixed(r: Room, pid: int): (c: Option<Room>)
    ensures r.currentTurnPlayer != Some(pid) || r.timerLock ==> c == Some(r)
    ensures c.Some? && (r.currentTurnPlayer == Some(pid) && !r.timerLock) ==> c.value.status == Waiting || Armed(c.value)
    ensures c.Some? ==> !c.value.timerLock || r.timerLock
  {
    if r.currentTurnPlayer != Some(pid) || r.timerLock then Some(r)
    else
      var r1 := r.(timerLock := true);
      if r.phase == ExchangePhase then
        match AutoStay(r1, pid)
        case Err(_) => Unlock(AdvanceTurn(r1))
        case Ok(next) => Unlock(next)
      else
        match HandleBettingAction(r1, pid, Die, 0)
        case Err(_) => Unlock(AdvanceTurn(r1))
        case Ok(next) => Unlock(next)
  }

  /** With the correction, an expired timer always leaves the room waiting, gone, or armed again. */
  lemma FixedTimeoutRearms(r: Room)
    requires r.timer.Some? && r.currentTurnPlayer == r.timer && !r.timerLock
    ensures var c := HandleTimerTimeoutFixed(r.(timer := None), r.timer.value);
      c.Some? ==> c.value.status == Waiting || Armed(c.value)
  {
  }

  /** The correction changes nothing when the automatic action is accepted. */
  lemma FixedAgreesWhenAccepted(r: Room, pid: int)
    requires r.currentTurnPlayer == Some(pid) && !r.timerLock
    requires r.phase == ExchangePhase ==> AutoStay(r.(timerLock := true), pid).Ok?
    requires r.phase != ExchangePhase ==> HandleBettingAction(r.(timerLock := true), pid, Die, 0).Ok?
    ensures HandleTimerTimeoutFixed(r, pid) == HandleTimerTimeout(r, pid)
  {
  }
}

=== FILE: turns.dfy ===
/**
 * Turn order and phase changes (badugi-game-server/src/services/GameService.js): advanceTurn,
 * handlePhaseTransitionAfterBetting and handlePhaseTransitionAfterExchange.
 */
module Turns {
  import opened Options
  import opened Seqs
  import opened Rooms
  import opened Settlement

  // ---------------------------------------------------------------------------
  // Seat arithmetic
  // ---------------------------------------------------------------------------

  /** `(i + 1) % n` for a seat index i < n: the next seat round the table. */
  function Next(i: nat, n: nat): (j: nat)
    requires i < n
    ensures j < n
  {
    if i + 1 == n then 0 else i + 1
  }

  lemma NextIsMod(i: nat, n: nat)
    requires i < n
    ensures Next(i, n) == (i + 1) % n
  {
  }

  /** How many steps forward, round a table of n seats, seat i lies from seat t. */
  function Offset(t: nat, i: nat, n: nat): (d: nat)
    requires t < n && i < n
    ensures d < n && (d == 0 <==> i == t)
  {
    if i >= t then i - t else i + n - t
  }

  // ---------------------------------------------------------------------------
  // advanceTurn's search for the next seat
  // ---------------------------------------------------------------------------

  /** A seat that may act: still in the hand and, during an exchange, not yet done exchanging. */
  predicate CanTakeTurn(p: Player, phase: Phase) {
    Active(p) && !(phase == ExchangePhase && !p.canExchange)
  }

  /**
   * The do-while loop of advanceTurn at iteration k, looking at seat `cur`: give up when back
   * at the player whose turn it was (after the first step), take the seat if it may act,
   * otherwise step to the next seat; give up after n+1 seats.
   */
  function Rotate(ps: seq<Player>, cur: nat, initial: Option<int>, phase: Phase, k: nat): (r: Option<nat>)
    requires cur < |ps|
    ensures r.Some? ==> r.value < |ps| && CanTakeTurn(ps[r.value], phase)
    decreases |ps| + 1 - k
  {
    if k > |ps| then None
    else if Some(ps[cur].id) == initial && k > 0 then None
    else if CanTakeTurn(ps[cur], phase) then Some(cur)
    else Rotate(ps, Next(cur, |ps|), initial, phase, k + 1)
  }

  /** Seat i is the first seat after t, going round the table, that may act. */
  predicate NextToAct(ps: seq<Player>, t: nat, phase: Phase, i: nat)
    requires t < |ps|
  {
    && i < |ps| && i != t && CanTakeTurn(ps[i], phase)
    && forall j :: 0 <= j < |ps| && j != t && Offset(t, j, |ps|) < Offset(t, i, |ps|) ==> !CanTakeTurn(ps[j], phase)
  }

  lemma {:induction false} RotateFrom(ps: seq<Player>, t: nat, cur: nat, phase: Phase, k: nat)
    requires UniqueIds(ps) && |ps| >= 2 && t < |ps| && cur < |ps| && k + 1 <= |ps|
    requires cur == t <==> k + 1 == |ps|
    requires cur != t ==> Offset(t, cur, |ps|) == k + 1
    ensures var r := Rotate(ps, cur, Some(ps[t].id), phase, k);
      && (r.Some? ==>
            && r.value != t && k + 1 <= Offset(t, r.value, |ps|)
            && forall j :: 0 <= j < |ps| && j != t && k + 1 <= Offset(t, j, |ps|) < Offset(t, r.value, |ps|) ==> !CanTakeTurn(ps[j], phase))
      && (r.None? ==> forall j :: 0 <= j < |ps| && j != t && k + 1 <= Offset(t, j, |ps|) ==> !CanTakeTurn(ps[j], phase))
    decreases |ps| - k
  {
    if cur != t {
      assert ps[cur].id != ps[t].id;
      if !CanTakeTurn(ps[cur], phase) {
        RotateFrom(ps, t, Next(cur, |ps|), phase, k + 1);
      }
    }
  }

  /**
   * When the turn index points at the seat whose turn it was and ids are distinct, advanceTurn's
   * loop finds exactly the next seat round the table that may act, and finds none only when
   * no other seat may act.
   */
  lemma RotateFindsNext(ps: seq<Player>, t: nat, phase: Phase)
    requires UniqueIds(ps) && |ps| >= 2 && t < |ps|
    ensures var r := Rotate(ps, (t + 1) % |ps|, Some(ps[t].id), phase, 0);
      && (r.Some? ==> NextToAct(ps, t, phase, r.value))
      && (r.None? <==> forall j :: 0 <= j < |ps| && j != t ==> !CanTakeTurn(ps[j], phase))
  {
    NextIsMod(t, |ps|);
    RotateFrom(ps, t, Next(t, |ps|), phase, 0);
  }

  // ---------------------------------------------------------------------------
  // The first-turn search of startGame and the phase transitions
  // ---------------------------------------------------------------------------

  /** From seat `cur`, the k-th seat after `from`, the first of the remaining seats still in the hand. */
  function FirstActiveAt(ps: seq<Player>, cur: nat, k: nat): (r: Option<nat>)
    requires cur < |ps|
    ensures r.Some? ==> r.value < |ps| && Active(ps[r.value])
    decreases |ps| - k
  {
    if k >= |ps| then None
    else if Active(ps[cur]) then Some(cur)
    else FirstActiveAt(ps, Next(cur, |ps|), k + 1)
  }

  lemma {:induction false} FirstActiveFrom(ps: seq<Player>, from: nat, cur: nat, k: nat)
    requires from < |ps| && cur < |ps| && k < |ps| && Offset(from, cur, |ps|) == k
    ensures var r := FirstActiveAt(ps, cur, k);
      && (r.Some? ==>
            && k <= Offset(from, r.value, |ps|)
            && forall j :: 0 <= j < |ps| && k <= Offset(from, j, |ps|) < Offset(from, r.value, |ps|) ==> !Active(ps[j]))
      && (r.None? ==> forall j :: 0 <= j < |ps| && k <= Offset(from, j, |ps|) ==> !Active(ps[j]))
    decreases |ps| - k
  {
    if !Active(ps[cur]) && k + 1 < |ps| {
      FirstActiveFrom(ps, from, Next(cur, |ps|), k + 1);
    }
  }

  /** The first-turn search finds the first seat at or after `from` still in the hand, and fails only when nobody is. */
  lemma FirstActiveFinds(ps: seq<Player>, from: nat)
    requires from < |ps|
    ensures var r := FirstActiveAt(ps, from, 0);
      && (r.Some? ==> forall j :: 0 <= j < |ps| && Offset(from, j, |ps|) < Offset(from, r.value, |ps|) ==> !Active(ps[j]))
      && (r.None? <==> CountActive(ps) == 0)
  {
    FirstActiveFrom(ps, from, from, 0);
    CountActivePositive(ps);
  }

  // ---------------------------------------------------------------------------
  // Phase completion
  // ---------------------------------------------------------------------------

  /** A seat has matched the bet, or is all-in below it. */
  predicate Matched(p: Player, currentBet: int) {
    p.currentRoundBet == currentBet || (p.chips == 0 && p.currentRoundBet < currentBet)
  }

  /**
   * The betting phase is over: after a bet, every seat in the hand has matched it and the turn
   * is back with the last bettor; with no bet, every seat in the hand has acted.
   */
  predicate BettingClosed(r: Room) {
    if r.currentBet > 0 then
      && (forall k :: 0 <= k < |r.players| && Active(r.players[k]) ==> Matched(r.players[k], r.currentBet))
      && r.currentTurnPlayer == r.lastBettingPlayer && r.lastBettingPlayer.Some?
    else
      forall k :: 0 <= k < |r.players| && Active(r.players[k]) ==> r.players[k].hasActed
  }

  /** The exchange phase is over when no seat in the hand may still exchange. */
  predicate ExchangeClosed(r: Room) {
    forall k :: 0 <= k < |r.players| && Active(r.players[k]) ==> !r.players[k].canExchange
  }

  /** A room in play has its timer armed for the player whose turn it is, and that player may act. */
  predicate Armed(r: Room) {
    && r.currentTurnPlayer.Some? && r.timer == r.currentTurnPlayer
    && r.turnIndex < |r.players| && r.players[r.turnIndex].id == r.currentTurnPlayer.value
    && CanTakeTurn(r.players[r.turnIndex], r.phase)
  }

  /**
   * The legal positions of the round counters while a game is in play: betting round b is
   * preceded by b exchanges, and exchange e follows betting round e.
   */
  predicate PhaseCounters(r: Room) {
    r.status == Playing ==>
      || (r.phase == BettingPhase && r.exchangeIndex == r.bettingRound - 1 && 0 <= r.bettingRound < MaxBettingRounds)
      || (r.phase == ExchangePhase && r.exchangeIndex == r.bettingRound && 0 <= r.bettingRound < MaxExchanges)
  }

  // ---------------------------------------------------------------------------
  // handlePhaseTransitionAfterBetting
  // ---------------------------------------------------------------------------

  /** Entering an exchange: seats in the hand may exchange, and every bet of the round is cleared. */
  function OpenExchange(ps: seq<Player>): (qs: seq<Player>)
    ensures |qs| == |ps|
    ensures forall k :: 0 <= k < |ps| ==>
      && qs[k] == ps[k].(canExchange := qs[k].canExchange, hasActed := false, currentRoundBet := 0)
      && (Active(ps[k]) ==> qs[k].canExchange) && (!Active(ps[k]) ==> qs[k].canExchange == ps[k].canExchange)
  {
    seq(|ps|, k requires 0 <= k < |ps| =>
      ps[k].(canExchange := if Active(ps[k]) then true else ps[k].canExchange, hasActed := false, currentRoundBet := 0))
  }

  /** `players.findIndex(p => p.id === lastActionPlayerId)`, which finds nothing for null. */
  function IndexOf(ps: seq<Player>, id: Option<int>): (k: int)
    ensures -1 <= k < |ps|
  {
    match id
    case None => -1
    case Some(x) => FindIndex(ps, x)
  }

  /**
   * handlePhaseTransitionAfterBetting. While exchanges remain, open the next one, starting with
   * the first seat in the hand after the last player to act (after the dealer when that player
   * is gone); after the last betting round, go to showdown.
   */
  function AfterBetting(r: Room): (c: Option<Room>)
    requires |r.players| > 0
    ensures r.exchangeIndex + 1 >= MaxExchanges ==> c == Showdown(r, false)
    ensures c.Some? && c.value.status != Waiting ==>
      && r.exchangeIndex + 1 < MaxExchanges
      && c.value.phase == ExchangePhase && c.value.exchangeIndex == r.exchangeIndex + 1
      && c.value.bettingRound == r.bettingRound && c.value.status == r.status
      && c.value.currentBet == 0 && c.value.lastBettingPlayer == None
      && (forall k :: 0 <= k < |c.value.players| ==> c.value.players[k].currentRoundBet == 0)
      && Armed(c.value) && Wealth(c.value) == Wealth(r)
    ensures r.exchangeIndex + 1 < MaxExchanges && r.status != Waiting && CountActive(r.players) > 0 ==>
      c.Some? && c.value.status == r.status
  {
    if r.exchangeIndex + 1 < MaxExchanges then NextExchange(r) else Showdown(r, false)
  }

  /** The branch of handlePhaseTransitionAfterBetting that opens the next exchange. */
  function NextExchange(r: Room): (c: Option<Room>)
    requires |r.players| > 0
    ensures c.Some? && c.value.status != Waiting ==>
      && c.value.phase == ExchangePhase && c.value.exchangeIndex == r.exchangeIndex + 1
      && c.value.bettingRound == r.bettingRound && c.value.status == r.status
      && c.value.currentBet == 0 && c.value.lastBettingPlayer == None
      && (forall k :: 0 <= k < |c.value.players| ==> c.value.players[k].currentRoundBet == 0)
      && Armed(c.value) && Wealth(c.value) == Wealth(r)
    ensures r.status != Waiting && CountActive(r.players) > 0 ==> c.Some? && c.value.status == r.status
  {
    var n := |r.players|;
    var ps := OpenExchange(r.players);
    SameActive(ps, r.players);
    var last := IndexOf(r.players, r.lastActionPlayer);
    var base := if last == -1 then r.dealerIndex else last;
    FirstActiveFinds(ps, (base + 1) % n);
    match FirstActiveAt(ps, (base + 1) % n, 0)
    case None =>
      Showdown(r.(phase := ExchangePhase, exchangeIndex := r.exchangeIndex + 1, players := ps,
        lastBettingPlayer := None, currentBet := 0), true)
    case Some(i) =>
      ExchangeOpenedState(r, ps, i);
      Some(ExchangeOpened(r, ps, i))
  }

  /** The exchange opened with seat i to act first and its timer armed. */
  function ExchangeOpened(r: Room, ps: seq<Player>, i: nat): (c: Room)
    requires i < |ps|
    ensures c.players == ps && c.turnIndex == i && c.timer == c.currentTurnPlayer == Some(ps[i].id)
  {
    r.(phase := ExchangePhase, exchangeIndex := r.exchangeIndex + 1, players := ps,
      lastBettingPlayer := None, currentBet := 0, turnIndex := i, currentTurnPlayer := Some(ps[i].id),
      turnIndexAtRoundStart := Some(i), timer := Some(ps[i].id))
  }

  lemma ExchangeOpenedState(r: Room, ps: seq<Player>, i: nat)
    requires ps == OpenExchange(r.players) && i < |ps| && Active(ps[i])
    ensures var c := ExchangeOpened(r, ps, i);
      && c.phase == ExchangePhase && c.exchangeIndex == r.exchangeIndex + 1
      && c.bettingRound == r.bettingRound && c.status == r.status
      && c.currentBet == 0 && c.lastBettingPlayer == None
      && (forall k :: 0 <= k < |c.players| ==> c.players[k].currentRoundBet == 0)
      && Armed(c) && Wealth(c) == Wealth(r)
  {
    SameChipsSameSum(ps, r.players);
  }

  // ---------------------------------------------------------------------------
  // handlePhaseTransitionAfterExchange
  // ---------------------------------------------------------------------------

  /** Entering a betting round: bets and flags cleared, and every seat in the hand pays the ante, unchecked. */
  function OpenBetting(ps: seq<Player>, ante: int): (qs: seq<Player>)
    ensures |qs| == |ps|
    ensures forall k :: 0 <= k < |ps| ==>
      qs[k] == ps[k].(chips := if Active(ps[k]) then ps[k].chips - ante else ps[k].chips,
        currentRoundBet := 0, hasActed := false, canExchange := false)
  {
    seq(|ps|, k requires 0 <= k < |ps| =>
      ps[k].(chips := if Active(ps[k]) then ps[k].chips - ante else ps[k].chips,
        currentRoundBet := 0, hasActed := false, canExchange := false))
  }

  /** The antes taken from the stacks are exactly ante times the seats in the hand. */
  lemma {:induction false} OpenBettingCharges(ps: seq<Player>, ante: int)
    ensures SumChips(OpenBetting(ps, ante)) == SumChips(ps) - ante * CountActive(ps)
    decreases |ps|
  {
    if ps != [] {
      var n := |ps| - 1;
      var qs := OpenBetting(ps, ante);
      assert qs[..n] == OpenBetting(ps[..n], ante);
      OpenBettingCharges(ps[..n], ante);
      assert ante * CountActive(ps) == ante * CountActive(ps[..n]) + (if Active(ps[n]) then ante else 0);
    }
  }

  /** Phase changes touch neither `folded` nor `leaveReserved`, so the same seats remain in the hand. */
  lemma {:induction false} SameActive(a: seq<Player>, b: seq<Player>)
    requires |a| == |b| && forall k :: 0 <= k < |a| ==> Active(a[k]) == Active(b[k])
    ensures CountActive(a) == CountActive(b)
    decreases |a|
  {
    if a != [] {
      SameActive(a[..|a| - 1], b[..|b| - 1]);
    }
  }

  /**
   * handlePhaseTransitionAfterExchange. The betting round advances; if one remains, every seat
   * in the hand antes into the pot and the first seat in the hand from the dealer's left acts;
   * otherwise showdown.
   */
  function AfterExchange(r: Room): (c: Option<Room>)
    requires |r.players| > 0
    ensures r.bettingRound + 1 >= MaxBettingRounds ==> c == Showdown(r.(bettingRound := r.bettingRound + 1), false)
    ensures c.Some? && c.value.status != Waiting ==>
      && r.bettingRound + 1 < MaxBettingRounds
      && c.value.phase == BettingPhase && c.value.bettingRound == r.bettingRound + 1
      && c.value.exchangeIndex == r.exchangeIndex && c.value.status == r.status
      && c.value.currentBet == 0 && c.value.lastBettingPlayer == None
      && c.value.pot == r.pot + r.betAmount * CountActive(r.players)
      && Armed(c.value) && Wealth(c.value) == Wealth(r)
      && c.value.players == OpenBetting(r.players, r.betAmount)
    ensures r.bettingRound + 1 < MaxBettingRounds && r.status != Waiting && CountActive(r.players) > 0 ==>
      c.Some? && c.value.status == r.status
  {
    if r.bettingRound + 1 < MaxBettingRounds then NextBettingRound(r)
    else Showdown(r.(bettingRound := r.bettingRound + 1), false)
  }

  /** The branch of handlePhaseTransitionAfterExchange that opens the next betting round. */
  function NextBettingRound(r: Room): (c: Option<Room>)
    requires |r.players| > 0
    ensures c.Some? && c.value.status != Waiting ==>
      && c.value.phase == BettingPhase && c.value.bettingRound == r.bettingRound + 1
      && c.value.exchangeIndex == r.exchangeIndex && c.value.status == r.status
      && c.value.currentBet == 0 && c.value.lastBettingPlayer == None
      && c.value.pot == r.pot + r.betAmount * CountActive(r.players)
      && Armed(c.value) && Wealth(c.value) == Wealth(r)
      && c.value.players == OpenBetting(r.players, r.betAmount)
    ensures r.status != Waiting && CountActive(r.players) > 0 ==> c.Some? && c.value.status == r.status
  {
    var n := |r.players|;
    var ps := OpenBetting(r.players, r.betAmount);
    var pot := r.pot + r.betAmount * CountActive(r.players);
    SameActive(ps, r.players);
    FirstActiveFinds(ps, (r.dealerIndex + 1) % n);
    match FirstActiveAt(ps, (r.dealerIndex + 1) % n, 0)
    case None =>
      Showdown(r.(bettingRound := r.bettingRound + 1, phase := BettingPhase, currentBet := 0,
        lastBettingPlayer := None, players := ps, pot := pot), true)
    case Some(i) =>
      BettingOpenedState(r, ps, pot, i);
      Some(BettingOpened(r, ps, pot, i))
  }

  lemma BettingOpenedState(r: Room, ps: seq<Player>, pot: int, i: nat)
    requires ps == OpenBetting(r.players, r.betAmount) && pot == r.pot + r.betAmount * CountActive(r.players)
    requires i < |ps| && Active(ps[i])
    ensures var c := BettingOpened(r, ps, pot, i);
      && c.phase == BettingPhase && c.bettingRound == r.bettingRound + 1
      && c.exchangeIndex == r.exchangeIndex && c.status == r.status
      && c.currentBet == 0 && c.lastBettingPlayer == None
      && Armed(c) && Wealth(c) == Wealth(r)
  {
    OpenBettingCharges(r.players, r.betAmount);
  }

  /** The next betting round opened with seat i to act first and its timer armed. */
  function BettingOpened(r: Room, ps: seq<Player>, pot: int, i: nat): (c: Room)
    requires i < |ps|
    ensures c.players == ps && c.pot == pot && c.turnIndex == i && c.timer == c.currentTurnPlayer == Some(ps[i].id)
  {
    r.(bettingRound := r.bettingRound + 1, phase := BettingPhase, currentBet := 0, lastBettingPlayer := None,
      players := ps, pot := pot, turnIndex := i, currentTurnPlayer := Some(ps[i].id),
      turnIndexAtRoundStart := Some(i), timer := Some(ps[i].id))
  }

  // ---------------------------------------------------------------------------
  // advanceTurn
  // ---------------------------------------------------------------------------

  /**
   * advanceTurn. With at most one seat left in the hand, the game is forced to showdown; a
   * finished phase moves to the next; otherwise the turn passes to the next seat that may act,
   * and the timer is armed for it.
   */
  function AdvanceTurn(r: Room): (c: Option<Room>)
    ensures c.Some? ==> c.value.status == Waiting || (c.value.status == r.status && Armed(c.value))
    ensures c.Some? && c.value.status != Waiting ==> Wealth(c.value) == Wealth(r)
  {
    var r0 := r.(timer := None);
    if CountActive(r.players) <= 1 then Showdown(r0, true)
    else if r.phase == BettingPhase && BettingClosed(r) then AfterBetting(r0)
    else if r.phase == ExchangePhase && ExchangeClosed(r) then AfterExchange(r0)
    else
      match Rotate(r.players, (r.turnIndex + 1) % |r.players|, r.currentTurnPlayer, r.phase, 0)
      case None => Showdown(r0, true)
      case Some(i) =>
        var id := r.players[i].id;
        Some(r0.(turnIndex := i, currentTurnPlayer := Some(id), timer := Some(id)))
  }

  /** advanceTurn keeps the round counters in their legal pattern. */
  lemma AdvanceKeepsCounters(r: Room)
    requires PhaseCounters(r)
    ensures AdvanceTurn(r).Some? ==> PhaseCounters(AdvanceTurn(r).value)
  {
  }

  /**
   * With two or more seats in the hand, a betting round that closes before the last one
   * always opens an exchange, and a closing exchange always opens the next betting round.
   */
  lemma AdvanceMovesPhase(r: Room)
    requires r.status == Playing && PhaseCounters(r) && CountActive(r.players) >= 2
    ensures r.phase == BettingPhase && BettingClosed(r) && r.exchangeIndex + 1 < MaxExchanges ==>
      var c := AdvanceTurn(r);
      c.Some? && c.value.status == Playing && c.value.phase == ExchangePhase && c.value.exchangeIndex == r.exchangeIndex + 1
    ensures r.phase == ExchangePhase && ExchangeClosed(r) ==>
      var c := AdvanceTurn(r);
      c.Some? && c.value.status == Playing && c.value.phase == BettingPhase && c.value.bettingRound == r.bettingRound + 1
    ensures r.phase == BettingPhase && BettingClosed(r) && r.exchangeIndex + 1 >= MaxExchanges ==>
      r.bettingRound == MaxBettingRounds - 1 && (AdvanceTurn(r).Some? ==> AdvanceTurn(r).value.status == Waiting)
  {
  }

  /**
   * The per-round ante of handlePhaseTransitionAfterExchange is charged without looking at the
   * stack: a seat in the hand holding less than the ante ends up with a negative stack.
   */
  lemma AnteCanGoNegative(r: Room, k: nat)
    requires k < |r.players| && Active(r.players[k]) && r.players[k].chips < r.betAmount
    requires r.bettingRound + 1 < MaxBettingRounds && r.status == Playing
    ensures var c := AfterExchange(r); c.Some? && c.value.players == OpenBetting(r.players, r.betAmount)
    ensures OpenBetting(r.players, r.betAmount)[k].chips < 0
  {
    CountActivePositive(r.players);
  }
}
